=== FILE: README.md ===
# Fallball connector: a Dafny model of its decision logic

The Fallball connector is a Flask service. It sits between the platform
controller (OA, the APS application host) and the Fallball Storage Service.
When the platform asks it to provision a tenant, assign a user or remove an
application instance, it translates the request into calls on the Storage
Service and answers the platform.

This project models the connector's decisions in two revisions:

- the later one, under `connector/v1/`;
- the earlier one, under `connector/resources/`.

Every request to the platform or the Storage Service becomes an input: an
answer or the Python exception it raised (`PyJson.Result`). A handler becomes
a pure function that returns an `Effects.Outcome`. An outcome is the value the
handler returned or the exception it raised, together with the requests that
change something, in order: the Storage Service writes, the login-link
requests and the platform writes and notifications. Reads are inputs and are
not recorded. Python's dynamic values are a small
JSON datatype. The datatype comes with Python truthiness, `in`, `len`,
indexing and `str.format`, because those drive the connector's branches and
its error cases.

Modules, one per concern of the program:

- `PyJson`, `Http` (pyjson.dfy): Python values and exceptions, and the response shape.
- `Sanitize`, `Headers` (sanitize.dfy): `urlify`, `str.strip`, `escape_domain_name` and `parse_headers`.
- `Memo` (memo.dfy): the `Memoize` decorator, with the cache passed in and out explicitly.
- `Params` (params.dfy): `parameter_validator`.
- `PyFormat` (pyformat.dfy): `str.format` with one positional argument.
- `Settings` (settings.dfy): the configuration values, as parameters.
- `Storage`, `Effects` (storage.dfy): the Storage Service records and the requests a handler makes.
- `Naming` (naming.dfy): the client name, `get_name_for_tenant` and the default admin address.
- `Usage` (usage.dfy): the usage-counter dictionary.
- `OaV1`, `OaV0` (oa.dfy): the platform gateway of each revision. This covers `make_error`, the retry loop, outbound headers, notifications, subscriptions and the user schema.
- `TenantV1`, `TenantV0` (tenant1.dfy, tenant0.dfy): tenant provisioning and the tenant endpoints.
- `UserRules` (user_rules.dfy): the quota and profile rules both revisions share.
- `UserV1`, `UserV0` (user1.dfy, user0.dfy): the user endpoints.
- `Application` (application.dfy): the reseller-name lookup and the application endpoints.
- `Gate` (gate.dfy): the request gating of `before_request` and `handle_error`.

Where the connector's documented behaviour and its code differ, the model
follows the code:

- `analyze_service_error` tests `len(data) == 1 and 'email' in data`, with Python's semantics for each type.
  - The one-element list `["email"]` is therefore also recoverable (`TenantV1.AnalyzeServiceError`).
  - A body that is `null`, a number or a boolean raises TypeError.
- The PUT and DELETE user notifications format their text twice (see Findings).
  - `UserV1.UserDelete`, `UserV1.AfterUpdate` and `UserV1.UserPut` take a `UserV1.Formatting`.
  - `Twice` is the code as written; `Once` is the evidently intended single formatting.
- `Application.delete` reads an attribute the reseller object lacks (see Findings).
  - The model states that delete as written, and also the evidently intended delete.
- `connector/resources/user.py` imports `ConnectorResource` from `connector/resources/__init__.py`, which does not define it.
  - The model treats the earlier user handlers as if that import resolved.
  - It models their bodies, with no dispatch step of their own.

## Model

| member | source | states |
|---|---|---|
| PyJson.Contains | connector/v1/resources/tenant.py:87 | `key in x` is key membership for a dict, element membership for a list and substring for a str, and raises TypeError exactly for None, a bool or a number |
| PyJson.Index | connector/v1/resources/tenant.py:28 | `x[key]` succeeds exactly when x is a dict holding key; otherwise KeyError for a dict, TypeError for anything else |
| PyJson.GetOr | connector/v1/resources/__init__.py:220 | `x.get(key, default)` is defined exactly on dicts and yields the entry or the default |
| PyJson.Render | connector/v1/resources/tenant.py:127 | `'{}'.format(x)` succeeds exactly when x is a scalar, and gives str(x) |
| PyJson.NatToString | connector/v1/resources/tenant.py:152 | str(n) is a string of decimal digits whose value is n, with a leading '0' only for zero |
| PyJson.IntToString | connector/v1/resources/tenant.py:152 | str(i) starts with '-' exactly for negative i, and the digits after it have the value \|i\| |
| PyJson.IntToStringInjective | connector/v1/resources/tenant.py:152 | different integers are written differently |
| Sanitize.KeepWordAndSpace | connector/v1/resources/__init__.py:57-58 | the first substitution keeps only word and whitespace characters and never lengthens the text |
| Sanitize.DropSpaces | connector/v1/resources/__init__.py:57-58 | the leading whitespace removed is all whitespace, and the rest starts with a non-space |
| Sanitize.UrlifyAlphabet | connector/v1/resources/__init__.py:56-58 | urlify's output holds only word characters and '-', so no whitespace |
| Sanitize.UrlifyShorter | connector/v1/resources/__init__.py:56-58 | urlify never lengthens its input |
| Sanitize.UrlifyKeepsWords | connector/v1/resources/__init__.py:56-58 | urlify keeps every word character of the input, in order |
| Sanitize.UrlifyIdentity | connector/v1/resources/__init__.py:56-58 | a string made only of word characters is returned unchanged |
| Sanitize.UrlifyNoDoubleDash | connector/resources/__init__.py:32-34 | urlify never produces two '-' in a row |
| Sanitize.DropLeading | connector/v1/__init__.py:73 | lstrip(c) removes exactly the maximal prefix of c, leaving a suffix that does not start with c |
| Sanitize.DropTrailing | connector/v1/resources/__init__.py:62 | rstrip(c) removes exactly the maximal suffix of c |
| Sanitize.Strip | connector/v1/resources/__init__.py:62 | strip(c) is the slice between the maximal runs of c at both ends, and neither end of the result is c |
| Sanitize.StripIdempotent | connector/v1/resources/__init__.py:62 | stripping twice equals stripping once |
| Sanitize.StripFixedPoint | connector/v1/resources/__init__.py:62 | text without c at either end is left unchanged |
| Sanitize.StripWrapped | connector/v1/resources/__init__.py:62 | one c on each side of such text is removed again |
| Sanitize.ReplaceInvalid | connector/utils.py:126 | the first substitution maps each character to itself when valid and to '-' otherwise, keeping the length |
| Sanitize.EscapeDomainName | connector/utils.py:125-128 | the output uses only [a-zA-Z0-9.-], neither starts nor ends with '-', and is no longer than the input |
| Sanitize.EscapeFixedPoint | connector/utils.py:125-128 | an already valid name without a leading or trailing '-' is returned unchanged |
| Sanitize.EscapeIdempotent | connector/utils.py:125-128 | escaping twice equals escaping once |
| Headers.ParseHeaders | connector/utils.py:135-138 | the key set is kept, bytes values are decoded and text values are unchanged |
| Headers.ParseHeadersIdempotent | connector/utils.py:135-138 | after parsing no value is bytes, so parsing again changes nothing |
| Memo.Call | connector/v1/resources/__init__.py:30-38 | a cached key is answered from the cache without a call; otherwise the function is called, a value is stored under the key, an exception stores nothing, and existing entries never change |
| Memo.Run | connector/resources/__init__.py:71-79 | over a sequence of calls, every starting entry survives unchanged |
| Memo.RunHit | connector/resources/__init__.py:71-79 | a key cached before the run is answered from the cache, without a call |
| Memo.RunConsistent | connector/v1/resources/__init__.py:30-38 | once a call for a key returned a value, every later call for it returns the same value without calling the function |
| Memo.RunStores | connector/v1/resources/__init__.py:30-38 | the final cache holds exactly the starting keys and the keys of calls that returned a value |
| Params.ExtractOne | connector/v1/resources/__init__.py:43-46 | one step succeeds exactly when the value is a dict holding the key, and a dict without it raises ValueError("Missing <key> in request") |
| Params.ExtractFollowsPath | connector/v1/resources/__init__.py:41-53 | the extractor succeeds exactly when every key exists at its level, and returns the nested value |
| Params.ExtractNamesFirstMissing | connector/resources/__init__.py:17-29 | the ValueError names the first key missing along the path |
| Params.ExtractConcat | connector/v1/resources/__init__.py:48 | extracting along p + q is extracting along p, then along q |
| PyFormat.FormatNoBraces | connector/v1/resources/user.py:137 | a template without braces formats to itself |
| PyFormat.FormatTrailingField | connector/v1/resources/user.py:121 | text followed by `{}` formats to the text followed by str(arg) |
| PyFormat.FormatNamedField | connector/v1/resources/user.py:137 | a named replacement field raises KeyError for that name |
| Naming.CompanyPart | connector/v1/resources/tenant.py:139 | the company part is urlify of the company name, and only a str name is accepted |
| Naming.ClientNameSplits | connector/v1/resources/tenant.py:151-152 | the client name is `<company or 'Unnamed'>-sub<id>` and splits back into exactly those two parts |
| Naming.NatRendersWithoutDash | connector/v1/resources/tenant.py:152 | a non-negative subscription id renders without '-', so its name splits back |
| Naming.NameFromResource | connector/v1/resources/tenant.py:24-28 | the name is the resource's tenantId, and KeyError with the tenant id in its message when that key is absent |
| Naming.GetNameForTenant | connector/resources/tenant.py:12-17 | the lookup is memoized per tenant id: a cached id is answered without fetching, and a found name is stored |
| Naming.AdminEmail | connector/v1/resources/tenant.py:49-52 | the default admin address is `admin@` followed by escaped domain text ending in `.fallball.io` |
| Naming.AdminEmailOneAt | connector/v1/resources/tenant.py:49-52 | that address has exactly one '@', right after `admin` |
| Naming.AdminEmailOfValidNames | connector/v1/resources/tenant.py:49-52 | names that already are domain labels without a '-' at either end appear in the address as given |
| Naming.AdminEmailOfEscapedNames | connector/v1/resources/tenant.py:49-52 | escaping the names beforehand gives the same address |
| Usage.Counters | connector/v1/resources/tenant.py:33-43 | the counter dictionary has exactly the three configured resources, devices at 0 and users and disk as given |
| Usage.CountersRoundTrip | connector/resources/tenant.py:60-70 | with distinct resource names, the user count and disk usage read back from the dictionary |
| OaV1.MakeError | connector/v1/resources/__init__.py:61-62 | the error answer carries the upstream status, no headers, and only a message, which is the text without surrounding '"' |
| OaV1.MakeErrorUnquotes | connector/v1/resources/__init__.py:61-62 | a quoted message comes back without its quotes |
| OaV1.Dispatch | connector/v1/resources/__init__.py:65-70 | a Storage Service client or server error becomes a make_error answer, and any other outcome passes unchanged |
| OaV1.OaCommMessage | connector/v1/resources/__init__.py:73-79 | the message names the status code exactly when there is a non-zero one, and always ends with the response text; with a code it is exactly "Request to OA failed. OA responded with code <code>", a newline, "Error message: " and the text |
| OaV1.Attempts | connector/v1/resources/__init__.py:167 | the loop allows retry_num attempts when that is positive, otherwise one |
| OaV1.SendFromShape | connector/v1/resources/__init__.py:178-198 | every request before the last was answered 400; the loop ends on the first 200, on another status, on a transport error, or when the attempts run out |
| OaV1.SendShape | connector/v1/resources/__init__.py:167-198 | at least one and at most the allowed number of requests are sent, and the result is the body of a 200 or the failure of the last answer |
| OaV1.SendRequest | connector/v1/resources/__init__.py:167-198 | the counting-down loop computes exactly the recursive definition and sends between 1 and the allowed number of requests |
| OaV1.RetryScenarios | connector/v1/resources/__init__.py:178-198 | a 500 fails at once after one request; 400, 400, 200 succeeds on the third; all-400 sends the allowed number and fails |
| OaV1.TestedRetries | tests/v1/test_resources.py:163-187 | the connector's retry test: a 500 with the default retry_num fails after one request, 400 then 200 with retry_num=2 succeeds on the second, and 400, 400 with retry_num=1 fails after one |
| OaV1.OutboundHeaders | connector/v1/resources/__init__.py:159-163 | `aps-resource-id` is present iff impersonate_as is truthy; `aps-transaction-id` iff the transaction flag is set and the inbound header exists |
| OaV1.NotificationPayload | connector/v1/resources/__init__.py:93-119 | each optional field appears iff it is given and not None; message.keys iff keys are; details.keys only when details and keys both are |
| OaV1.NotificationRoundTrip | connector/v1/resources/__init__.py:93-119 | every argument of the notification can be read back from its payload, a None argument as absent |
| OaV1.GetNotificationManager | connector/v1/resources/__init__.py:86-91 | the manager id is memoized, and a found id is stored |
| OaV1.SendNotification | connector/v1/resources/__init__.py:120-121 | no manager means no post; at most one post, and success is the post's answer |
| OaV1.SubscriptionPayload | connector/v1/resources/__init__.py:124-135 | a subscription is exactly `{event, source:{type}, relation, handler}` |
| OaV1.SubscriptionRoundTrip | connector/v1/resources/__init__.py:124-135 | the subscription's fields read back from its payload |
| OaV1.SupportsUsers | connector/v1/resources/__init__.py:205-207 | users are supported iff the schema's 'user' entry is truthy |
| OaV1.GetChainFollowsPath | connector/v1/resources/__init__.py:218-220 | a chain of `.get(k, {})` gives the nested value, or the default at the first missing key |
| OaV1.EmptyChain | connector/v1/resources/__init__.py:218-220 | on an empty dict the chain gives the default |
| OaV1.UserSchema | connector/v1/resources/__init__.py:210-216 | without a 'user' entry the user schema is `{}`; with a schema URI it is the fetched schema |
| OaV1.UserResources | connector/v1/resources/__init__.py:218-220 | the user resources are properties.resource.enum, or `[]` when a step is missing |
| OaV0.OaCommMessage | connector/resources/__init__.py:37-41 | the earlier message always contains the status code and ends with the response text |
| OaV0.GetOnce | connector/resources/__init__.py:45-68 | one request: 200 gives its body, any other status raises with the code and text |
| OaV0.SingleAttempt | connector/resources/__init__.py:45-68 | the earlier gateway is the later retry loop held to one attempt |
| TenantV1.AnalyzeServiceError | connector/v1/resources/tenant.py:86-117 | recoverable exactly when the error names one key, 'email'; a recoverable result is the activationRequired answer, anything else `{}` |
| TenantV1.ActivationRequiredAsksForEmail | connector/v1/resources/tenant.py:88-116 | the activation answer has status activationRequired and one perPropertyData entry, for the technical contact's email |
| TenantV1.ReportError | connector/v1/resources/tenant.py:120-132 | an error report has status 'error' and statusData with messages and perPropertyData |
| TenantV1.ReportErrorRoundTrip | connector/v1/resources/tenant.py:120-132 | an error report carries exactly the given message and no per-property data |
| TenantV1.AdminEmailFor | connector/v1/resources/tenant.py:141-144 | the admin email is the request's technical contact email when truthy, otherwise the company's |
| TenantV1.PrepareClient | connector/v1/resources/tenant.py:135-160 | the client is integrated iff a user limit is truthy, its storage limit defaults to 0, its name is the derived client name, and its email is the admin email |
| TenantV1.DefaultAdmin | connector/v1/resources/tenant.py:49-55 | the default admin is an admin with storage limit 0 at the derived address |
| TenantV1.SuccessBody | connector/v1/resources/tenant.py:192-199 | the success body names the tenant, has status 'reprovisioned' iff the request status is truthy, and empty messages and perPropertyData |
| TenantV1.SubscribeBoth | connector/v1/resources/tenant.py:186-190 | after a create, the linked then the unlinked subscription are requested, and nothing else |
| TenantV1.FollowUps | connector/v1/resources/tenant.py:179-199 | success is 201 with the success body, after the default admin exactly when the client is not integrated, then the two subscriptions |
| TenantV1.Rejection | connector/v1/resources/tenant.py:164-174 | a recoverable rejection is 202 with the Aps-Info header and the info merged with the analysis; any other rejection is 500 with an error report |
| TenantV1.ProvisionClient | connector/v1/resources/tenant.py:135-199 | the result is 201, 202 or 500; 202 and 500 follow the create request alone |
| TenantV1.ProvisionFollowUps | connector/v1/resources/tenant.py:162-190 | a successful provisioning made exactly: the create, the default admin when not integrated, and the two subscriptions |
| TenantV1.ProvisionStopsAfterFailedCreate | connector/v1/resources/tenant.py:164-177 | a rejected or failed create answers 202 or 500 and creates no admin user and no subscription |
| TenantV1.ProvisionByCreateOutcome | connector/v1/resources/tenant.py:162-177 | a created client gives 201, a recoverable rejection 202, and anything else 500 |
| TenantV1.Respond | connector/v1/resources/tenant.py:212 | the provisioning result is the handler's answer, with body, status and headers kept |
| TenantV1.TenantListPost | connector/v1/resources/tenant.py:202-212 | status 'reprovisioned' gives `{}` 201 without provisioning; an async phase not retrying an error gives 202 with Aps-Info; otherwise it provisions |
| TenantV1.TenantListPostProvisionsOnlyWhenDue | connector/v1/resources/tenant.py:205-212 | any request was made only for a sync request or an async retry after an error, never for a reprovisioned tenant |
| TenantV1.UsageCounters | connector/v1/resources/tenant.py:31-43 | the counters report users of the 'default' type and the storage usage |
| TenantV1.TenantGet | connector/v1/resources/tenant.py:216-230 | GET writes nothing and answers the usage counters |
| TenantV1.SyncTenantUsage | connector/v1/resources/tenant.py:31-46 | the counters are written to the tenant's path exactly when the client refresh and the counters succeed |
| TenantV1.OnUsersChange | connector/v1/resources/tenant.py:291-296 | onUsersChange pushes the client's counters and answers `{}` 200 |
| TenantV1.OnUsersChangeMatchesGet | connector/v1/resources/tenant.py:216-230 | the counters pushed on onUsersChange are the ones GET reports |
| TenantV1.TenantPut | connector/v1/resources/tenant.py:232-243 | the client's storage limit is updated only when the new limit is truthy, then `{}` 200 |
| TenantV1.TenantDelete | connector/v1/resources/tenant.py:245-249 | the client is deleted and the answer is `None` 204 |
| TenantV1.FakeLogin | connector/v1/resources/tenant.py:271-276 | the fallback asks for the fake user's login link |
| TenantV1.AdminLogin | connector/v1/resources/tenant.py:264-278 | the default admin's login link is answered; a platform failure while naming the tenant falls back to the fake user |
| TenantV1.MayReprovision | connector/v1/resources/tenant.py:303-305 | reprovisioning is allowed iff aps.status is 'aps:provisioning' and status is not 'reprovisioned'; another aps.status refuses without reading status; a missing key raises exactly when the `or` reaches it |
| TenantV1.ActiveTenantRefused | connector/v1/resources/tenant.py:303-305 | a tenant whose aps.status is 'active' and that has no status gets 400 with nothing sent |
| TenantV1.ReprovisionBody | connector/v1/resources/tenant.py:309-319 | on 201 the tenant body has exactly the keys accountinfo, status, statusData and the result's; the result's entries win, and each of the three defaults (the account info, 'reprovisioned', `{}`) holds where the result lacks the key; otherwise the result body unchanged |
| TenantV1.ReprovisionAndReport | connector/v1/resources/tenant.py:307-323 | the provisioning result's body is written to the tenant and the answer is `{}` 200 |
| TenantV1.Reprovision | connector/v1/resources/tenant.py:299-323 | a tenant not awaiting provisioning gets 400 with nothing provisioned; otherwise it is reprovisioned and reported |
| TenantV0.PrepareClient | connector/resources/tenant.py:20-50 | the earlier client is integrated iff a user limit is truthy, has storage limit defaulting to 0, and no email |
| TenantV0.SameClientName | connector/resources/tenant.py:42-45 | both revisions name the client for a tenant the same way |
| TenantV0.TenantListPost | connector/resources/tenant.py:20-52 | the earlier POST creates the client and answers 201 with tenantId, and nothing else |
| TenantV0.UsageCounters | connector/resources/tenant.py:60-70 | the earlier counters report users_amount and the storage usage |
| TenantV0.TenantGet | connector/resources/tenant.py:56-70 | the earlier GET writes nothing and answers those counters |
| TenantV0.GetRevisionsDiffer | connector/resources/tenant.py:60-70 | the revisions agree on disk and devices and differ only in the user count's source |
| TenantV0.AdminLogin | connector/resources/tenant.py:104-122 | a missing or empty aps-identity-id gives 400; a platform failure falls back to the fake user's link |
| UserRules.GetLimit | connector/v1/resources/user.py:14-16 | the gold limit iff the type is the gold resource, otherwise the default limit |
| UserRules.UserTypes | connector/v1/resources/user.py:19-22 | the users resource maps to 'default' and the gold resource to 'gold' |
| UserRules.ProfileFor | connector/resources/user.py:20-23 | the profile is 'gold' exactly for the gold resource and 'default' otherwise |
| UserRules.ProfileAfterPut | connector/v1/resources/user.py:83-84 | PUT changes the profile only for a known type |
| UserRules.UserLimit | connector/v1/resources/user.py:49 | a client without quota gives its users none; otherwise get_limit |
| UserRules.LimitMatchesProfile | connector/resources/user.py:50-55 | with distinct limits, a user gets the gold limit exactly when the profile is 'gold' |
| UserRules.UserLimitCases | connector/v1/resources/user.py:49 | the user limit is 0 or one of the two configured limits |
| UserV1.UserNotice | connector/v1/resources/user.py:135-139 | the notification names the user, links to its page and formats the details once with the display name |
| UserV1.NoticeNamesUser | connector/v1/resources/user.py:119-139 | formatted once, the details end in the user's display name exactly as given |
| UserV1.PreformattedNotice | connector/v1/resources/user.py:124-137 | as written, a PUT or DELETE notification formats the details a second time |
| UserV1.PreformattedDetailsRaise | connector/v1/resources/user.py:124-137 | as written, a display name `{x}` raises KeyError after the update; formatted once it is reported as given |
| UserV1.FormattingsAgreeWithoutBraces | connector/v1/resources/user.py:124-139 | for a display name without braces, formatting twice gives the same notice as formatting once |
| UserV1.Notify | connector/v1/resources/user.py:135-139 | the notification is posted only when it can be built |
| UserV1.MakeFallballUser | connector/v1/resources/user.py:109-115 | the user's client is the name for the service's tenant and its email is the service's userId |
| UserV1.FirstResource | connector/v1/resources/user.py:90-92 | `[0]` of a fetched list is its first element, and fails on an empty one |
| UserV1.PrepareUser | connector/v1/resources/user.py:42-54 | the new user's limit is 0 for a client without quota, else get_limit, with profile from user_types |
| UserV1.UserListPost | connector/v1/resources/user.py:25-59 | POST creates the user, notifies, and answers 201 with userId the email |
| UserV1.UserDelete | connector/v1/resources/user.py:62-71 | DELETE removes the user, notifies, and answers `{}` 204 |
| UserV1.DeleteAsWrittenFailsAfterDelete | connector/v1/resources/user.py:62-71 | as written, a display name `{x}` deletes the user and then raises KeyError('x'), posting nothing |
| UserV1.SetLimit | connector/v1/resources/user.py:82 | the storage limit is set, keeping the other storage entries |
| UserV1.PreparePut | connector/v1/resources/user.py:77-92 | PUT applies the same limit rule, and changes the profile only for a known type |
| UserV1.AfterUpdate | connector/v1/resources/user.py:93-98 | after the update, the counters are re-synced for a known type, then the user is notified |
| UserV1.UserPut | connector/v1/resources/user.py:73-98 | PUT updates the user, re-syncs for a known type, notifies, and answers `{}` 200 |
| UserV1.PutResyncsOnlyForKnownType | connector/v1/resources/user.py:93-97 | a successful PUT made the update, a counter push exactly when the type is known, and the notification |
| UserV1.PutAsWrittenFailsAfterUpdate | connector/v1/resources/user.py:73-98 | as written, a display name `{x}` makes the update (and the counter push of a known type) and then raises KeyError('x'), posting nothing |
| UserV0.PrepareUser | connector/resources/user.py:26-55 | the earlier new user follows the same limit and profile rules |
| UserV0.UserListPost | connector/resources/user.py:26-58 | the earlier POST creates the user and answers 201 with userId the email |
| UserV0.SameNewUser | connector/resources/user.py:26-58 | both revisions create the same user from the same answers |
| UserV0.UserDelete | connector/resources/user.py:61-67 | the earlier DELETE removes the user and answers `{}` 204 |
| UserV0.UpdatedState | connector/resources/user.py:69-80 | the earlier PUT applies the limit rule and changes the profile only for a known type |
| UserV0.UserPut | connector/resources/user.py:69-82 | the earlier PUT sends one update and answers `{}` 200 |
| Application.Matching | connector/v1/resources/application.py:18 | the filter keeps only resellers with the given id |
| Application.FindResellerNameFirst | connector/v1/resources/application.py:16-19 | the lookup gives the first matching reseller's name, and None exactly when none matches |
| Application.GetResellerName | connector/resources/application.py:14-17 | the lookup is memoized per reseller id, None results included |
| Application.MissingNameIsCached | connector/v1/resources/application.py:16-19 | a reseller found missing once stays missing for that id |
| Application.HealthCheck | connector/v1/resources/application.py:22-25 | the health check answers status 'ok' with the version |
| Application.ApplicationListPost | connector/v1/resources/application.py:28-37 | the reseller is created and the answer is 201 echoing aps.type and aps.id |
| Application.Attribute | connector/fbclient/reseller.py:27-47 | a reseller object's data attributes are name, rid, token, storage and the clients amount (also as `_clients_amount`); a name that is none of these, no method of the class and no dunder name raises AttributeError for that name |
| Application.DeleteAsWrittenAlwaysFails | connector/v1/resources/application.py:40-45 | as written, every application delete raises AttributeError and deletes nothing |
| Application.ApplicationDelete | connector/resources/application.py:38-42 | the reseller is deleted iff its rid (the application instance id of the request) equals the application id; any other id gives 403 with nothing deleted; success iff it matches and the delete succeeds |
| Application.DeleteV1 | connector/v1/resources/application.py:40-45 | the later delete answers `{}` 204 iff the reseller's rid equals the application id and the delete succeeds; another id gives 403 with nothing deleted; a matching id deletes the reseller |
| Application.DeleteV0 | connector/resources/application.py:38-42 | the earlier delete answers null 200 iff the reseller's rid equals the application id and the delete succeeds; another id gives 403 with nothing deleted; a matching id deletes the reseller |
| Gate.EndpointName | connector/v1/__init__.py:71-73 | within a blueprint the endpoint loses the blueprint's name and the dots after it, and starts with no dot |
| Gate.EndpointOfBlueprint | connector/v1/__init__.py:71-73 | `<blueprint>.<name>` gives back name |
| Gate.SetNameForReseller | connector/v1/__init__.py:42-47 | no reseller id gives None; the application list gets a fresh urlified name; otherwise the lookup |
| Gate.GetOAuth | connector/v1/__init__.py:50-56 | the credentials exist iff both the client key and the secret are non-empty |
| Gate.GetResellerInfo | connector/v1/__init__.py:59-64 | the reseller information is the id, the name, is_new iff the application list, and the credentials |
| Gate.Admission | connector/v1/__init__.py:81-94 | without a name only the health check passes, else 401; then a bad signature is 401; then no token and not new is 403 |
| Gate.NoNameIgnoresSignature | connector/v1/__init__.py:81-83 | without a reseller name neither the signature nor the reseller's state matters |
| Gate.BeforeRequest | connector/v1/__init__.py:67-94 | the gate normalises the endpoint, derives the reseller information, and applies the ordered checks |
| Gate.NoInstanceIdOnlyHealthCheck | connector/v1/__init__.py:81-83 | a request without Aps-Instance-Id passes only for the health check |
| Gate.HandleError | connector/v1/__init__.py:127-132 | the error answer has the exception's code (500 unless it has one), its text and its type name |
| Gate.FinalResponse | connector/v1/__init__.py:127-132 | Storage Service errors are answered by make_error, other exceptions by handle_error |
| Gate.FailureCodes | connector/v1/__init__.py:127-132 | a failed request is answered with the upstream status, the abort's code or 500 |

## Left out

- Flask and flask_restful routing, `reqparse` argument parsing, and the JSON text of requests and answers. Parsed arguments and decoded bodies are inputs.
- The HTTP transport: the session, `urljoin` of the controller URI, timeouts and TLS flags. Each request's answer is an input.
- The Storage Service client library (`connector/fbclient`). Its calls are inputs, and only the attributes the handlers read are modelled.
- The keyword arguments of that library: its text predates some of the handlers' calls. `Client.__init__` (connector/fbclient/client.py:26) takes no `is_integrated` and no `email`, and `User.__init__` (connector/fbclient/user.py:27) takes no `profile_type`, so read literally those calls would raise TypeError. The model follows the handlers' calls (`Storage.NewClient`, `Storage.NewUser`, `TenantV1.PrepareClient`, `TenantV0.PrepareClient`, `UserV1.PrepareUser`, `UserV0.PrepareUser`), not the library's signatures.
- OAuth1 signature verification (`connector/validator.py`). Its verdict is a boolean input.
- Logging, request ids (`uuid`) and the Faker-generated reseller name. The generated name is an input.
- Loading the configuration file and application startup. The configuration values are parameters (`Settings.Config`).
- The request context `flask.g` and process-wide caches. They are explicit parameters, and each `Memoize` is a map passed in and out, except the two below.
- OaV1.SupportsUsers, OaV1.UserSchema: `get_application_schema` and `get_user_schema` are memoized (connector/v1/resources/__init__.py:200-216), but that schema cache is not modelled; the fetched schemas are inputs to each call.
- Handlers that only answer `{}`: tenant disable and enable, the user-created and user-removed events, the application's tenant and upgrade endpoints, and `UserLogin`, which only relays a login link.
- How flask_restful routes an abort raised in `before_request` to `handle_error`. `Gate.FinalResponse` states the answer for an error that reaches it.
- Sanitize.IsWordChar: `\w` is approximated by ASCII letters, digits and '_', because Unicode character classes are not modelled.
- PyJson.Render: str() of a list or a dict is not produced, because Python's dict ordering and repr are not modelled. Formatting such a value raises the model-only `Unmodelled` exception.
- TenantV1.Rejection: str() of a rejected create's body, when that body is a list or a dict, is an input rather than computed, for the same reason.
- Usage.Counters: when two configured resource names coincide, only the entries that survive the dict display are stated.
- OaV1.SendRequest: the response body of a 200 is an input, not parsed from JSON text.
- Application.Attribute: the reseller's methods (`api`, `create`, `refresh`, `delete`, `all`), its `_dump` property and Python's dunder attributes are not JSON values, so reading one gives the model-only `Unmodelled` exception.
- The schema-driven counters and the gold-users counter, which the modelled code never emits.
- JSON numbers are integers (`PyJson.Json.Int`). Floats are not modelled, because the connector only passes counts and limits.
- `str.format` conversions, format specs, attribute and index lookups in a field raise the model-only `Unmodelled` exception. The connector's own templates use none of them. Only a display name that is formatted a second time can contain one, and the model then raises `Unmodelled` where Python would format or raise.

## Findings

| source | as written | input that shows it | evidently intended | confidence | as-written member | corrected member |
|---|---|---|---|---|---|---|
| connector/v1/resources/user.py:124-137 | the PUT and DELETE notifications format the details with the display name, and `send_notification` formats the result again | a user whose displayName is `{x}`: the second format raises KeyError('x') after the user was already updated or deleted | format the details once, so the text ends in the display name as given | high, not executed | UserV1.PreformattedNotice (UserV1.PreformattedDetailsRaise, UserV1.DeleteAsWrittenFailsAfterDelete, UserV1.PutAsWrittenFailsAfterUpdate) | UserV1.UserNotice (UserV1.NoticeNamesUser, UserV1.FormattingsAgreeWithoutBraces) |
| connector/v1/resources/application.py:42 | `Application.delete` compares `g.reseller.reseller_name`, an attribute the reseller object does not define | any DELETE of an application instance raises AttributeError and is answered 500, and the reseller is never deleted | compare the reseller's rid, the application instance id, as the tests expect (tests/v1/test_app.py:40-43 delete `/v1/app/123-123-123` with that instance id and expect 204), and delete on a match | medium, not executed; the claim rests on the text of `connector/fbclient/reseller.py`, the same library text that lags behind the handlers' keyword arguments elsewhere | Application.ApplicationDeleteAsWritten (Application.DeleteAsWrittenAlwaysFails) | Application.ApplicationDelete (Application.DeleteV1, Application.DeleteV0) |

=== FILE: application.dfy ===
/** The application endpoints and the reseller-name lookup, which both
    revisions share (connector/v1/resources/application.py and
    connector/resources/application.py); they differ only in what a
    successful delete answers.
 */
module Application {
  import opened PyJson
  import opened Http
  import opened Effects
  import Memo

  /** A reseller as `Reseller.all()` lists it. */
  datatype ResellerRecord = ResellerRecord(name: Json, rid: Json)

  /** `[r for r in Reseller.all() if r.rid == reseller_id]` */
  function Matching(all: seq<ResellerRecord>, resellerId: Json): (r: seq<ResellerRecord>)
    ensures |r| <= |all|
    ensures forall i :: 0 <= i < |r| ==> r[i] in all && r[i].rid == resellerId
  {
    if all == [] then []
    else (if all[0].rid == resellerId then [all[0]] else []) + Matching(all[1..], resellerId)
  }

  /** `None if not res else res[0].name`; None is Null. */
  function FindResellerName(all: seq<ResellerRecord>, resellerId: Json): Json {
    var res := Matching(all, resellerId);
    if res == [] then Null else res[0].name
  }

  /** The first reseller with the given id is at position `i`. */
  predicate FirstMatchAt(all: seq<ResellerRecord>, resellerId: Json, i: int) {
    0 <= i < |all| && all[i].rid == resellerId && forall j :: 0 <= j < i ==> all[j].rid != resellerId
  }

  /** No reseller matches exactly when the filter keeps none. */
  lemma {:induction false} NoMatchIffEmpty(all: seq<ResellerRecord>, resellerId: Json)
    ensures (forall i :: 0 <= i < |all| ==> all[i].rid != resellerId) <==> Matching(all, resellerId) == []
    decreases |all|
  {
    if all != [] {
      NoMatchIffEmpty(all[1..], resellerId);
      if all[0].rid != resellerId {
        assert Matching(all, resellerId) == Matching(all[1..], resellerId);
        forall i | 0 <= i < |all[1..]| && all[1..][i].rid == resellerId
          ensures exists k :: 0 <= k < |all| && all[k].rid == resellerId
        {
          assert all[i + 1] == all[1..][i];
        }
      } else {
        assert Matching(all, resellerId)[0] == all[0];
      }
    }
  }

  /** The lookup names the first reseller whose id matches, and is Null
      exactly when none matches. */
  lemma {:induction false} FindResellerNameFirst(all: seq<ResellerRecord>, resellerId: Json)
    ensures (forall i :: 0 <= i < |all| ==> all[i].rid != resellerId) <==> Matching(all, resellerId) == []
    ensures forall i :: FirstMatchAt(all, resellerId, i) ==> FindResellerName(all, resellerId) == all[i].name
    decreases |all|
  {
    NoMatchIffEmpty(all, resellerId);
    if all != [] {
      FindResellerNameFirst(all[1..], resellerId);
      if all[0].rid != resellerId {
        assert Matching(all, resellerId) == Matching(all[1..], resellerId);
        forall i | FirstMatchAt(all, resellerId, i)
          ensures FindResellerName(all, resellerId) == all[i].name
        {
          assert FirstMatchAt(all[1..], resellerId, i - 1);
        }
      } else {
        assert Matching(all, resellerId)[0] == all[0];
        forall i | FirstMatchAt(all, resellerId, i)
          ensures FindResellerName(all, resellerId) == all[i].name
        {
          assert i == 0;
        }
      }
    }
  }

  /** `get_reseller_name(reseller_id)`, memoized per id; `all` is what
      `Reseller.all()` returns or raises if the function is called. A None
      result is cached like any other. */
  function GetResellerName(cache: map<Json, Json>, resellerId: Json, all: Result<seq<ResellerRecord>>): (r: Memo.Lookup<Json, Json>)
    ensures resellerId in cache ==> r.result == Ok(cache[resellerId]) && !r.invoked
    ensures resellerId !in cache && all.Ok? ==> (r.result == Ok(FindResellerName(all.value, resellerId)) &&
      r.cache == cache[resellerId := FindResellerName(all.value, resellerId)])
    ensures resellerId !in cache && all.Raise? ==> r.result == Raise(all.exc) && r.cache == cache
  {
    var computed := match all
      case Ok(list) => Ok(FindResellerName(list, resellerId))
      case Raise(e) => Raise(e);
    Memo.Call(cache, resellerId, computed)
  }

  /** A second lookup of an id whose first lookup found no reseller answers
      None again without listing the resellers, even if one has appeared. */
  lemma MissingNameIsCached(cache: map<Json, Json>, resellerId: Json, first: seq<ResellerRecord>, later: Result<seq<ResellerRecord>>)
    requires resellerId !in cache
    requires Matching(first, resellerId) == []
    ensures var c := GetResellerName(cache, resellerId, Ok(first)).cache;
      GetResellerName(c, resellerId, later).result == Ok(Null) &&
      !GetResellerName(c, resellerId, later).invoked
  {
  }

  /** `HealthCheck.get`; `version` is the installed package version, or ''
      when it is not installed. */
  function HealthCheck(version: string): (r: Response)
    ensures r.code == 200 && r.body.Obj? && r.body.fields.Keys == {"status", "version"}
    ensures r.body.fields["status"] == Str("ok") && r.body.fields["version"] == Str(version)
  {
    Ok200(Obj(map["status" := Str("ok"), "version" := Str(version)]))
  }

  /** `ApplicationList.post`: create the reseller and echo the APS type
      and id of the application instance. */
  function ApplicationListPost(reseller: string, apsType: Json, apsId: Json, created: Result<Json>): (o: Outcome<Response>)
    ensures o.effects == [CreateReseller(reseller)]
    ensures o.result.Ok? <==> created.Ok?
    ensures o.result.Ok? ==> (o.result.value.code == 201 &&
      At(o.result.value.body, ["aps", "type"]) == Some(apsType) &&
      At(o.result.value.body, ["aps", "id"]) == Some(apsId))
  {
    assert ["aps", "type"][1..] == ["type"] && ["aps", "id"][1..] == ["id"];
    assert ["type"][1..] == [] && ["id"][1..] == [];
    if created.Raise? then Outcome(Raise(created.exc), [CreateReseller(reseller)])
    else Outcome(Ok(Response(Obj(map["aps" := Obj(map["type" := apsType, "id" := apsId])]), 201, map[])),
                 [CreateReseller(reseller)])
  }

  /** The reseller object of the request, as built from its name and id
      and refreshed: its instance attributes. */
  datatype Reseller = Reseller(name: string, rid: Json, token: Json, clientsAmount: Json, storage: Json)

  /** The data attributes of a reseller object; `clients_amount` is a
      property reading `_clients_amount`. */
  const DataAttributes: set<string> := {"name", "rid", "token", "_clients_amount", "clients_amount", "storage"}

  /** The methods of the class, and the `_dump` property that serialises it. */
  const Methods: set<string> := {"api", "create", "refresh", "delete", "all", "_dump"}

  /** Names Python gives every object (`__dict__`, `__class__`, ...). */
  predicate IsDunder(attr: string) {
    |attr| >= 2 && attr[..2] == "__"
  }

  /** Attribute access on that object. A method or a dunder name is not a
      JSON value and gives the model's Unmodelled exception. */
  function Attribute(r: Reseller, attr: string): (v: Result<Json>)
    ensures v.Ok? <==> attr in DataAttributes
    ensures attr == "name" ==> v == Ok(Str(r.name))
    ensures attr == "rid" ==> v == Ok(r.rid)
    ensures attr == "token" ==> v == Ok(r.token)
    ensures attr == "storage" ==> v == Ok(r.storage)
    ensures attr in {"_clients_amount", "clients_amount"} ==> v == Ok(r.clientsAmount)
    ensures v == Raise(AttributeError(attr)) <==> attr !in DataAttributes && attr !in Methods && !IsDunder(attr)
  {
    if attr == "name" then Ok(Str(r.name))
    else if attr == "rid" then Ok(r.rid)
    else if attr == "token" then Ok(r.token)
    else if attr == "storage" then Ok(r.storage)
    else if attr == "_clients_amount" || attr == "clients_amount" then Ok(r.clientsAmount)
    else if attr in Methods || IsDunder(attr) then Raise(Unmodelled("a method or special attribute"))
    else Raise(AttributeError(attr))
  }

  /** `Application.delete` as written: it reads `g.reseller.reseller_name`,
      an attribute the reseller object does not have. */
  function ApplicationDeleteAsWritten(reseller: Reseller, appId: string, deleted: Result<Json>): (o: Outcome<Response>)
  {
    match Attribute(reseller, "reseller_name")
    case Raise(e) => Outcome(Raise(e), [])
    case Ok(name) =>
      if name != Str(appId) then Outcome(Raise(HttpAbort(403)), [])
      else if deleted.Raise? then Outcome(Raise(deleted.exc), [DeleteReseller(reseller.name)])
      else Outcome(Ok(Response(EmptyObj, 204, map[])), [DeleteReseller(reseller.name)])
  }

  /** Every delete of the application fails with AttributeError and deletes
      nothing, whatever reseller and application id it is for. */
  lemma DeleteAsWrittenAlwaysFails(reseller: Reseller, appId: string, deleted: Result<Json>)
    ensures ApplicationDeleteAsWritten(reseller, appId, deleted) == Outcome(Raise(AttributeError("reseller_name")), [])
  {
    var attr := "reseller_name";
    assert attr[..2] == "re" && !IsDunder(attr);
    assert attr[0] == 'r' && attr[2] == 's';
    assert attr !in DataAttributes && attr !in Methods;
  }

  /** `Application.delete` comparing the reseller's `rid`, the application
      instance id the request came with (`before_request` builds the
      reseller from it). A different application id gives 403 and nothing
      is deleted; otherwise the reseller is deleted and `success` is what
      the revision answers. */
  function ApplicationDelete(reseller: Reseller, appId: string, deleted: Result<Json>, success: Response): (o: Outcome<Response>)
    ensures reseller.rid != Str(appId) ==> o == Outcome(Raise(HttpAbort(403)), [])
    ensures reseller.rid == Str(appId) ==> o.effects == [DeleteReseller(reseller.name)]
    ensures o.result.Ok? <==> reseller.rid == Str(appId) && deleted.Ok?
    ensures o.result.Ok? ==> o.result.value == success
  {
    if reseller.rid != Str(appId) then Outcome(Raise(HttpAbort(403)), [])
    else if deleted.Raise? then Outcome(Raise(deleted.exc), [DeleteReseller(reseller.name)])
    else Outcome(Ok(success), [DeleteReseller(reseller.name)])
  }

  /** The later revision answers `({}, 204)`. */
  function DeleteV1(reseller: Reseller, appId: string, deleted: Result<Json>): (o: Outcome<Response>)
    ensures o.result.Ok? <==> reseller.rid == Str(appId) && deleted.Ok?
    ensures o.result.Ok? ==> o.result.value == Response(EmptyObj, 204, map[])
    ensures reseller.rid != Str(appId) ==> o.result == Raise(HttpAbort(403)) && o.effects == []
    ensures reseller.rid == Str(appId) ==> o.effects == [DeleteReseller(reseller.name)]
  {
    ApplicationDelete(reseller, appId, deleted, Response(EmptyObj, 204, map[]))
  }

  /** The earlier revision returns None, which flask_restful answers with
      `null` and 200. */
  function DeleteV0(reseller: Reseller, appId: string, deleted: Result<Json>): (o: Outcome<Response>)
    ensures o.result.Ok? <==> reseller.rid == Str(appId) && deleted.Ok?
    ensures o.result.Ok? ==> o.result.value == Response(Null, 200, map[])
    ensures reseller.rid != Str(appId) ==> o.result == Raise(HttpAbort(403)) && o.effects == []
    ensures reseller.rid == Str(appId) ==> o.effects == [DeleteReseller(reseller.name)]
  {
    ApplicationDelete(reseller, appId, deleted, Response(Null, 200, map[]))
  }
}

=== FILE: gate.dfy ===
/** Request gating of the later revision (connector/v1/__init__.py): the
    endpoint name, the reseller information derived from the request, the
    ordered checks of `before_request`, and `FallballApi.handle_error`.

    The OAuth signature check is a boolean input, and the reseller name
    generated for a new application instance (random in the service) is a
    string input.
 */
module Gate {
  import opened PyJson
  import opened Http
  import Sanitize
  import OaV1

  const HealthCheckEndpoint: string := "healthcheck"
  const ApplicationListEndpoint: string := "applicationlist"

  /** `s[n:]`: a start beyond the end gives the empty string. */
  function SliceFrom(s: string, n: nat): string {
    if n <= |s| then s[n..] else []
  }

  /** `g.endpoint`: the request's endpoint, without the blueprint's name and
      the dots after it when the request belongs to a blueprint. */
  function EndpointName(endpoint: string, blueprint: Option<string>): (r: string)
    ensures blueprint.Some? && blueprint.value != [] ==> r == [] || r[0] != '.'
    ensures !(blueprint.Some? && blueprint.value != []) ==> r == endpoint
    ensures blueprint.Some? && blueprint.value != [] && |blueprint.value| <= |endpoint| ==>
      (var rest := endpoint[|blueprint.value|..];
       |r| <= |rest| && r == rest[|rest| - |r|..] &&
       forall i :: 0 <= i < |rest| - |r| ==> rest[i] == '.')
  {
    if blueprint.Some? && blueprint.value != [] then
      Sanitize.DropLeading(SliceFrom(endpoint, |blueprint.value|), '.')
    else endpoint
  }

  /** The endpoint flask names `<blueprint>.<resource>` gives back the
      resource's name. */
  lemma EndpointOfBlueprint(blueprint: string, name: string)
    requires blueprint != []
    requires name == [] || name[0] != '.'
    ensures EndpointName(blueprint + "." + name, Some(blueprint)) == name
  {
    var full := blueprint + "." + name;
    assert full[|blueprint|..] == "." + name;
    assert ("." + name)[1..] == name;
  }

  /** `is_new`: only the application-instance creation may come from a
      reseller the Storage Service does not know yet. */
  predicate IsNew(endpoint: string) {
    endpoint == ApplicationListEndpoint
  }

  /** `set_name_for_reseller(reseller_id)`: no reseller id gives None
      (Null); creating the application instance gives a fresh name run
      through `urlify`; otherwise the memoized lookup's outcome `lookup`. */
  function SetNameForReseller(endpoint: string, resellerId: Option<string>, generated: string, lookup: Result<Json>): (r: Result<Json>)
    ensures !(resellerId.Some? && resellerId.value != []) ==> r == Ok(Null)
    ensures resellerId.Some? && resellerId.value != [] && IsNew(endpoint) ==> r == Ok(Str(Sanitize.Urlify(generated)))
    ensures resellerId.Some? && resellerId.value != [] && !IsNew(endpoint) ==> r == lookup
  {
    if !(resellerId.Some? && resellerId.value != []) then Ok(Null)
    else if IsNew(endpoint) then Ok(Str(Sanitize.Urlify(generated)))
    else lookup
  }

  /** The credentials outbound platform requests are signed with. */
  datatype OAuth = OAuth(clientKey: string, clientSecret: string)

  /** `get_oauth()`: both the client key and the configured secret must be
      non-empty. */
  function GetOAuth(clientKey: Option<string>, secret: Option<string>): (r: Option<OAuth>)
    ensures r.Some? <==> clientKey.Some? && clientKey.value != [] && secret.Some? && secret.value != []
    ensures r.Some? ==> r.value == OAuth(clientKey.value, secret.value)
  {
    if clientKey.Some? && clientKey.value != [] && secret.Some? && secret.value != [] then
      Some(OAuth(clientKey.value, secret.value))
    else None
  }

  /** `ResellerInfo(id, name, is_new, auth)` */
  datatype ResellerInfo = ResellerInfo(id: Option<string>, name: Json, isNew: bool, auth: Option<OAuth>)

  /** `get_reseller_info()` */
  function GetResellerInfo(endpoint: string, resellerId: Option<string>, generated: string, lookup: Result<Json>,
                           clientKey: Option<string>, secret: Option<string>): (r: Result<ResellerInfo>)
    ensures r.Ok? <==> SetNameForReseller(endpoint, resellerId, generated, lookup).Ok?
    ensures r.Ok? ==> r.value == ResellerInfo(resellerId, SetNameForReseller(endpoint, resellerId, generated, lookup).value,
                                              IsNew(endpoint), GetOAuth(clientKey, secret))
  {
    var name :- SetNameForReseller(endpoint, resellerId, generated, lookup);
    Ok(ResellerInfo(resellerId, name, IsNew(endpoint), GetOAuth(clientKey, secret)))
  }

  /** How a request that passed the checks continues. */
  datatype Verdict =
    | Public
    | Admitted(reseller: Json, auth: Option<OAuth>)

  /** The ordered checks of `before_request`: without a reseller name only
      the health check is served (401 otherwise); then a bad signature is
      401; then, after the reseller's refresh (`token` is its outcome), a
      reseller without a token is refused with 403 unless it is being
      created. */
  function Admission(endpoint: string, info: ResellerInfo, signatureOk: bool, token: Result<Json>): (r: Result<Verdict>)
    ensures r == Ok(Public) <==> !Truthy(info.name) && endpoint == HealthCheckEndpoint
    ensures r == Raise(HttpAbort(401)) <==>
      || (!Truthy(info.name) && endpoint != HealthCheckEndpoint)
      || (Truthy(info.name) && !signatureOk)
      || (Truthy(info.name) && token == Raise(HttpAbort(401)))
    ensures r == Raise(HttpAbort(403)) <==>
      Truthy(info.name) && signatureOk &&
      ((token.Ok? && !Truthy(token.value) && !info.isNew) || token == Raise(HttpAbort(403)))
    ensures r.Ok? && r.value.Admitted? <==>
      Truthy(info.name) && signatureOk && token.Ok? && (Truthy(token.value) || info.isNew)
    ensures r.Ok? && r.value.Admitted? ==> r.value == Admitted(info.name, info.auth)
    ensures token.Raise? && Truthy(info.name) && signatureOk ==> r == token.PropagateFailure()
  {
    if !Truthy(info.name) then
      if endpoint != HealthCheckEndpoint then Raise(HttpAbort(401)) else Ok(Public)
    else if !signatureOk then Raise(HttpAbort(401))
    else
      var t :- token;
      if !Truthy(t) && !info.isNew then Raise(HttpAbort(403))
      else Ok(Admitted(info.name, info.auth))
  }

  /** Without a reseller name neither the signature nor the reseller's
      state is looked at. */
  lemma NoNameIgnoresSignature(endpoint: string, info: ResellerInfo, s1: bool, s2: bool, t1: Result<Json>, t2: Result<Json>)
    requires !Truthy(info.name)
    ensures Admission(endpoint, info, s1, t1) == Admission(endpoint, info, s2, t2)
  {
  }

  /** `before_request`: `lookup` is the outcome of the memoized reseller
      name lookup, `signatureOk` that of the signature check. */
  function BeforeRequest(endpoint: string, blueprint: Option<string>, resellerId: Option<string>, generated: string,
                         lookup: Result<Json>, clientKey: Option<string>, secret: Option<string>,
                         signatureOk: bool, token: Result<Json>): (r: Result<Verdict>)
    ensures var e := EndpointName(endpoint, blueprint);
      var info := GetResellerInfo(e, resellerId, generated, lookup, clientKey, secret);
      && (info.Raise? ==> r == Raise(info.exc))
      && (info.Ok? ==> r == Admission(e, info.value, signatureOk, token))
  {
    var e := EndpointName(endpoint, blueprint);
    var info :- GetResellerInfo(e, resellerId, generated, lookup, clientKey, secret);
    Admission(e, info, signatureOk, token)
  }

  /** A request without an `Aps-Instance-Id` header reaches only the health
      check. */
  lemma NoInstanceIdOnlyHealthCheck(endpoint: string, blueprint: Option<string>, generated: string, lookup: Result<Json>,
                                    clientKey: Option<string>, secret: Option<string>, signatureOk: bool, token: Result<Json>)
    ensures var r := BeforeRequest(endpoint, blueprint, None, generated, lookup, clientKey, secret, signatureOk, token);
      r.Ok? <==> EndpointName(endpoint, blueprint) == HealthCheckEndpoint
  {
  }

  /** `FallballApi.handle_error(e)`: the exception's code (500 for all but
      an abort), its text and its type name; `text` is str(e). */
  function HandleError(e: Exc, text: string): (r: Response)
    ensures r.code == (if e.HttpAbort? then e.status else 500)
    ensures r.body.Obj? && r.body.fields.Keys == {"message", "error"}
    ensures r.body.fields["message"] == Str(text) && r.body.fields["error"] == Str(e.Name())
  {
    Response(Obj(map["message" := Str(text), "error" := Str(e.Name())]), e.Code(), map[])
  }

  /** The response to a request whose handler returned or raised `handled`:
      Storage Service errors become `make_error` answers with their own
      status, anything else raised goes to `handle_error`. `text` gives
      str() of an exception. */
  function FinalResponse(handled: Result<Response>, text: Exc -> string): (r: Response)
    ensures handled.Ok? ==> r == handled.value
    ensures handled.Raise? && (handled.exc.HttpClientError? || handled.exc.HttpServerError?) ==>
      r == OaV1.MakeError(handled.exc.status, handled.exc.text)
    ensures handled.Raise? && !(handled.exc.HttpClientError? || handled.exc.HttpServerError?) ==>
      r == HandleError(handled.exc, text(handled.exc))
  {
    match OaV1.Dispatch(handled)
    case Ok(resp) => resp
    case Raise(e) => HandleError(e, text(e))
  }

  /** Every failure ends in a response whose code is the Storage Service's
      status, the abort's code, or 500. */
  lemma FailureCodes(handled: Result<Response>, text: Exc -> string)
    requires handled.Raise?
    ensures FinalResponse(handled, text).code ==
      (if handled.exc.HttpClientError? || handled.exc.HttpServerError? || handled.exc.HttpAbort? then handled.exc.status
       else 500)
  {
  }
}

=== FILE: memo.dfy ===
/** The `Memoize` decorator shared by both revisions of the connector.

    The Python object keeps a dictionary from argument tuples to results and
    only calls the wrapped function for a tuple it has not stored. Here the
    dictionary is an explicit map passed in and out, and the wrapped
    function's answer at the moment of the call is an input: the upstream
    system may answer differently over time, and the cache decides whether
    that answer is ever looked at. A call that raises stores nothing,
    because Python assigns the entry only after the function returned.
 */
module Memo {
  import opened PyJson

  /** One call through the cache: what the caller gets back, the cache
      afterwards, and whether the wrapped function ran. */
  datatype Lookup<K, V> = Lookup(result: Result<V>, cache: map<K, V>, invoked: bool)

  /** `Memoize.__call__` for the argument `key`; `computed` is what the
      wrapped function returns or raises if it is called now. */
  function Call<K, V>(cache: map<K, V>, key: K, computed: Result<V>): (r: Lookup<K, V>)
    ensures key in cache ==> r.result == Ok(cache[key]) && !r.invoked && r.cache == cache
    ensures key !in cache ==> r.invoked && r.result == computed
    ensures r.result.Ok? ==> key in r.cache && r.cache[key] == r.result.value
    ensures r.result.Raise? ==> r.cache == cache
    ensures forall k :: k in cache ==> k in r.cache && r.cache[k] == cache[k]
    ensures forall k :: k in r.cache && k != key ==> k in cache
  {
    if key in cache then Lookup(Ok(cache[key]), cache, false)
    else match computed
      case Ok(v) => Lookup(computed, cache[key := v], true)
      case Raise(_) => Lookup(computed, cache, true)
  }

  /** A sequence of calls through the same cache. */
  datatype Trace<K, V> = Trace(results: seq<Result<V>>, invoked: seq<bool>, cache: map<K, V>)

  /** Calls with `keys[i]` in order, the wrapped function answering
      `answers[i]` if it is called at step i. */
  function Run<K, V>(cache: map<K, V>, keys: seq<K>, answers: seq<Result<V>>): (t: Trace<K, V>)
    requires |answers| == |keys|
    ensures |t.results| == |keys| && |t.invoked| == |keys|
    ensures forall k :: k in cache ==> k in t.cache && t.cache[k] == cache[k]
    decreases |keys|
  {
    if keys == [] then Trace([], [], cache)
    else
      var l := Call(cache, keys[0], answers[0]);
      var t := Run(l.cache, keys[1..], answers[1..]);
      Trace([l.result] + t.results, [l.invoked] + t.invoked, t.cache)
  }

  /** A key already cached when the run starts is answered from the cache
      at every step, without calling the wrapped function. */
  lemma {:induction false} RunHit<K, V>(cache: map<K, V>, keys: seq<K>, answers: seq<Result<V>>, j: nat)
    requires |answers| == |keys| && j < |keys| && keys[j] in cache
    ensures Run(cache, keys, answers).results[j] == Ok(cache[keys[j]])
    ensures !Run(cache, keys, answers).invoked[j]
    decreases j
  {
    var l := Call(cache, keys[0], answers[0]);
    if j > 0 {
      RunHit(l.cache, keys[1..], answers[1..], j - 1);
    }
  }

  /** Once a call for a key has returned a value, every later call for the
      same key returns that same value and does not call the function again,
      whatever the function would answer by then. */
  lemma {:induction false} RunConsistent<K, V>(cache: map<K, V>, keys: seq<K>, answers: seq<Result<V>>, i: nat, j: nat)
    requires |answers| == |keys| && i < j < |keys| && keys[i] == keys[j]
    requires Run(cache, keys, answers).results[i].Ok?
    ensures Run(cache, keys, answers).results[j] == Run(cache, keys, answers).results[i]
    ensures !Run(cache, keys, answers).invoked[j]
    decreases j
  {
    var l := Call(cache, keys[0], answers[0]);
    if i == 0 {
      RunHit(l.cache, keys[1..], answers[1..], j - 1);
    } else {
      RunConsistent(l.cache, keys[1..], answers[1..], i - 1, j - 1);
    }
  }

  /** Keys present in the final cache: the starting ones and those whose
      call succeeded; a key whose every call raised is never stored. */
  lemma {:induction false} RunStores<K, V>(cache: map<K, V>, keys: seq<K>, answers: seq<Result<V>>, k: K)
    requires |answers| == |keys|
    ensures k in Run(cache, keys, answers).cache <==>
      k in cache || exists i :: 0 <= i < |keys| && keys[i] == k && Run(cache, keys, answers).results[i].Ok?
    decreases |keys|
  {
    if keys != [] {
      var l := Call(cache, keys[0], answers[0]);
      var t := Run(l.cache, keys[1..], answers[1..]);
      var r := Run(cache, keys, answers);
      RunStores(l.cache, keys[1..], answers[1..], k);
      assert forall i :: 0 < i < |keys| ==> keys[i] == keys[1..][i - 1] && r.results[i] == t.results[i - 1];
      if k in r.cache && k !in cache && k != keys[0] {
        var i :| 0 <= i < |keys| - 1 && keys[1..][i] == k && t.results[i].Ok?;
        assert keys[i + 1] == k && r.results[i + 1].Ok?;
      }
      if k in r.cache && k !in cache && k == keys[0] && l.result.Raise? {
        var i :| 0 <= i < |keys| - 1 && keys[1..][i] == k && t.results[i].Ok?;
        assert keys[i + 1] == k && r.results[i + 1].Ok?;
      }
    }
  }
}

=== FILE: naming.dfy ===
/** Names shared by both revisions: the client name derived for a new
    tenant, the tenant-id to client-name lookup, and the default admin's
    address.
 */
module Naming {
  import opened PyJson
  import Sanitize
  import Memo

  /** `urlify(company_info['companyName'])`: the regular expressions accept
      only a str, anything else is a TypeError. */
  function CompanyPart(companyName: Json): (r: Result<string>)
    ensures r.Ok? <==> companyName.Str?
    ensures r.Ok? ==> r.value == Sanitize.Urlify(companyName.s)
  {
    if companyName.Str? then Ok(Sanitize.Urlify(companyName.s)) else Raise(TypeError)
  }

  /** `'{}-sub{}'.format(company_name if company_name else 'Unnamed', sub_id)` */
  function ClientName(companyPart: string, subId: Json): (r: Result<string>)
    ensures r.Ok? <==> Render(subId).Ok?
  {
    var sub :- Render(subId);
    Ok((if companyPart != [] then companyPart else "Unnamed") + "-sub" + sub)
  }

  /** The company part and subscription id a client name was built from:
      everything before the last "-sub", and everything after it. */
  function SplitClientName(name: string): Option<(string, string)>
    decreases |name|
  {
    if |name| >= 4 && name[|name| - 4..] == "-sub" then Some((name[..|name| - 4], ""))
    else if name == [] then None
    else match SplitClientName(name[..|name| - 1])
      case Some(p) => Some((p.0, p.1 + [name[|name| - 1]]))
      case None => None
  }

  /** The client name determines the subscription it was made for: for a
      rendered subscription id without '-' (any non-negative integer), the
      name splits back into its company part and that id. */
  lemma {:induction false} ClientNameSplits(companyPart: string, subId: Json)
    requires Render(subId).Ok?
    requires forall i :: 0 <= i < |Render(subId).value| ==> Render(subId).value[i] != '-'
    ensures var base := if companyPart != [] then companyPart else "Unnamed";
      SplitClientName(ClientName(companyPart, subId).value) == Some((base, Render(subId).value))
  {
    var base := if companyPart != [] then companyPart else "Unnamed";
    SplitAfterSeparator(base, Render(subId).value);
  }

  lemma {:induction false} SplitAfterSeparator(base: string, d: string)
    requires forall i :: 0 <= i < |d| ==> d[i] != '-'
    ensures SplitClientName(base + "-sub" + d) == Some((base, d))
    decreases |d|
  {
    var name := base + "-sub" + d;
    if d == [] {
      assert name == base + "-sub";
      assert name[|name| - 4..] == "-sub";
      assert name[..|name| - 4] == base;
    } else {
      var d' := d[..|d| - 1];
      assert name[|name| - 4] != '-' by {
        if |d| >= 4 {
          assert name[|name| - 4] == d[|d| - 4];
        } else {
          assert name[|name| - 4] == "-sub"[|d|];
        }
      }
      assert name[..|name| - 1] == base + "-sub" + d';
      SplitAfterSeparator(base, d');
      assert d' + [name[|name| - 1]] == d;
    }
  }

  /** A non-negative subscription id renders without '-'. */
  lemma NatRendersWithoutDash(n: nat)
    ensures Render(Int(n)).Ok?
    ensures forall i :: 0 <= i < |Render(Int(n)).value| ==> Render(Int(n)).value[i] != '-'
  {
  }

  /** The text of the KeyError raised when the tenant resource has no
      `tenantId`. */
  function MissingTenantId(tenantId: string): string {
    "tenantId property is missing in OA resource " + tenantId
  }

  /** The body of `get_name_for_tenant`, given the fetched tenant resource. */
  function NameFromResource(tenantId: string, resource: Json): (r: Result<Json>)
    ensures resource.Obj? ==> (r.Ok? <==> "tenantId" in resource.fields)
    ensures r.Ok? ==> resource.Obj? && r.value == resource.fields["tenantId"]
    ensures resource.Obj? && "tenantId" !in resource.fields ==> r == Raise(KeyError(MissingTenantId(tenantId)))
  {
    var present :- Contains(resource, "tenantId");
    if !present then Raise(KeyError(MissingTenantId(tenantId))) else Index(resource, "tenantId")
  }

  /** `get_name_for_tenant(tenant_id)`, memoized per tenant id; `fetched` is
      what `OA.get_resource(tenant_id)` returns or raises if it is called. */
  function GetNameForTenant(cache: map<string, Json>, tenantId: string, fetched: Result<Json>): (r: Memo.Lookup<string, Json>)
    ensures tenantId in cache ==> r.result == Ok(cache[tenantId]) && !r.invoked && r.cache == cache
    ensures tenantId !in cache && fetched.Ok? ==> r.result == NameFromResource(tenantId, fetched.value)
    ensures tenantId !in cache && fetched.Raise? ==> r.result == fetched && r.cache == cache
    ensures r.result.Ok? ==> tenantId in r.cache && r.cache[tenantId] == r.result.value
    ensures forall k :: k in cache ==> k in r.cache && r.cache[k] == cache[k]
  {
    var computed := match fetched
      case Ok(resource) => NameFromResource(tenantId, resource)
      case Raise(e) => Raise(e);
    Memo.Call(cache, tenantId, computed)
  }

  /** Every character is one escape_domain_name keeps. */
  predicate DomainText(s: string) {
    forall i :: 0 <= i < |s| ==> Sanitize.IsDomainChar(s[i])
  }

  lemma DomainConcat(a: string, b: string)
    requires DomainText(a) && DomainText(b)
    ensures DomainText(a + b)
  {
    forall i | 0 <= i < |a + b|
      ensures Sanitize.IsDomainChar((a + b)[i])
    {
      if i < |a| {
        assert (a + b)[i] == a[i];
      } else {
        assert (a + b)[i] == b[i - |a|];
      }
    }
  }

  lemma TailIsDomain()
    ensures DomainText(".") && DomainText(".fallball.io")
  {
  }

  /** The address built from two escaped names. */
  lemma AdminAddressShape(c: string, s: string)
    requires DomainText(c) && DomainText(s)
    ensures var r := "admin@" + c + "." + s + ".fallball.io";
      |r| >= 18 && r[..6] == "admin@" && r[|r| - 12..] == ".fallball.io" && DomainText(r[6..])
  {
    TailIsDomain();
    DomainConcat(c, ".");
    DomainConcat(c + ".", s);
    DomainConcat(c + "." + s, ".fallball.io");
    var d := c + "." + s + ".fallball.io";
    var r := "admin@" + c + "." + s + ".fallball.io";
    assert r == "admin@" + d;
    assert r[6..] == d;
  }

  /** 'admin@{client}.{reseller}.fallball.io' with both names escaped. */
  function AdminEmail(clientName: string, resellerName: string): (r: string)
    ensures |r| >= 18 && r[..6] == "admin@" && r[|r| - 12..] == ".fallball.io"
    ensures DomainText(r[6..])
  {
    var c := Sanitize.EscapeDomainName(clientName);
    var s := Sanitize.EscapeDomainName(resellerName);
    AdminAddressShape(c, s);
    "admin@" + c + "." + s + ".fallball.io"
  }

  lemma OneAtAfterAdmin(r: string, i: nat)
    requires |r| >= 6 && r[..6] == "admin@" && DomainText(r[6..]) && i < |r|
    ensures r[i] == '@' <==> i == 5
  {
    if i < 6 {
      assert r[i] == "admin@"[i];
    } else {
      assert r[i] == r[6..][i - 6];
      assert Sanitize.IsDomainChar(r[6..][i - 6]);
    }
  }

  /** The default admin email has exactly one '@', at the end of "admin". */
  lemma AdminEmailOneAt(clientName: string, resellerName: string)
    ensures var r := AdminEmail(clientName, resellerName);
      forall i :: 0 <= i < |r| ==> (r[i] == '@' <==> i == 5)
  {
    var r := AdminEmail(clientName, resellerName);
    forall i | 0 <= i < |r|
      ensures r[i] == '@' <==> i == 5
    {
      OneAtAfterAdmin(r, i);
    }
  }

  /** Names that already are domain labels appear in the address as given. */
  lemma AdminEmailOfValidNames(clientName: string, resellerName: string)
    requires DomainText(clientName) && (clientName == [] || (clientName[0] != '-' && clientName[|clientName| - 1] != '-'))
    requires DomainText(resellerName) && (resellerName == [] || (resellerName[0] != '-' && resellerName[|resellerName| - 1] != '-'))
    ensures AdminEmail(clientName, resellerName) == "admin@" + clientName + "." + resellerName + ".fallball.io"
  {
    Sanitize.EscapeFixedPoint(clientName);
    Sanitize.EscapeFixedPoint(resellerName);
  }

  /** Escaping the names beforehand changes nothing: the address is built
      from names that are already escaped. */
  lemma AdminEmailOfEscapedNames(clientName: string, resellerName: string)
    ensures AdminEmail(Sanitize.EscapeDomainName(clientName), Sanitize.EscapeDomainName(resellerName)) ==
      AdminEmail(clientName, resellerName)
  {
    Sanitize.EscapeIdempotent(clientName);
    Sanitize.EscapeIdempotent(resellerName);
  }
}

=== FILE: oa.dfy ===
/** The connector's side of the platform controller (OA), later revision:
    error mapping, the request sender with its retry-on-400 loop, outgoing
    headers, notification and subscription payloads, and the readers of
    the application schema.

    The network is not modelled: each attempt's outcome is an `Answer`
    supplied by the caller.
 */
module OaV1 {
  import opened PyJson
  import opened Http
  import opened Effects
  import Sanitize
  import Memo

  // ------------------------------------------------------------ errors

  /** `make_error(e)`: a body holding only the message, with the upstream
      status code. */
  function MakeError(status: int, text: string): (r: Response)
    ensures r.code == status && r.headers == map[]
    ensures r.body.Obj? && r.body.fields.Keys == {"message"}
    ensures r.body.fields["message"] == Str(Sanitize.Strip(text, '"'))
  {
    var body := map["message" := Str(Sanitize.Strip(text, '"'))];
    assert body.Keys == {"message"};
    Response(Obj(body), status, map[])
  }

  /** A quoted message comes back without its quotes, as in the Storage
      Service's JSON-encoded error strings. */
  lemma MakeErrorUnquotes(status: int, m: string)
    requires m == [] || (m[0] != '"' && m[|m| - 1] != '"')
    ensures MakeError(status, "\"" + m + "\"").body == Obj(map["message" := Str(m)])
  {
    Sanitize.StripWrapped(m, '"');
  }

  /** `ConnectorResource.dispatch_request`: a Storage Service client or
      server error raised by a handler becomes `make_error`'s response;
      everything else passes through. */
  function Dispatch(handled: Result<Response>): (r: Result<Response>)
    ensures handled.Ok? ==> r == handled
    ensures r.Raise? ==> r == handled && !r.exc.HttpClientError? && !r.exc.HttpServerError?
    ensures handled.Raise? && (handled.exc.HttpClientError? || handled.exc.HttpServerError?) ==>
      r == Ok(MakeError(handled.exc.status, handled.exc.text))
  {
    match handled
    case Ok(_) => handled
    case Raise(e) =>
      if e.HttpClientError? || e.HttpServerError? then Ok(MakeError(e.status, e.text)) else handled
  }

  /** `ConnectorResource.dispatch_request`: every handler's outcome passes
      through `Dispatch`; the requests it made are unchanged. */
  function Serve(o: Outcome<Response>): (r: Outcome<Response>)
    ensures r.effects == o.effects
    ensures o.result.Ok? ==> r.result == o.result
  {
    Outcome(Dispatch(o.result), o.effects)
  }

  /** The fixed parts of the message of `OACommunicationException`. */
  function FailedHead(): string { "Request to OA failed." }
  function CodeLead(): string { " OA responded with code " }
  function MessageLead(): string { "\nError message: " }

  /** The message of `OACommunicationException(resp)`; `status` is None for
      the timeout and transport errors, which carry no status code. */
  function OaCommMessage(status: Option<int>, text: string): (r: string)
    ensures |r| >= |FailedHead()| && r[..|FailedHead()|] == FailedHead()
    ensures var tail := MessageLead() + text;
      |r| >= |tail| && r[|r| - |tail|..] == tail
    ensures status.Some? && status.value != 0 ==>
      IsSubstring(CodeLead() + IntToString(status.value), r)
    ensures status.Some? && status.value != 0 ==>
      r == FailedHead() + CodeLead() + IntToString(status.value) + MessageLead() + text
    ensures !(status.Some? && status.value != 0) ==> r == FailedHead() + MessageLead() + text
  {
    if status.Some? && status.value != 0 then
      CodedParts(FailedHead(), CodeLead(), IntToString(status.value), MessageLead(), text);
      FailedHead() + CodeLead() + IntToString(status.value) + MessageLead() + text
    else
      UncodedParts(FailedHead(), MessageLead(), text);
      FailedHead() + MessageLead() + text
  }

  /** Where each part of a message `head + lead + code + sep + text` sits. */
  lemma CodedParts(head: string, lead: string, code: string, sep: string, text: string)
    ensures var r := head + lead + code + sep + text;
      && |r| >= |head| && r[..|head|] == head
      && |r| >= |sep + text| && r[|r| - |sep + text|..] == sep + text
      && IsSubstring(lead + code, r)
  {
    var r := head + lead + code + sep + text;
    assert r == head + (lead + code) + (sep + text);
    assert r[|head|..|head| + |lead + code|] == lead + code;
  }

  /** Where each part of a message `head + sep + text` sits. */
  lemma UncodedParts(head: string, sep: string, text: string)
    ensures var r := head + sep + text;
      && |r| >= |head| && r[..|head|] == head
      && |r| >= |sep + text| && r[|r| - |sep + text|..] == sep + text
  {
    var r := head + sep + text;
    assert r == head + (sep + text);
  }

  // ------------------------------------------------------ send_request

  /** The timeout passed to every request, in seconds. */
  const RequestTimeout: nat := 50

  /** What one attempt produced: no response (the transport raised, or the
      request timed out), or a response with its status, decoded body and
      text. */
  datatype Answer =
    | Transport(text: string, timedOut: bool)
    | Reply(status: int, body: Result<Json>, text: string)

  /** The exception `send_request` raises for an answer it gives up on. */
  function Failure(a: Answer): Exc {
    match a
    case Transport(text, timedOut) =>
      OaCommunication(OaCommMessage(None,
        if timedOut then "Request to OA timed out. Timeout: " + NatToString(RequestTimeout) else text))
    case Reply(status, _, text) => OaCommunication(OaCommMessage(Some(status), text))
  }

  /** The number of attempts `retry_num` allows. */
  function Attempts(retryNum: int): (n: nat)
    ensures n >= 1
    ensures retryNum > 0 ==> n == retryNum
  {
    if retryNum > 0 then retryNum else 1
  }

  /** The outcome of the sending loop and how many requests it sent. */
  datatype Sent = Sent(result: Result<Json>, sends: nat)

  /** The loop as a recursion: attempt number `i` with `left` attempts to go. */
  function SendFrom(answer: nat -> Answer, i: nat, left: nat): Sent
    requires left >= 1
    decreases left
  {
    var a := answer(i);
    if a.Transport? then Sent(Raise(Failure(a)), i + 1)
    else if a.status == 200 then Sent(a.body, i + 1)
    else if a.status != 400 || left == 1 then Sent(Raise(Failure(a)), i + 1)
    else SendFrom(answer, i + 1, left - 1)
  }

  /** `send_request`'s result for the answers `answer(0), answer(1), ...`. */
  function Send(answer: nat -> Answer, retryNum: int): Sent {
    SendFrom(answer, 0, Attempts(retryNum))
  }

  predicate Is400(a: Answer) {
    a.Reply? && a.status == 400
  }

  /** Every request before the last one was answered 400; the last answer
      decides: a 200 returns its body, anything else raises for it, and a
      last 400 only happens when the attempts are used up. */
  lemma {:induction false} SendFromShape(answer: nat -> Answer, i: nat, left: nat)
    requires left >= 1
    ensures var s := SendFrom(answer, i, left);
      && i + 1 <= s.sends <= i + left
      && (forall k :: i <= k < s.sends - 1 ==> Is400(answer(k)))
      && (var a := answer(s.sends - 1);
          && (a.Reply? && a.status == 200 ==> s.result == a.body)
          && (!(a.Reply? && a.status == 200) ==> s.result == Raise(Failure(a)))
          && (Is400(a) ==> s.sends == i + left))
    decreases left
  {
    var a := answer(i);
    if !a.Transport? && a.status == 400 && left > 1 {
      SendFromShape(answer, i + 1, left - 1);
    } else {
      assert SendFrom(answer, i, left).sends == i + 1;
    }
  }

  /** The retry contract: at least one and at most `Attempts(retry_num)`
      requests, a 400 before every retry, and the result decided by the
      last answer. */
  lemma SendShape(answer: nat -> Answer, retryNum: int)
    ensures var s := Send(answer, retryNum);
      && 1 <= s.sends <= Attempts(retryNum)
      && (forall k :: 0 <= k < s.sends - 1 ==> Is400(answer(k)))
      && (var a := answer(s.sends - 1);
          && (a.Reply? && a.status == 200 ==> s.result == a.body)
          && (!(a.Reply? && a.status == 200) ==> s.result == Raise(Failure(a)))
          && (Is400(a) ==> s.sends == Attempts(retryNum)))
  {
    SendFromShape(answer, 0, Attempts(retryNum));
  }

  /** `send_request`'s loop as written: count down the attempts, return on
      200, raise on a transport error or any status but 400, and raise for
      the last response once the attempts are used up. */
  method SendRequest(answer: nat -> Answer, retryNum: int) returns (result: Result<Json>, sends: nat)
    ensures Sent(result, sends) == Send(answer, retryNum)
    ensures 1 <= sends <= Attempts(retryNum)
  {
    var retry := Attempts(retryNum);
    sends := 0;
    var resp := answer(0);
    while retry > 0
      invariant sends + retry == Attempts(retryNum)
      invariant retry > 0 ==> Send(answer, retryNum) == SendFrom(answer, sends, retry)
      invariant retry == 0 ==> sends >= 1 && resp == answer(sends - 1) && Is400(resp)
      invariant retry == 0 ==> Send(answer, retryNum) == Sent(Raise(Failure(resp)), sends)
      decreases retry
    {
      retry := retry - 1;
      resp := answer(sends);
      sends := sends + 1;
      if resp.Transport? {
        return Raise(Failure(resp)), sends;
      }
      if resp.status == 200 {
        return resp.body, sends;
      } else if resp.status != 400 {
        return Raise(Failure(resp)), sends;
      }
    }
    result := Raise(Failure(resp));
  }

  /** Replies with the given statuses in turn and then `last` for good,
      each with the same body and no text. */
  function Replies(statuses: seq<int>, last: int, body: Json): nat -> Answer {
    (k: nat) => Reply(if k < |statuses| then statuses[k] else last, Ok(body), "")
  }

  /** Retry scenarios at the edges of the loop: a 500 is not retried, 400s
      are retried until a 200 or until the attempts run out, and a
      non-positive `retry_num` allows one attempt. */
  lemma RetryScenarios(body: Json)
    ensures Send(Replies([500], 200, body), 10) == Sent(Raise(Failure(Reply(500, Ok(body), ""))), 1)
    ensures Send(Replies([400, 400], 200, body), 3) == Sent(Ok(body), 3)
    ensures Send(Replies([], 400, body), 2) == Sent(Raise(Failure(Reply(400, Ok(body), ""))), 2)
    ensures Send(Replies([], 400, body), -1) == Sent(Raise(Failure(Reply(400, Ok(body), ""))), 1)
  {
  }

  /** The answers the connector's retry test (tests/v1/test_resources.py)
      feeds `send_request` through one mocked session: after 500, 400, 200
      the default `retry_num` of 10 fails on the 500 after one request; the
      next call, with `retry_num=2`, gets the remaining 400 then 200 and
      succeeds on its second request; with the answers reset to 400, 400,
      `retry_num=1` fails after one request. */
  lemma TestedRetries(body: Json)
    ensures Send(Replies([500, 400], 200, body), 10) == Sent(Raise(Failure(Reply(500, Ok(body), ""))), 1)
    ensures Send(Replies([400], 200, body), 2) == Sent(Ok(body), 2)
    ensures Send(Replies([400], 400, body), 1) == Sent(Raise(Failure(Reply(400, Ok(body), ""))), 1)
  {
  }

  // ------------------------------------------------------------ headers

  /** Truthiness of an optional string header value. */
  predicate Given(o: Option<string>) {
    o.Some? && o.value != []
  }

  /** The headers `send_request` puts on its request. */
  function OutboundHeaders(impersonateAs: Option<string>, transaction: bool, inboundTransaction: Option<string>): (h: map<string, string>)
    ensures "Content-Type" in h && h["Content-Type"] == "application/json"
    ensures "aps-resource-id" in h <==> Given(impersonateAs)
    ensures "aps-resource-id" in h ==> h["aps-resource-id"] == impersonateAs.value
    ensures "aps-transaction-id" in h <==> transaction && Given(inboundTransaction)
    ensures "aps-transaction-id" in h ==> h["aps-transaction-id"] == inboundTransaction.value
    ensures h.Keys <= {"Content-Type", "aps-resource-id", "aps-transaction-id"}
  {
    var h := map["Content-Type" := "application/json"];
    var h := if Given(impersonateAs) then h["aps-resource-id" := impersonateAs.value] else h;
    if transaction && Given(inboundTransaction) then h["aps-transaction-id" := inboundTransaction.value] else h
  }

  // ------------------------------------------------------- notifications

  /** The arguments of `OA.send_notification`, with the initiator taken
      from the inbound `aps-identity-id` header. */
  datatype Notice = Notice(
    message: Json,
    details: Option<Json>,
    messageKeys: Option<Json>,
    accountId: Option<Json>,
    status: Json,
    userId: Option<Json>,
    link: Option<Json>,
    initiatorId: Option<string>)

  /** An optional argument counts only when it is given and `is not None`. */
  predicate Passed(o: Option<Json>) {
    o.Some? && !o.value.Null?
  }

  function Put(m: map<string, Json>, key: string, o: Option<Json>): (r: map<string, Json>)
    ensures r.Keys == m.Keys + (if Passed(o) then {key} else {})
    ensures Passed(o) ==> r[key] == o.value
    ensures forall k :: k in m && k != key ==> r[k] == m[k]
  {
    if Passed(o) then m[key := o.value] else m
  }

  /** The notification dictionary `send_notification` posts: an optional
      argument that is absent or None leaves its key out. */
  function NotificationPayload(n: Notice): (p: Json)
    ensures p.Obj? && "status" in p.fields && p.fields["status"] == n.status
    ensures "message" in p.fields && p.fields["message"].Obj?
    ensures p.fields["message"].fields.Keys == {"message"} + (if Passed(n.messageKeys) then {"keys"} else {})
    ensures "accountId" in p.fields <==> Passed(n.accountId)
    ensures "userId" in p.fields <==> Passed(n.userId)
    ensures "link" in p.fields <==> Passed(n.link)
    ensures "initiatorId" in p.fields <==> n.initiatorId.Some?
    ensures "details" in p.fields <==> Passed(n.details)
    ensures "details" in p.fields ==> (p.fields["details"].Obj? &&
      p.fields["details"].fields.Keys == {"message"} + (if Passed(n.messageKeys) then {"keys"} else {}))
    ensures p.fields.Keys <= {"status", "message", "accountId", "userId", "details", "link", "initiatorId"}
  {
    PayloadKeys(n);
    PayloadValues(n);
    Obj(PayloadFields(n))
  }

  /** The entries of the notification dictionary, added in the order
      `send_notification` adds them. */
  function PayloadFields(n: Notice): map<string, Json> {
    var details := if Passed(n.details) then Some(MessageBody(n.details.value, n.messageKeys)) else None;
    var initiator := if n.initiatorId.Some? then Some(Str(n.initiatorId.value)) else None;
    var m := map["status" := n.status, "message" := MessageBody(n.message, n.messageKeys)];
    var m := Put(m, "accountId", n.accountId);
    var m := Put(m, "userId", n.userId);
    var m := Put(m, "details", details);
    var m := Put(m, "link", n.link);
    Put(m, "initiatorId", initiator)
  }

  lemma PayloadKeys(n: Notice)
    ensures PayloadFields(n).Keys == {"status", "message"} + (if Passed(n.accountId) then {"accountId"} else {}) +
      (if Passed(n.userId) then {"userId"} else {}) + (if Passed(n.details) then {"details"} else {}) +
      (if Passed(n.link) then {"link"} else {}) + (if n.initiatorId.Some? then {"initiatorId"} else {})
  {
  }

  lemma PayloadValues(n: Notice)
    ensures PayloadFields(n)["status"] == n.status
    ensures PayloadFields(n)["message"] == MessageBody(n.message, n.messageKeys)
    ensures Passed(n.details) ==> PayloadFields(n)["details"] == MessageBody(n.details.value, n.messageKeys)
    ensures Passed(n.accountId) ==> PayloadFields(n)["accountId"] == n.accountId.value
    ensures Passed(n.userId) ==> PayloadFields(n)["userId"] == n.userId.value
    ensures Passed(n.link) ==> PayloadFields(n)["link"] == n.link.value
    ensures n.initiatorId.Some? ==> PayloadFields(n)["initiatorId"] == Str(n.initiatorId.value)
  {
  }

  /** `{'message': text}`, with the message keys when they are given. */
  function MessageBody(text: Json, keys: Option<Json>): (r: Json)
    ensures r.Obj? && r.fields.Keys == {"message"} + (if Passed(keys) then {"keys"} else {})
    ensures r.fields["message"] == text
    ensures Passed(keys) ==> r.fields["keys"] == keys.value
  {
    Obj(Put(map["message" := text], "keys", keys))
  }

  /** An optional argument as the payload records it: None when absent or None. */
  function Present(o: Option<Json>): (r: Option<Json>)
    ensures r.Some? <==> Passed(o)
    ensures Passed(o) ==> r == o
  {
    if Passed(o) then o else None
  }

  /** The arguments with every None argument treated as absent. */
  function Normalized(n: Notice): Notice {
    n.(details := Present(n.details), messageKeys := Present(n.messageKeys), accountId := Present(n.accountId),
       userId := Present(n.userId), link := Present(n.link))
  }

  function Field(m: map<string, Json>, key: string): Option<Json> {
    if key in m then Some(m[key]) else None
  }

  /** Reads a notification dictionary back into its arguments. */
  function ParseNotification(p: Json): Option<Notice> {
    if !p.Obj? || "status" !in p.fields || "message" !in p.fields then None
    else
      var msg := p.fields["message"];
      if !msg.Obj? || "message" !in msg.fields then None
      else
        var details := Field(p.fields, "details");
        if details.Some? && !(details.value.Obj? && "message" in details.value.fields) then None
        else
          var initiator := Field(p.fields, "initiatorId");
          if initiator.Some? && !initiator.value.Str? then None
          else Some(Notice(
            msg.fields["message"],
            if details.Some? then Some(details.value.fields["message"]) else None,
            Field(msg.fields, "keys"),
            Field(p.fields, "accountId"),
            p.fields["status"],
            Field(p.fields, "userId"),
            Field(p.fields, "link"),
            if initiator.Some? then Some(initiator.value.s) else None))
  }

  /** Every argument can be read back from the payload: optional fields
      appear exactly when given and not None, and nothing is lost or
      invented. */
  lemma NotificationRoundTrip(n: Notice)
    ensures ParseNotification(NotificationPayload(n)) == Some(Normalized(n))
  {
    PayloadKeys(n);
    PayloadValues(n);
    var f := PayloadFields(n);
    assert NotificationPayload(n) == Obj(f);
    assert Field(MessageBody(n.message, n.messageKeys).fields, "keys") == Present(n.messageKeys);
    assert Field(f, "accountId") == Present(n.accountId);
    assert Field(f, "userId") == Present(n.userId);
    assert Field(f, "link") == Present(n.link);
    assert Field(f, "details").Some? <==> Passed(n.details);
    assert Field(f, "initiatorId").Some? <==> n.initiatorId.Some?;
  }

  /** Passing None for an optional argument is the same as leaving it out. */
  lemma NoneArgumentsOmitted(n: Notice)
    ensures NotificationPayload(Normalized(n)) == NotificationPayload(n)
  {
  }

  /** `get_notification_manager`'s extraction: `response[0]['aps']['id']`. */
  function ManagerId(response: Json): (r: Result<Json>)
    ensures r.Ok? ==> (response.Arr? && |response.items| > 0 &&
      At(response.items[0], ["aps", "id"]) == Some(r.value))
  {
    var first :- First(response);
    var aps :- Index(first, "aps");
    Index(aps, "id")
  }

  /** `get_notification_manager()`, memoized under its single (empty)
      argument tuple; `answer` is the RQL query's outcome if it is sent. */
  function GetNotificationManager(cache: map<(), Json>, answer: Result<Json>): (r: Memo.Lookup<(), Json>)
    ensures () in cache ==> r.result == Ok(cache[()]) && !r.invoked
    ensures r.result.Ok? ==> () in r.cache && r.cache[()] == r.result.value
  {
    var computed := match answer
      case Ok(resp) => ManagerId(resp)
      case Raise(e) => Raise(e);
    Memo.Call(cache, (), computed)
  }

  /** The path notifications are posted to. */
  function NotificationsPath(managerId: Json): Result<string> {
    var id :- Render(managerId);
    Ok("aps/2/resources/" + id + "/notifications")
  }

  /** `OA.send_notification` once its payload is built: the notification
      manager's id (`manager`, the outcome of the memoized lookup) names the
      path, and `posted` is the outcome of posting there. */
  function SendNotification(n: Notice, manager: Result<Json>, posted: Result<Json>): (o: Outcome<Json>)
    ensures manager.Raise? ==> o == Outcome(Raise(manager.exc), [])
    ensures o.result.Ok? ==> (o.result == posted && manager.Ok? && NotificationsPath(manager.value).Ok? &&
      o.effects == [Notify(NotificationsPath(manager.value).value, NotificationPayload(n))])
    ensures |o.effects| <= 1
  {
    match manager
    case Raise(e) => Outcome(Raise(e), [])
    case Ok(id) =>
      match NotificationsPath(id)
      case Raise(e) => Outcome(Raise(e), [])
      case Ok(path) => Outcome(posted, [Notify(path, NotificationPayload(n))])
  }

  // ------------------------------------------------------- subscriptions

  datatype Subscription = Subscription(event: Json, sourceType: Json, relation: Json, handler: Json)

  /** The dictionary `subscribe_on` posts. */
  function SubscriptionPayload(s: Subscription): (p: Json)
    ensures p.Obj? && p.fields.Keys == {"event", "source", "relation", "handler"}
    ensures p.fields["source"] == Obj(map["type" := s.sourceType])
  {
    Obj(map["event" := s.event, "source" := Obj(map["type" := s.sourceType]),
            "relation" := s.relation, "handler" := s.handler])
  }

  function ParseSubscription(p: Json): Option<Subscription> {
    if !p.Obj? || !({"event", "source", "relation", "handler"} <= p.fields.Keys) then None
    else
      var source := p.fields["source"];
      if !source.Obj? || "type" !in source.fields then None
      else Some(Subscription(p.fields["event"], source.fields["type"], p.fields["relation"], p.fields["handler"]))
  }

  lemma SubscriptionRoundTrip(s: Subscription)
    ensures ParseSubscription(SubscriptionPayload(s)) == Some(s)
  {
  }

  /** 'aps/2/resources/{}/aps/subscriptions'.format(resource_id) */
  function SubscriptionsPath(resourceId: Json): Result<string> {
    var id :- Render(resourceId);
    Ok("aps/2/resources/" + id + "/aps/subscriptions")
  }

  // -------------------------------------------------- application schema

  /** `is_application_support_users()` for the fetched application schema:
      whether its 'user' entry is truthy. `get_application_schema` is
      memoized in the source; its cache is not modelled, so the schema is
      an input. */
  function SupportsUsers(schema: Json): (r: Result<bool>)
    ensures r.Ok? <==> schema.Obj?
    ensures r.Ok? ==> (r.value <==> "user" in schema.fields && Truthy(schema.fields["user"]))
  {
    var user :- GetOr(schema, "user", Null);
    Ok(Truthy(user))
  }

  /** A chain of `.get(key, {})` calls ending in `.get(last, default)`. */
  function GetChain(j: Json, path: seq<string>, default: Json): Result<Json>
    requires path != []
    decreases |path|
  {
    if |path| == 1 then GetOr(j, path[0], default)
    else
      var next :- GetOr(j, path[0], EmptyObj);
      GetChain(next, path[1..], default)
  }

  /** Every value the chain calls `.get` on, where present, is a dictionary. */
  predicate DictsAlong(j: Json, path: seq<string>)
    decreases |path|
  {
    path == [] || (j.Obj? && (path[0] in j.fields ==> DictsAlong(j.fields[path[0]], path[1..])))
  }

  /** The chain of gets returns the nested value when every key is present,
      the default as soon as one is missing, and raises AttributeError
      exactly when it meets a present value that is not a dictionary. */
  lemma {:induction false} GetChainFollowsPath(j: Json, path: seq<string>, default: Json)
    requires path != []
    ensures GetChain(j, path, default).Ok? <==> DictsAlong(j, path)
    ensures GetChain(j, path, default).Ok? ==>
      GetChain(j, path, default).value == (if At(j, path).Some? then At(j, path).value else default)
    decreases |path|
  {
    if |path| > 1 && j.Obj? {
      if path[0] in j.fields {
        GetChainFollowsPath(j.fields[path[0]], path[1..], default);
      } else {
        EmptyChain(path[1..], default);
      }
    }
  }

  lemma {:induction false} EmptyChain(path: seq<string>, default: Json)
    requires path != []
    ensures GetChain(EmptyObj, path, default) == Ok(default)
    decreases |path|
  {
    if |path| > 1 {
      EmptyChain(path[1..], default);
    }
  }

  /** `get_user_schema()` for the fetched application schema; `fetched` is
      the outcome of requesting the user schema, used only when the
      application schema names one. The source memoizes the result; that
      cache is not modelled. */
  function UserSchema(appSchema: Json, fetched: Result<Json>): (r: Result<Json>)
    ensures appSchema.Obj? && "user" !in appSchema.fields ==> r == Ok(EmptyObj)
    ensures GetChain(appSchema, ["user", "schema"], Null).Ok? ==>
      r == (if Truthy(GetChain(appSchema, ["user", "schema"], Null).value) then fetched else Ok(EmptyObj))
  {
    var uri :- GetChain(appSchema, ["user", "schema"], Null);
    if Truthy(uri) then fetched else Ok(EmptyObj)
  }

  /** `get_user_resources()`: `properties.resource.enum` of the user schema,
      `[]` when a step is missing. */
  function UserResources(userSchema: Json): (r: Result<Json>)
    ensures r.Ok? <==> DictsAlong(userSchema, ["properties", "resource", "enum"])
    ensures r.Ok? ==> (r.value ==
      if At(userSchema, ["properties", "resource", "enum"]).Some?
      then At(userSchema, ["properties", "resource", "enum"]).value else Arr([]))
  {
    GetChainFollowsPath(userSchema, ["properties", "resource", "enum"], Arr([]));
    GetChain(userSchema, ["properties", "resource", "enum"], Arr([]))
  }
}

/** The earlier revision's gateway: one attempt per request and no retry. */
module OaV0 {
  import opened PyJson
  import OaV1

  /** The message of the earlier `OACommunicationException(resp)`:
      'Request to OA failed. OA responded with code {}\n{}'. */
  function OaCommMessage(status: int, text: string): (r: string)
    ensures IsSubstring(IntToString(status), r)
    ensures IsSubstring(text, r)
    ensures |r| >= |text| && r[|r| - |text|..] == text
  {
    var head := "Request to OA failed. OA responded with code ";
    var code := IntToString(status);
    var r := head + code + "\n" + text;
    assert r[|head|..|head| + |code|] == code;
    assert r[|r| - |text|..|r|] == text;
    r
  }

  /** `get_resource` / `get_resources`: a single request; any status but
      200 raises, and a transport error propagates from `requests`. */
  function GetOnce(a: OaV1.Answer): (r: Result<Json>)
    ensures r.Ok? ==> a.Reply? && a.status == 200 && r == a.body
    ensures a.Reply? && a.status != 200 ==> r == Raise(OaCommunication(OaCommMessage(a.status, a.text)))
    ensures a.Transport? ==> r == Raise(RequestsError(a.text))
  {
    match a
    case Transport(text, _) => Raise(RequestsError(text))
    case Reply(status, body, text) =>
      if status != 200 then Raise(OaCommunication(OaCommMessage(status, text))) else body
  }

  /** The earlier revision behaves like the later one held to a single
      attempt: it succeeds on the same answers with the same body. */
  lemma SingleAttempt(a: OaV1.Answer)
    ensures GetOnce(a).Ok? <==> OaV1.Send((k: nat) => a, 1).result.Ok?
    ensures GetOnce(a).Ok? ==> GetOnce(a) == OaV1.Send((k: nat) => a, 1).result
    ensures OaV1.Send((k: nat) => a, 1).sends == 1
  {
    OaV1.SendShape((k: nat) => a, 1);
  }
}

=== FILE: params.dfy ===
/** `parameter_validator(k1, ..., kn)`: the request-argument type that walks
    a key path through a decoded JSON argument, one `extract_one` step per
    key, and names the first key that is missing.
 */
module Params {
  import opened PyJson

  /** The text of the ValueError raised for a missing key. */
  function MissingMessage(what: string): string {
    "Missing " + what + " in request"
  }

  /** `extract_one(where, what)`: the `in` test, then indexing. A list that
      holds the key as an element, or a string containing it, passes the
      test and then fails to be indexed by a string. */
  function ExtractOne(where: Json, what: string): (r: Result<Json>)
    ensures r.Ok? <==> where.Obj? && what in where.fields
    ensures r.Ok? ==> r.value == where.fields[what]
    ensures where.Obj? && what !in where.fields ==> r == Raise(ValueError(MissingMessage(what)))
  {
    var present :- Contains(where, what);
    if !present then Raise(ValueError(MissingMessage(what))) else Index(where, what)
  }

  /** `reduce(extract_one, path, where)` */
  function Extract(where: Json, path: seq<string>): (r: Result<Json>)
    decreases |path|
  {
    if path == [] then Ok(where)
    else
      var next :- ExtractOne(where, path[0]);
      Extract(next, path[1..])
  }

  /** The extractor succeeds exactly when every key exists in a dictionary
      at its level, and then returns the nested value. */
  lemma {:induction false} ExtractFollowsPath(where: Json, path: seq<string>)
    ensures Extract(where, path).Ok? <==> At(where, path).Some?
    ensures Extract(where, path).Ok? ==> Extract(where, path).value == At(where, path).value
    decreases |path|
  {
    if path != [] && where.Obj? && path[0] in where.fields {
      ExtractFollowsPath(where.fields[path[0]], path[1..]);
    }
  }

  /** When the walk reaches a dictionary that lacks key `path[k]`, the
      extractor raises ValueError naming that key. */
  lemma {:induction false} ExtractNamesFirstMissing(where: Json, path: seq<string>, k: nat)
    requires k < |path|
    requires At(where, path[..k]).Some?
    requires At(where, path[..k]).value.Obj? && path[k] !in At(where, path[..k]).value.fields
    ensures Extract(where, path) == Raise(ValueError(MissingMessage(path[k])))
    decreases k
  {
    if k > 0 {
      assert path[..k][1..] == path[1..][..k - 1];
      ExtractNamesFirstMissing(where.fields[path[0]], path[1..], k - 1);
    }
  }

  /** Extracting along `p + q` is extracting along `p`, then along `q`
      from there. */
  lemma {:induction false} ExtractConcat(where: Json, p: seq<string>, q: seq<string>)
    ensures Extract(where, p + q) ==
      (match Extract(where, p)
       case Ok(v) => Extract(v, q)
       case Raise(e) => Raise(e))
    decreases |p|
  {
    if p == [] {
      assert p + q == q;
    } else {
      assert (p + q)[0] == p[0] && (p + q)[1..] == p[1..] + q;
      match ExtractOne(where, p[0])
      case Ok(v) => ExtractConcat(v, p[1..], q);
      case Raise(_) =>
    }
  }
}

=== FILE: pyformat.dfy ===
/** `str.format` with one positional argument, the only way the connector
    formats notification texts and tenant names.

    Covered: literal text, the escapes `{{` and `}}`, automatic fields `{}`,
    numbered fields `{0}`, named fields `{name}` (a KeyError, as no keyword
    arguments are passed), the switch between automatic and manual
    numbering, and the ValueErrors for unbalanced braces. A field that uses
    a conversion, a format spec, an attribute or an index (`!`, `:`, `.`,
    `[`, or a nested `{`) gives the model's Unmodelled exception.
 */
module PyFormat {
  import opened PyJson

  /** How the fields seen so far were numbered. */
  datatype Numbering = Unset | Auto(next: nat) | Manual

  predicate NoBraces(s: string) {
    forall i :: 0 <= i < |s| ==> s[i] != '{' && s[i] != '}'
  }

  predicate HasSpecial(s: string) {
    exists i :: 0 <= i < |s| && s[i] in {'!', ':', '.', '[', '{'}
  }

  /** The position of the first '}' in t, or |t| when there is none. */
  function CloseAt(t: string): (k: nat)
    ensures k <= |t|
    ensures k < |t| ==> t[k] == '}'
    ensures forall i :: 0 <= i < k ==> t[i] != '}'
    decreases |t|
  {
    if t == [] || t[0] == '}' then 0 else 1 + CloseAt(t[1..])
  }

  /** The text one replacement field produces, and the numbering after it. */
  function Field(name: string, arg: Json, mode: Numbering): Result<(string, Numbering)> {
    if name == [] then
      if mode == Manual then
        Raise(ValueError("cannot switch from manual field specification to automatic field numbering"))
      else if mode.Auto? && mode.next > 0 then Raise(IndexError)
      else
        var s :- Render(arg);
        Ok((s, Auto(1)))
    else if HasSpecial(name) then
      Raise(Unmodelled("conversion, format spec, attribute or index in a replacement field"))
    else if AllDigits(name) then
      if mode.Auto? then
        Raise(ValueError("cannot switch from automatic field numbering to manual field specification"))
      else if DigitsValue(name) != 0 then Raise(IndexError)
      else
        var s :- Render(arg);
        Ok((s, Manual))
    else Raise(KeyError(name))
  }

  function FormatFrom(t: string, arg: Json, mode: Numbering): Result<string>
    decreases |t|
  {
    if t == [] then Ok([])
    else if t[0] == '{' then
      if |t| == 1 then Raise(ValueError("Single '{' encountered in format string"))
      else if t[1] == '{' then
        var rest :- FormatFrom(t[2..], arg, mode);
        Ok("{" + rest)
      else
        var k := CloseAt(t[1..]);
        if k == |t| - 1 then Raise(ValueError("expected '}' before end of string"))
        else
          var f :- Field(t[1..k + 1], arg, mode);
          var rest :- FormatFrom(t[k + 2..], arg, f.1);
          Ok(f.0 + rest)
    else if t[0] == '}' then
      if |t| > 1 && t[1] == '}' then
        var rest :- FormatFrom(t[2..], arg, mode);
        Ok("}" + rest)
      else Raise(ValueError("Single '}' encountered in format string"))
    else
      var rest :- FormatFrom(t[1..], arg, mode);
      Ok([t[0]] + rest)
  }

  /** `template.format(arg)` */
  function Format(template: string, arg: Json): Result<string> {
    FormatFrom(template, arg, Unset)
  }

  /** Text without braces is copied in front of whatever the rest formats to. */
  lemma {:induction false} FormatLiteralPrefix(p: string, rest: string, arg: Json, mode: Numbering)
    requires NoBraces(p)
    ensures FormatFrom(p + rest, arg, mode) ==
      (match FormatFrom(rest, arg, mode)
       case Ok(s) => Ok(p + s)
       case Raise(e) => Raise(e))
    decreases |p|
  {
    if p != [] {
      assert (p + rest)[0] == p[0] && (p + rest)[1..] == p[1..] + rest;
      FormatLiteralPrefix(p[1..], rest, arg, mode);
      match FormatFrom(rest, arg, mode)
      case Ok(s) => assert [p[0]] + (p[1..] + s) == p + s;
      case Raise(_) =>
    } else {
      assert p + rest == rest;
      match FormatFrom(rest, arg, mode)
      case Ok(s) => assert p + s == s;
      case Raise(_) =>
    }
  }

  /** A template without braces formats to itself. */
  lemma FormatNoBraces(t: string, arg: Json)
    requires NoBraces(t)
    ensures Format(t, arg) == Ok(t)
  {
    FormatLiteralPrefix(t, [], arg, Unset);
    assert t + [] == t;
  }

  /** `(p + "{}").format(arg)` is p followed by str(arg). */
  lemma FormatTrailingField(p: string, arg: Json)
    requires NoBraces(p)
    ensures Render(arg).Ok? ==> Format(p + "{}", arg) == Ok(p + Render(arg).value)
    ensures Render(arg).Raise? ==> Format(p + "{}", arg) == Raise(Render(arg).exc)
  {
    FormatLiteralPrefix(p, "{}", arg, Unset);
    assert "{}"[1..] == "}" && CloseAt("}") == 0;
    assert "{}"[1..1] == [] && "{}"[2..] == [];
    match Render(arg)
    case Ok(s) =>
      assert FormatFrom("{}", arg, Unset) == Ok(s + []);
      assert s + [] == s;
    case Raise(_) =>
  }

  /** A named field after literal text raises KeyError for that name. */
  lemma FormatNamedField(p: string, name: string, arg: Json)
    requires NoBraces(p) && NoBraces(name) && name != [] && !HasSpecial(name) && !AllDigits(name)
    ensures Format(p + "{" + name + "}", arg) == Raise(KeyError(name))
  {
    var t := "{" + name + "}";
    assert p + "{" + name + "}" == p + t;
    FormatLiteralPrefix(p, t, arg, Unset);
    assert t[1..] == name + "}";
    CloseAfter(name);
    assert t[1..|name| + 1] == name;
  }

  lemma CloseAfter(name: string)
    requires NoBraces(name)
    ensures CloseAt(name + "}") == |name|
  {
    var k := CloseAt(name + "}");
    assert (name + "}")[|name|] == '}';
  }
}

=== FILE: pyjson.dfy ===
/** Python-level view of the values the connector handles.

    Every request body, platform resource and Storage Service answer reaches the
    connector as decoded JSON; the handlers then use Python's truthiness, `in`,
    `len`, `[...]` and `dict.get` on those values. This module defines one JSON
    datatype and those operators with the exceptions Python raises, so that the
    handlers can be modelled branch for branch.
 */
module PyJson {

  datatype Option<+T> = None | Some(value: T)

  /** The Python exceptions that the modelled code raises or lets propagate.
      `Unmodelled` is the model's own: it stands for a Python result the model
      does not compute, such as str() of a list or dict (its text depends on
      key order) or a format string using conversions or format specs. */
  datatype Exc =
    | KeyError(key: string)
    | TypeError
    | AttributeError(attr: string)
    | IndexError
    | ValueError(message: string)
    | OaCommunication(message: string)
    | RequestsError(message: string)
    | HttpClientError(status: int, text: string)
    | HttpServerError(status: int, text: string)
    | HttpAbort(status: int)
    | Unmodelled(what: string)
  {
    /** type(e).__name__ */
    function Name(): string {
      match this
      case KeyError(_) => "KeyError"
      case TypeError => "TypeError"
      case AttributeError(_) => "AttributeError"
      case IndexError => "IndexError"
      case ValueError(_) => "ValueError"
      case OaCommunication(_) => "OACommunicationException"
      case RequestsError(_) => "RequestException"
      case HttpClientError(_, _) => "HttpClientError"
      case HttpServerError(_, _) => "HttpServerError"
      case HttpAbort(s) =>
        if s == 400 then "BadRequest"
        else if s == 401 then "Unauthorized"
        else if s == 403 then "Forbidden"
        else "HTTPException"
      case Unmodelled(_) => "Unmodelled"
    }

    /** getattr(e, 'code', 500): only flask_restful's abort() carries a code. */
    function Code(): int {
      if HttpAbort? then status else 500
    }
  }

  /** A Python computation: a value or a raised exception. */
  datatype Result<+T> = Ok(value: T) | Raise(exc: Exc) {
    predicate IsFailure() { Raise? }

    function PropagateFailure<U>(): Result<U>
      requires Raise?
    {
      Raise(exc)
    }

    function Extract(): T
      requires Ok?
    {
      value
    }
  }

  /** Decoded JSON. Numbers are integers; objects are maps (a later key wins,
      as in Python dictionaries). */
  datatype Json =
    | Null
    | Bool(b: bool)
    | Int(i: int)
    | Str(s: string)
    | Arr(items: seq<Json>)
    | Obj(fields: map<string, Json>)

  /** bool(x) */
  predicate Truthy(j: Json) {
    match j
    case Null => false
    case Bool(b) => b
    case Int(i) => i != 0
    case Str(s) => s != []
    case Arr(a) => a != []
    case Obj(m) => m != map[]
  }

  /** bool(x) for an optional argument, where None is falsy. */
  predicate OptTruthy(o: Option<Json>) {
    o.Some? && Truthy(o.value)
  }

  /** x if x is given, else None (a JSON null) */
  function OrNull(o: Option<Json>): Json {
    if o.Some? then o.value else Null
  }

  predicate IsSubstring(sub: string, s: string) {
    exists i, j :: 0 <= i <= j <= |s| && s[i..j] == sub
  }

  /** `key in container` with a string key. */
  function Contains(container: Json, key: string): (r: Result<bool>)
    ensures container.Obj? ==> r == Ok(key in container.fields)
    ensures container.Arr? ==> r == Ok(Str(key) in container.items)
    ensures container.Str? ==> r == Ok(IsSubstring(key, container.s))
    ensures (container.Null? || container.Bool? || container.Int?) <==> r.Raise?
    ensures r.Raise? ==> r.exc == TypeError
  {
    match container
    case Obj(m) => Ok(key in m)
    case Arr(a) => Ok(Str(key) in a)
    case Str(s) => Ok(IsSubstring(key, s))
    case _ => Raise(TypeError)
  }

  /** len(x) */
  function Len(j: Json): (r: Result<nat>)
    ensures r.Ok? <==> (j.Obj? || j.Arr? || j.Str?)
  {
    match j
    case Obj(m) => Ok(|m|)
    case Arr(a) => Ok(|a|)
    case Str(s) => Ok(|s|)
    case _ => Raise(TypeError)
  }

  /** x[key] with a string key: only a dictionary can be indexed by a string. */
  function Index(j: Json, key: string): (r: Result<Json>)
    ensures r.Ok? <==> j.Obj? && key in j.fields
    ensures r.Ok? ==> r.value == j.fields[key]
    ensures j.Obj? && key !in j.fields ==> r == Raise(KeyError(key))
    ensures !j.Obj? ==> r == Raise(TypeError)
  {
    if j.Obj? then
      if key in j.fields then Ok(j.fields[key]) else Raise(KeyError(key))
    else Raise(TypeError)
  }

  /** x.get(key, default): only a dictionary has `get`. */
  function GetOr(j: Json, key: string, default: Json): (r: Result<Json>)
    ensures r.Ok? <==> j.Obj?
    ensures j.Obj? ==> r.value == (if key in j.fields then j.fields[key] else default)
  {
    if j.Obj? then Ok(if key in j.fields then j.fields[key] else default)
    else Raise(AttributeError("get"))
  }

  /** x[0] on a decoded JSON value. */
  function First(j: Json): (r: Result<Json>)
    ensures r.Ok? <==> (j.Arr? && |j.items| > 0) || (j.Str? && |j.s| > 0)
    ensures j.Arr? && |j.items| > 0 ==> r.value == j.items[0]
  {
    match j
    case Arr(a) => if |a| > 0 then Ok(a[0]) else Raise(IndexError)
    case Str(s) => if |s| > 0 then Ok(Str(s[..1])) else Raise(IndexError)
    case Obj(_) => Raise(KeyError("0"))
    case _ => Raise(TypeError)
  }

  /** The value reached by following `path` through nested dictionaries;
      the reference against which key-path extraction is stated. */
  function At(j: Json, path: seq<string>): Option<Json>
    decreases |path|
  {
    if path == [] then Some(j)
    else if j.Obj? && path[0] in j.fields then At(j.fields[path[0]], path[1..])
    else None
  }

  predicate AllDigits(s: string) {
    |s| > 0 && forall i :: 0 <= i < |s| ==> '0' <= s[i] <= '9'
  }

  /** The value of a string of decimal digits, read from the left. */
  function DigitsValue(s: string): nat
    requires AllDigits(s)
    decreases |s|
  {
    var d := (s[|s| - 1] as int) - ('0' as int);
    if |s| == 1 then d else 10 * DigitsValue(s[..|s| - 1]) + d
  }

  function Digit(d: nat): (c: char)
    requires d < 10
    ensures '0' <= c <= '9' && (c as int) - ('0' as int) == d
  {
    "0123456789"[d]
  }

  /** str(n) for a natural number: its decimal digits, without a leading
      zero unless n is zero. */
  function NatToString(n: nat): (r: string)
    ensures AllDigits(r)
    ensures DigitsValue(r) == n
    ensures r[0] == '0' <==> n == 0
    ensures n == 0 ==> r == "0"
  {
    if n < 10 then [Digit(n)]
    else
      var r := NatToString(n / 10) + [Digit(n % 10)];
      assert r[..|r| - 1] == NatToString(n / 10);
      r
  }

  /** str(i) for an integer: a '-' exactly for a negative i, then the
      digits of |i|. */
  function IntToString(i: int): (r: string)
    ensures |r| > 0
    ensures r[0] == '-' <==> i < 0
    ensures var digits := if i < 0 then r[1..] else r;
      AllDigits(digits) && DigitsValue(digits) == (if i < 0 then -i else i) &&
      (digits[0] == '0' ==> i == 0)
  {
    if i >= 0 then NatToString(i)
    else
      var r := "-" + NatToString(-i);
      assert r[1..] == NatToString(-i);
      r
  }

  /** Different integers are written differently. */
  lemma IntToStringInjective(a: int, b: int)
    requires IntToString(a) == IntToString(b)
    ensures a == b
  {
  }

  /** str(x) for the scalar values; a list or dictionary is not rendered. */
  function Display(j: Json): (r: Option<string>)
    ensures r.Some? <==> !(j.Arr? || j.Obj?)
    ensures j.Str? ==> r == Some(j.s)
  {
    match j
    case Null => Some("None")
    case Bool(b) => Some(if b then "True" else "False")
    case Int(i) => Some(IntToString(i))
    case Str(s) => Some(s)
    case _ => None
  }

  /** '{}'.format(x): str(x), or the model's Unmodelled for a list or dictionary. */
  function Render(j: Json): (r: Result<string>)
    ensures r.Ok? <==> Display(j).Some?
    ensures r.Ok? ==> r.value == Display(j).value
  {
    match Display(j)
    case Some(s) => Ok(s)
    case None => Raise(Unmodelled("str() of a list or dict"))
  }
}

/** The shape of what a handler returns to flask_restful, and of what the
    connector sends to the platform. */
module Http {
  import opened PyJson

  /** A response: body, status code and extra headers. */
  datatype Response = Response(body: Json, code: int, headers: map<string, string>)

  /** A request the connector sends to the platform controller. */
  datatype Outbound = Outbound(verb: string, path: string, body: Option<Json>)

  /** `return body` */
  function Ok200(body: Json): Response {
    Response(body, 200, map[])
  }

  /** The empty JSON object `{}`. */
  const EmptyObj: Json := Obj(map[])
}

=== FILE: sanitize.dfy ===
/** The string sanitisers: `urlify` (connector/v1/resources/__init__.py and
    connector/resources/__init__.py, identical in both revisions),
    `escape_domain_name` (connector/utils.py) and the quote stripping of
    `make_error`.

    Python's `\w` is Unicode-aware; here it is approximated by its ASCII part
    (`IsWordChar`). The proofs use only that word characters are neither
    whitespace nor '-'.
 */
module Sanitize {
  import opened PyJson

  predicate IsAsciiLetter(c: char) {
    'a' <= c <= 'z' || 'A' <= c <= 'Z'
  }

  predicate IsAsciiDigit(c: char) {
    '0' <= c <= '9'
  }

  /** `\w`, approximated by [A-Za-z0-9_]. */
  predicate IsWordChar(c: char) {
    IsAsciiLetter(c) || IsAsciiDigit(c) || c == '_'
  }

  /** `\s` on a Python str: the characters str.isspace() accepts. */
  predicate IsSpace(c: char) {
    || c == ' '
    || '\t' <= c <= '\r'
    || '\U{1C}' <= c <= '\U{1F}'
    || c == '\U{85}' || c == '\U{A0}' || c == '\U{1680}'
    || '\U{2000}' <= c <= '\U{200A}'
    || c == '\U{2028}' || c == '\U{2029}' || c == '\U{202F}'
    || c == '\U{205F}' || c == '\U{3000}'
  }

  /** [a-zA-Z0-9-.], the characters escape_domain_name keeps. */
  predicate IsDomainChar(c: char) {
    IsAsciiLetter(c) || IsAsciiDigit(c) || c == '-' || c == '.'
  }

  predicate AllWord(s: string) {
    forall i :: 0 <= i < |s| ==> IsWordChar(s[i])
  }

  predicate NoDash(s: string) {
    forall i :: 0 <= i < |s| ==> s[i] != '-'
  }

  predicate NoDoubleDash(s: string) {
    forall i :: 0 <= i < |s| - 1 ==> !(s[i] == '-' && s[i + 1] == '-')
  }

  /** The word characters of s, in order. */
  function Words(s: string): string {
    if s == [] then [] else (if IsWordChar(s[0]) then [s[0]] else []) + Words(s[1..])
  }

  // ---------------------------------------------------------------- urlify

  /** re.sub(r'[^\w\s]', '', s): drop every character that is neither a word
      character nor whitespace. */
  function KeepWordAndSpace(s: string): (r: string)
    ensures |r| <= |s|
    ensures forall i :: 0 <= i < |r| ==> IsWordChar(r[i]) || IsSpace(r[i])
  {
    if s == [] then []
    else (if IsWordChar(s[0]) || IsSpace(s[0]) then [s[0]] else []) + KeepWordAndSpace(s[1..])
  }

  /** The suffix of s after its leading whitespace. */
  function DropSpaces(s: string): (r: string)
    ensures |r| <= |s| && r == s[|s| - |r|..]
    ensures r == [] || !IsSpace(r[0])
    ensures forall i :: 0 <= i < |s| - |r| ==> IsSpace(s[i])
  {
    if s != [] && IsSpace(s[0]) then DropSpaces(s[1..]) else s
  }

  /** re.sub(r'\s+', '-', s): every maximal run of whitespace becomes one '-'. */
  function CollapseSpaces(s: string): string
    decreases |s|
  {
    if s == [] then []
    else if IsSpace(s[0]) then "-" + CollapseSpaces(DropSpaces(s[1..]))
    else [s[0]] + CollapseSpaces(s[1..])
  }

  /** urlify(data) */
  function Urlify(s: string): string {
    CollapseSpaces(KeepWordAndSpace(s))
  }

  lemma {:induction false} CollapseAlphabet(t: string)
    requires forall i :: 0 <= i < |t| ==> IsWordChar(t[i]) || IsSpace(t[i])
    ensures forall i :: 0 <= i < |CollapseSpaces(t)| ==>
              IsWordChar(CollapseSpaces(t)[i]) || CollapseSpaces(t)[i] == '-'
    decreases |t|
  {
    if t == [] {
    } else if IsSpace(t[0]) {
      var d := DropSpaces(t[1..]);
      assert d == t[1..][|t[1..]| - |d|..];
      CollapseAlphabet(d);
    } else {
      CollapseAlphabet(t[1..]);
    }
  }

  /** urlify's output holds only word characters and '-', so in particular
      no whitespace. */
  lemma UrlifyAlphabet(s: string)
    ensures forall i :: 0 <= i < |Urlify(s)| ==> IsWordChar(Urlify(s)[i]) || Urlify(s)[i] == '-'
    ensures forall i :: 0 <= i < |Urlify(s)| ==> !IsSpace(Urlify(s)[i])
  {
    CollapseAlphabet(KeepWordAndSpace(s));
  }

  lemma {:induction false} CollapseShorter(t: string)
    ensures |CollapseSpaces(t)| <= |t|
    decreases |t|
  {
    if t == [] {
    } else if IsSpace(t[0]) {
      CollapseShorter(DropSpaces(t[1..]));
    } else {
      CollapseShorter(t[1..]);
    }
  }

  /** urlify never lengthens its input. */
  lemma UrlifyShorter(s: string)
    ensures |Urlify(s)| <= |s|
  {
    CollapseShorter(KeepWordAndSpace(s));
  }

  lemma {:induction false} WordsAppend(a: string, b: string)
    ensures Words(a + b) == Words(a) + Words(b)
    decreases |a|
  {
    if a == [] {
      assert a + b == b;
    } else {
      assert (a + b)[1..] == a[1..] + b;
      WordsAppend(a[1..], b);
    }
  }

  lemma {:induction false} WordsDropSpaces(s: string)
    ensures Words(DropSpaces(s)) == Words(s)
    decreases |s|
  {
    if s != [] && IsSpace(s[0]) {
      WordsDropSpaces(s[1..]);
    }
  }

  lemma WordsCons(c: char, s: string)
    ensures Words([c] + s) == (if IsWordChar(c) then [c] else []) + Words(s)
  {
    assert ([c] + s)[1..] == s;
  }

  lemma SpaceIsNotWord(c: char)
    requires IsSpace(c)
    ensures !IsWordChar(c) && c != '-'
  {
  }

  lemma WordsSpaceHead(t: string)
    requires t != [] && IsSpace(t[0])
    ensures Words(t) == Words(t[1..])
  {
    SpaceIsNotWord(t[0]);
  }

  lemma {:induction false} WordsCollapse(t: string)
    ensures Words(CollapseSpaces(t)) == Words(t)
    decreases |t|
  {
    if t == [] {
    } else if IsSpace(t[0]) {
      var d := DropSpaces(t[1..]);
      var c := CollapseSpaces(d);
      assert CollapseSpaces(t) == "-" + c;
      WordsCollapse(d);
      WordsDropSpaces(t[1..]);
      WordsCons('-', c);
      WordsSpaceHead(t);
    } else {
      WordsCollapse(t[1..]);
      WordsCons(t[0], CollapseSpaces(t[1..]));
    }
  }

  lemma {:induction false} WordsKeep(s: string)
    ensures Words(KeepWordAndSpace(s)) == Words(s)
    decreases |s|
  {
    if s != [] {
      var head := if IsWordChar(s[0]) || IsSpace(s[0]) then [s[0]] else [];
      WordsAppend(head, KeepWordAndSpace(s[1..]));
      WordsKeep(s[1..]);
    }
  }

  /** urlify keeps every word character of its input, in order: the company
      name's letters and digits all survive into the tenant name. */
  lemma UrlifyKeepsWords(s: string)
    ensures Words(Urlify(s)) == Words(s)
  {
    WordsCollapse(KeepWordAndSpace(s));
    WordsKeep(s);
  }

  lemma {:induction false} KeepAllWord(s: string)
    requires AllWord(s)
    ensures KeepWordAndSpace(s) == s
    decreases |s|
  {
    if s != [] {
      KeepAllWord(s[1..]);
    }
  }

  lemma {:induction false} CollapseAllWord(s: string)
    requires AllWord(s)
    ensures CollapseSpaces(s) == s
    decreases |s|
  {
    if s != [] {
      CollapseAllWord(s[1..]);
    }
  }

  /** A string made only of word characters is returned unchanged. */
  lemma UrlifyIdentity(s: string)
    requires AllWord(s)
    ensures Urlify(s) == s
  {
    KeepAllWord(s);
    CollapseAllWord(s);
  }

  lemma {:induction false} KeepNoDash(s: string)
    ensures NoDash(KeepWordAndSpace(s))
  {
  }

  lemma {:induction false} CollapseNoDoubleDash(t: string)
    requires NoDash(t)
    ensures NoDoubleDash(CollapseSpaces(t))
    ensures |CollapseSpaces(t)| > 0 && CollapseSpaces(t)[0] == '-' ==> IsSpace(t[0])
    decreases |t|
  {
    if t == [] {
    } else if IsSpace(t[0]) {
      var d := DropSpaces(t[1..]);
      assert d == t[1..][|t[1..]| - |d|..];
      CollapseNoDoubleDash(d);
      var c := CollapseSpaces(d);
      assert CollapseSpaces(t) == "-" + c;
      assert |c| > 0 ==> c[0] != '-';
    } else {
      CollapseNoDoubleDash(t[1..]);
    }
  }

  /** Whitespace runs collapse to a single '-', and a '-' already in the input
      is removed, so urlify's output never holds "--". */
  lemma UrlifyNoDoubleDash(s: string)
    ensures NoDoubleDash(Urlify(s))
  {
    KeepNoDash(s);
    CollapseNoDoubleDash(KeepWordAndSpace(s));
  }

  // ------------------------------------------------------- stripping a char

  /** s.lstrip(c) */
  function DropLeading(s: string, c: char): (r: string)
    ensures |r| <= |s| && r == s[|s| - |r|..]
    ensures r == [] || r[0] != c
    ensures forall i :: 0 <= i < |s| - |r| ==> s[i] == c
  {
    if s != [] && s[0] == c then DropLeading(s[1..], c) else s
  }

  /** s.rstrip(c) */
  function DropTrailing(s: string, c: char): (r: string)
    ensures |r| <= |s| && r == s[..|r|]
    ensures r == [] || r[|r| - 1] != c
    ensures forall i :: |r| <= i < |s| ==> s[i] == c
  {
    if s != [] && s[|s| - 1] == c then DropTrailing(s[..|s| - 1], c) else s
  }

  /** A suffix `l` of s after a run of c, and a prefix `r` of l before a
      run of c, make r the middle slice of s. */
  lemma StripParts(s: string, c: char, l: string, r: string)
    requires |l| <= |s| && l == s[|s| - |l|..]
    requires l == [] || l[0] != c
    requires |r| <= |l| && r == l[..|r|]
    requires r == [] || r[|r| - 1] != c
    requires forall i :: |r| <= i < |l| ==> l[i] == c
    ensures var a := |s| - |l|;
      && a + |r| <= |s| && r == s[a..a + |r|]
      && (forall i :: a + |r| <= i < |s| ==> s[i] == c)
      && (r == [] || (r[0] != c && r[|r| - 1] != c))
  {
    var a := |s| - |l|;
    assert r == s[a..a + |r|] by {
      assert s[a..][..|r|] == s[a..a + |r|];
    }
    forall i | a + |r| <= i < |s|
      ensures s[i] == c
    {
      assert s[i] == l[i - a];
    }
    if r != [] {
      assert r[0] == l[0];
    }
  }

  lemma StripSlice(s: string, c: char)
    ensures var l := DropLeading(s, c);
      var r := DropTrailing(l, c);
      var a := |s| - |l|;
      && a + |r| <= |s| && r == s[a..a + |r|]
      && (forall i :: 0 <= i < a ==> s[i] == c)
      && (forall i :: a + |r| <= i < |s| ==> s[i] == c)
      && (r == [] || (r[0] != c && r[|r| - 1] != c))
  {
    var l := DropLeading(s, c);
    var r := DropTrailing(l, c);
    assert |l| <= |s| && l == s[|s| - |l|..] && (l == [] || l[0] != c);
    assert |r| <= |l| && r == l[..|r|] && (r == [] || r[|r| - 1] != c);
    StripParts(s, c, l, r);
  }

  /** s.strip(c) for one character c: the result no longer begins or ends
      with c, and it is the slice of s left after removing copies of c at
      both ends. */
  function Strip(s: string, c: char): (r: string)
    ensures |r| <= |s|
    ensures r == [] || (r[0] != c && r[|r| - 1] != c)
    ensures var a := |s| - |DropLeading(s, c)|;
      && a + |r| <= |s| && r == s[a..a + |r|]
      && (forall i :: 0 <= i < a ==> s[i] == c)
      && (forall i :: a + |r| <= i < |s| ==> s[i] == c)
  {
    StripSlice(s, c);
    DropTrailing(DropLeading(s, c), c)
  }

  /** Stripping twice removes nothing more. */
  lemma StripIdempotent(s: string, c: char)
    ensures Strip(Strip(s, c), c) == Strip(s, c)
  {
    StripFixedPoint(Strip(s, c), c);
  }

  /** A string without c at either end is left alone. */
  lemma StripFixedPoint(s: string, c: char)
    requires s == [] || (s[0] != c && s[|s| - 1] != c)
    ensures Strip(s, c) == s
  {
  }

  /** A string wrapped in one c on each side, whose own ends are not c,
      strips back to itself. */
  lemma StripWrapped(m: string, c: char)
    requires m == [] || (m[0] != c && m[|m| - 1] != c)
    ensures Strip([c] + m + [c], c) == m
  {
    var w := [c] + m + [c];
    assert w[1..] == m + [c];
    if m == [] {
      assert DropLeading(w, c) == [];
    } else {
      assert (m + [c])[0] == m[0];
      assert DropLeading(w, c) == m + [c];
      assert (m + [c])[..|m|] == m;
    }
  }

  // --------------------------------------------------- escape_domain_name

  /** re.sub(r'[^a-zA-Z0-9-.]', '-', s): one character for one character. */
  function ReplaceInvalid(s: string): (r: string)
    ensures |r| == |s|
    ensures forall i :: 0 <= i < |s| ==> r[i] == (if IsDomainChar(s[i]) then s[i] else '-')
  {
    seq(|s|, i requires 0 <= i < |s| => if IsDomainChar(s[i]) then s[i] else '-')
  }

  /** escape_domain_name(name): the result is usable as a DNS label run. */
  function EscapeDomainName(s: string): (r: string)
    ensures forall i :: 0 <= i < |r| ==> IsDomainChar(r[i])
    ensures r == [] || (r[0] != '-' && r[|r| - 1] != '-')
    ensures |r| <= |s|
  {
    var v := ReplaceInvalid(s);
    SliceKeepsDomainChars(v, Strip(v, '-'), |v| - |DropLeading(v, '-')|);
    Strip(v, '-')
  }

  lemma SliceKeepsDomainChars(v: string, r: string, a: nat)
    requires a + |r| <= |v| && r == v[a..a + |r|]
    requires forall i :: 0 <= i < |v| ==> IsDomainChar(v[i])
    ensures forall i :: 0 <= i < |r| ==> IsDomainChar(r[i])
  {
    forall i | 0 <= i < |r|
      ensures IsDomainChar(r[i])
    {
      assert r[i] == v[a + i];
    }
  }

  /** An input that is already valid and has no leading or trailing '-' is
      returned unchanged. */
  lemma EscapeFixedPoint(s: string)
    requires forall i :: 0 <= i < |s| ==> IsDomainChar(s[i])
    requires s == [] || (s[0] != '-' && s[|s| - 1] != '-')
    ensures EscapeDomainName(s) == s
  {
    assert ReplaceInvalid(s) == s;
    StripFixedPoint(s, '-');
  }

  /** escape_domain_name is idempotent. */
  lemma EscapeIdempotent(s: string)
    ensures EscapeDomainName(EscapeDomainName(s)) == EscapeDomainName(s)
  {
    EscapeFixedPoint(EscapeDomainName(s));
  }
}

/** `parse_headers` (connector/utils.py): header values that arrive as bytes
    are decoded; the decoding itself (UTF-8) is a parameter. */
module Headers {
  datatype HeaderValue = Bytes(b: seq<bv8>) | Text(s: string)

  function ParseHeaders(h: map<string, HeaderValue>, decode: seq<bv8> -> string): (r: map<string, HeaderValue>)
    ensures r.Keys == h.Keys
    ensures forall k :: k in h && h[k].Bytes? ==> r[k] == Text(decode(h[k].b))
    ensures forall k :: k in h && h[k].Text? ==> r[k] == h[k]
  {
    map k | k in h :: if h[k].Bytes? then Text(decode(h[k].b)) else h[k]
  }

  /** After parsing no value is left as bytes, so parsing again changes
      nothing. */
  lemma ParseHeadersIdempotent(h: map<string, HeaderValue>, decode: seq<bv8> -> string)
    ensures forall k :: k in ParseHeaders(h, decode) ==> ParseHeaders(h, decode)[k].Text?
    ensures ParseHeaders(ParseHeaders(h, decode), decode) == ParseHeaders(h, decode)
  {
  }
}

=== FILE: settings.dfy ===
/** The configuration values the handlers read. Loading them from the JSON
    file is not part of this model; they are a parameter of every handler
    that needs them.
 */
module Settings {
  /** The user limit used when the configuration file does not set one. */
  const DefaultUserLimit: int := 10

  /** Resource names (the platform's counter identifiers) and per-type user
      storage limits. */
  datatype Config = Config(
    diskspaceResource: string,
    usersResource: string,
    goldUsersResource: string,
    devicesResource: string,
    defaultUserLimit: int,
    goldUserLimit: int)
}

=== FILE: storage.dfy ===
/** The records the connector hands to the Storage Service client and what
    it reads back, and the requests it makes to either upstream system.

    The Storage Service client itself (a REST wrapper) is not modelled: a
    handler emits the request it would make, and the answer comes back as
    an input.
 */
module Storage {
  import opened PyJson

  /** `Client(reseller, name=..., is_integrated=..., storage={'limit': ...},
      email=...)` as built when a tenant is provisioned. */
  datatype NewClient = NewClient(
    reseller: string,
    name: Json,
    isIntegrated: bool,
    storageLimit: Json,
    email: Option<Json>)

  /** The attributes of a client after `client.refresh()`. */
  datatype ClientState = ClientState(usersByType: Json, usersAmount: Json, storage: Json)

  /** `FbUser(client, email=..., admin=..., storage={'limit': ...},
      profile_type=...)`; `profileType` is None when the constructor is not
      given one. */
  datatype NewUser = NewUser(
    clientName: Json,
    email: Json,
    admin: Json,
    storageLimit: Json,
    profileType: Option<string>)

  /** The attributes of a user after `user.refresh()`; `storage` is the
      dictionary whose 'limit' a PUT overwrites. */
  datatype UserState = UserState(email: Json, admin: Json, storage: Json, profileType: Option<string>)
}

/** A request the connector makes to the Storage Service or the platform,
    and the outcome of a handler together with the requests it made. */
module Effects {
  import opened PyJson
  import opened Storage

  datatype Effect =
    | CreateClient(client: NewClient)
    | UpdateClientLimit(name: Json, limit: Json)
    | DeleteClient(name: Json)
    | CreateUser(user: NewUser)
    | UpdateUser(owner: Json, state: UserState)
    | DeleteUser(ownerName: Json, userEmail: Json)
    | RequestLoginLink(linkOwner: Json, linkEmail: Json)
    | CreateReseller(reseller: string)
    | DeleteReseller(reseller: string)
    | Subscribe(path: string, subscription: Json)
    | PutTenant(path: string, body: Json)
    | Notify(path: string, notification: Json)

  /** What a handler returned or raised, and the requests it made on the
      way, in order (a request whose answer raised is included). */
  datatype Outcome<+T> = Outcome(result: Result<T>, effects: seq<Effect>)
}

=== FILE: tenant0.dfy ===
/** The tenant endpoints of the earlier revision
    (connector/resources/tenant.py): provisioning creates the client and
    nothing else, GET reports `users_amount`, and the admin login link is
    requested for the platform user named by the `aps-identity-id` header.

    PUT and DELETE are the same code as in the later revision and are
    modelled by `TenantV1.TenantPut` and `TenantV1.TenantDelete`.
 */
module TenantV0 {
  import opened PyJson
  import opened Http
  import opened Settings
  import opened Storage
  import opened Effects
  import Naming
  import Usage
  import TenantV1

  /** The parsed request arguments; an argument the request leaves out is
      Null. `accId` and `subId` name the platform resources fetched. */
  datatype TenantArgs = TenantArgs(
    apsId: Json,
    storageLimit: Json,
    usersLimit: Json,
    goldUsersLimit: Json,
    subId: Json,
    accId: Json)

  /** The client `TenantList.post` creates, from the fetched account and
      subscription resources; no contact email is sent. */
  function PrepareClient(reseller: string, args: TenantArgs, company: Result<Json>, subscription: Result<Json>): (r: Result<NewClient>)
    ensures r.Ok? ==> r.value.isIntegrated == (Truthy(args.usersLimit) || Truthy(args.goldUsersLimit))
    ensures r.Ok? ==> r.value.storageLimit == (if Truthy(args.storageLimit) then args.storageLimit else Int(0))
    ensures r.Ok? ==> r.value.reseller == reseller && r.value.email.None?
    ensures r.Ok? ==> (
      && company.Ok? && subscription.Ok?
      && Index(company.value, "companyName").Ok?
      && Index(subscription.value, "subscriptionId").Ok?
      && Naming.CompanyPart(company.value.fields["companyName"]).Ok?
      && Naming.ClientName(Naming.CompanyPart(company.value.fields["companyName"]).value, subscription.value.fields["subscriptionId"]).Ok?
      && r.value.name == Str(Naming.ClientName(Naming.CompanyPart(company.value.fields["companyName"]).value, subscription.value.fields["subscriptionId"]).value))
  {
    var integration := Truthy(args.usersLimit) || Truthy(args.goldUsersLimit);
    var companyInfo :- company;
    var companyName :- Index(companyInfo, "companyName");
    var part :- Naming.CompanyPart(companyName);
    var sub :- subscription;
    var subId :- Index(sub, "subscriptionId");
    var name :- Naming.ClientName(part, subId);
    var storage := if Truthy(args.storageLimit) then args.storageLimit else Int(0);
    Ok(NewClient(reseller, Str(name), integration, storage, None))
  }

  /** Both revisions name the client for a tenant the same way. */
  lemma SameClientName(reseller: string, args: TenantArgs, args1: TenantV1.TenantArgs, company: Result<Json>, subscription: Result<Json>)
    requires PrepareClient(reseller, args, company, subscription).Ok?
    requires TenantV1.PrepareClient(reseller, args1, company, subscription).Ok?
    requires args.usersLimit == args1.usersLimit && args.goldUsersLimit == args1.goldUsersLimit
    requires args.storageLimit == args1.storageLimit
    ensures var c1 := TenantV1.PrepareClient(reseller, args1, company, subscription).value.client;
      PrepareClient(reseller, args, company, subscription).value == c1.(email := None)
  {
  }

  /** `TenantList.post`: `created` is the outcome of `client.create()`. */
  function TenantListPost(reseller: string, args: TenantArgs, company: Result<Json>, subscription: Result<Json>, created: Result<Json>): (o: Outcome<Response>)
    ensures PrepareClient(reseller, args, company, subscription).Raise? ==>
      o == Outcome(Raise(PrepareClient(reseller, args, company, subscription).exc), [])
    ensures PrepareClient(reseller, args, company, subscription).Ok? ==>
      o.effects == [CreateClient(PrepareClient(reseller, args, company, subscription).value)]
    ensures o.result.Ok? ==> (o.result.value ==
      Response(Obj(map["tenantId" := PrepareClient(reseller, args, company, subscription).value.name]), 201, map[]))
    ensures o.result.Ok? <==> PrepareClient(reseller, args, company, subscription).Ok? && created.Ok?
  {
    match PrepareClient(reseller, args, company, subscription)
    case Raise(e) => Outcome(Raise(e), [])
    case Ok(client) =>
      if created.Raise? then Outcome(Raise(created.exc), [CreateClient(client)])
      else Outcome(Ok(Response(Obj(map["tenantId" := client.name]), 201, map[])), [CreateClient(client)])
  }

  /** The counters of the earlier revision: users are `users_amount`. */
  function UsageCounters(config: Config, state: ClientState): (r: Result<Json>)
    ensures r.Ok? <==> Index(state.storage, "usage").Ok?
    ensures r.Ok? ==> r.value == Usage.Counters(config, state.usersAmount, state.storage.fields["usage"])
  {
    var disk :- Index(state.storage, "usage");
    Ok(Usage.Counters(config, state.usersAmount, disk))
  }

  /** `Tenant.get`: `name` is the outcome of the client-name lookup and
      `state` that of `client.refresh()`. */
  function TenantGet(config: Config, name: Result<Json>, state: Result<ClientState>): (o: Outcome<Response>)
    ensures o.effects == []
    ensures o.result.Ok? <==> name.Ok? && state.Ok? && UsageCounters(config, state.value).Ok?
    ensures o.result.Ok? ==> o.result.value == Ok200(UsageCounters(config, state.value).value)
  {
    var r := (var _ :- name; var s :- state; var c :- UsageCounters(config, s); Ok(Ok200(c)));
    Outcome(r, [])
  }

  /** The two revisions report the same disk and device counters; the user
      counter is the total in the earlier one and the 'default' type count
      in the later one. */
  lemma GetRevisionsDiffer(config: Config, state: ClientState)
    requires Usage.DistinctResources(config)
    requires TenantV1.UsageCounters(config, state).Ok?
    ensures UsageCounters(config, state).Ok?
    ensures var r0 := UsageCounters(config, state).value;
      var r1 := TenantV1.UsageCounters(config, state).value;
      && r0.Obj? && r1.Obj? && r0.fields.Keys == r1.fields.Keys
      && r0.fields[config.diskspaceResource] == r1.fields[config.diskspaceResource]
      && r0.fields[config.devicesResource] == r1.fields[config.devicesResource]
      && r0.fields[config.usersResource] == Usage.UsageOf(state.usersAmount)
      && r1.fields[config.usersResource] == Usage.UsageOf(state.usersByType.fields["default"])
  {
  }

  /** `TenantAdminLogin.get`: `identity` is the `aps-identity-id` header,
      `user` the fetched platform user, `link` the outcome of the login
      link request for that user, `fakeLink` the one for the fallback user.
      The name lookup comes before the header check and is not covered by
      the fallback. */
  function AdminLogin(reseller: string, name: Result<Json>, identity: Option<string>, user: Result<Json>, link: Result<Json>, fakeLink: Result<Json>): (o: Outcome<Response>)
    ensures name.Raise? ==> o == Outcome(Raise(name.exc), [])
    ensures name.Ok? && !(identity.Some? && identity.value != []) ==> o == Outcome(Raise(HttpAbort(400)), [])
    ensures name.Ok? && identity.Some? && identity.value != [] && user.Raise? && user.exc.OaCommunication? ==>
      o == TenantV1.FakeLogin([], fakeLink)
    ensures name.Ok? && identity.Some? && identity.value != [] && user.Ok? && Index(user.value, "email").Ok? && link.Ok? ==>
      o == Outcome(Ok(TenantV1.LinkResponse(link.value)), [RequestLoginLink(name.value, user.value.fields["email"])])
  {
    match name
    case Raise(e) => Outcome(Raise(e), [])
    case Ok(n) =>
      if !(identity.Some? && identity.value != []) then Outcome(Raise(HttpAbort(400)), [])
      else
        match (var u :- user; Index(u, "email"))
        case Raise(e) => if e.OaCommunication? then TenantV1.FakeLogin([], fakeLink) else Outcome(Raise(e), [])
        case Ok(email) =>
          var e := RequestLoginLink(n, email);
          match link
          case Ok(l) => Outcome(Ok(TenantV1.LinkResponse(l)), [e])
          case Raise(x) => if x.OaCommunication? then TenantV1.FakeLogin([e], fakeLink) else Outcome(Raise(x), [e])
  }
}

=== FILE: tenant1.dfy ===
/** Tenant provisioning and the tenant endpoints of the later revision
    (connector/v1/resources/tenant.py).

    Every upstream call is an input: the platform resources the handler
    fetches, the outcome of `client.create()`, and the outcomes of the
    requests that follow. The client-name lookup `get_name_for_tenant` is
    `Naming.GetNameForTenant`; a handler receives its outcome. Handlers
    return an `Outcome`: the response or exception, and the requests made.
 */
module TenantV1 {
  import opened PyJson
  import opened Http
  import opened Settings
  import opened Storage
  import opened Effects
  import Naming
  import Usage
  import OaV1

  /** The parsed request arguments of `get_tenant_args`; an argument the
      request leaves out is Null. */
  datatype TenantArgs = TenantArgs(
    apsId: Json,
    subId: Json,
    apsType: Json,
    apsStatus: Json,
    accId: Json,
    accountInfo: Json,
    status: Json,
    statusData: Json,
    storageLimit: Json,
    usersLimit: Json,
    goldUsersLimit: Json)

  const ApsInfoText: string := "Additional information required to complete provisioning"

  /** The header of a 202 answer that asks the platform for more data. */
  const ApsInfo: map<string, string> := map["Aps-Info" := ApsInfoText]

  // --------------------------------------------------- service errors

  /** `AnalysisResult(recoverable, data)` */
  datatype Analysis = Analysis(recoverable: bool, data: Json)

  function Localized(ru: string): Json {
    Obj(map["ru" := Str(ru)])
  }

  /** The `activationRequired` answer: the platform is to ask for another
      technical contact email. */
  const ActivationRequired: Json := Obj(map[
    "status" := Str("activationRequired"),
    "statusData" := Obj(map[
      "code" := Str("ActivationData"),
      "messages" := Arr([Obj(map[
        "type" := Str("error"),
        "text" := Str("Please provide additional information to complete provisioning of the FallBall service"),
        "textLocalized" := Localized("Пожалуйста, предоставьте дополнительные данные для завершения создания сервиса FallBall")])]),
      "perPropertyData" := Arr([Obj(map[
        "propertyName" := Str("accountinfo.techContact.email"),
        "message" := Obj(map[
          "text" := Str("Dots are not allowed in local parts of email addresses"),
          "textLocalized" := Localized("Часть адреса электронной почты до знака @ не должна содержать точек")])])])])])

  /** The Storage Service's error names exactly one field, 'email'. */
  predicate OnlyEmail(data: Json) {
    (data.Obj? && data.fields.Keys == {"email"}) || data == Arr([Str("email")])
  }

  lemma SingleKey(m: map<string, Json>, k: string)
    requires |m| == 1 && k in m
    ensures m.Keys == {k}
  {
    var rest := m.Keys - {k};
    assert m.Keys == rest + {k};
    assert |m.Keys| == |rest| + 1;
    assert |rest| == 0;
  }

  lemma NoLongSubstring(sub: string, s: string)
    requires |sub| > |s|
    ensures !IsSubstring(sub, s)
  {
  }

  /** `analyze_service_error(data)`: `len(data) == 1 and 'email' in data`,
      with the TypeError `len` raises for a number, bool or None. */
  function AnalyzeServiceError(data: Json): (r: Result<Analysis>)
    ensures r.Raise? <==> data.Null? || data.Bool? || data.Int?
    ensures r.Ok? ==> (r.value.recoverable <==> OnlyEmail(data))
    ensures r.Ok? && r.value.recoverable ==> r.value.data == ActivationRequired
    ensures r.Ok? && !r.value.recoverable ==> r.value.data == EmptyObj
  {
    var n :- Len(data);
    if n != 1 then Ok(Analysis(false, EmptyObj))
    else
      var has := Contains(data, "email") == Ok(true);
      if data.Obj? && has then SingleKey(data.fields, "email"); Ok(Analysis(true, ActivationRequired))
      else if data.Str? then NoLongSubstring("email", data.s); Ok(Analysis(false, EmptyObj))
      else if has then Ok(Analysis(true, ActivationRequired))
      else Ok(Analysis(false, EmptyObj))
  }

  /** The activation answer asks about exactly one property, the technical
      contact's email. */
  lemma ActivationRequiredAsksForEmail()
    ensures At(ActivationRequired, ["status"]) == Some(Str("activationRequired"))
    ensures At(ActivationRequired, ["statusData", "perPropertyData"]).Some?
    ensures var p := At(ActivationRequired, ["statusData", "perPropertyData"]).value;
      p.Arr? && |p.items| == 1 &&
      At(p.items[0], ["propertyName"]) == Some(Str("accountinfo.techContact.email"))
  {
    assert ["status"][1..] == [];
    assert ["statusData", "perPropertyData"][1..] == ["perPropertyData"];
    assert ["perPropertyData"][1..] == [];
    assert ["propertyName"][1..] == [];
  }

  /** `report_error(message)` */
  function ReportError(message: string): (r: Json)
    ensures r.Obj? && r.fields.Keys == {"status", "statusData"}
    ensures r.fields["status"] == Str("error")
  {
    Obj(map[
      "status" := Str("error"),
      "statusData" := Obj(map[
        "code" := Str("ActivationData"),
        "messages" := Arr([Obj(map["type" := Str("error"), "text" := Str(message)])]),
        "perPropertyData" := Arr([])])])
  }

  /** The messages of an error report, when it has the `report_error`
      shape: an error status, a list of messages, no property data. */
  function ReportedMessages(r: Json): Option<seq<string>> {
    var status := At(r, ["status"]);
    var messages := At(r, ["statusData", "messages"]);
    var perProperty := At(r, ["statusData", "perPropertyData"]);
    if status == Some(Str("error")) && perProperty == Some(Arr([])) && messages.Some? && messages.value.Arr?
      && (forall i :: 0 <= i < |messages.value.items| ==> At(messages.value.items[i], ["text"]).Some? && At(messages.value.items[i], ["text"]).value.Str?)
    then Some(seq(|messages.value.items|, i requires 0 <= i < |messages.value.items| => At(messages.value.items[i], ["text"]).value.s))
    else None
  }

  /** An error report carries exactly one message, the given one, and no
      property data. */
  lemma ReportErrorRoundTrip(message: string)
    ensures ReportedMessages(ReportError(message)) == Some([message])
  {
    var r := ReportError(message);
    assert ["status"][1..] == [] && ["text"][1..] == [];
    assert ["statusData", "messages"][1..] == ["messages"] && ["messages"][1..] == [];
    assert ["statusData", "perPropertyData"][1..] == ["perPropertyData"] && ["perPropertyData"][1..] == [];
    var item := Obj(map["type" := Str("error"), "text" := Str(message)]);
    assert At(r, ["status"]) == Some(Str("error"));
    assert At(r, ["statusData", "perPropertyData"]) == Some(Arr([]));
    assert At(r, ["statusData", "messages"]) == Some(Arr([item]));
    assert At(item, ["text"]) == Some(Str(message));
    var texts := seq(1, i requires 0 <= i < 1 => At([item][i], ["text"]).value.s);
    assert texts == [message];
  }

  /** `'{}'.format(x)` for an error body: str(x) for a scalar; for a list or
      dictionary the text `rendered` stands for str(x). */
  function ReportText(body: Json, rendered: string): string {
    match Display(body)
    case Some(s) => s
    case None => rendered
  }

  // ------------------------------------------------------ provisioning

  /** What `client.create()` did: it succeeded; the Storage Service
      answered with a client error whose body decodes to `body` (str() of
      which is `rendered` when it is a list or dictionary); or some other
      exception was raised, whose str() is `rendered`. */
  datatype CreateOutcome =
    | Created
    | Rejected(body: Result<Json>, rendered: string)
    | Crashed(rendered: string)

  /** The answers to the upstream calls `provision_fallball_client` makes,
      in order; each later one is only looked at if it is reached. */
  datatype ProvisionUpstream = ProvisionUpstream(
    company: Result<Json>,
    subscription: Result<Json>,
    create: CreateOutcome,
    adminCreate: Result<Json>,
    linked: Result<Json>,
    unlinked: Result<Json>)

  /** `ProvisioningResult(body, status_code, headers)` */
  datatype Provisioning = Provisioning(body: Json, status: int, headers: map<string, string>)

  /** The administrator email: the request's technical contact email if it
      is truthy, else the company's. */
  function AdminEmailFor(accountInfo: Json, company: Json): (r: Result<Json>)
    ensures var own := At(accountInfo, ["techContact", "email"]);
      own.Some? && Truthy(own.value) ==> r == Ok(own.value)
    ensures var own := At(accountInfo, ["techContact", "email"]);
      var fallback := At(company, ["techContact", "email"]);
      (At(accountInfo, ["techContact"]).Some? && At(accountInfo, ["techContact"]).value.Obj? &&
       !(own.Some? && Truthy(own.value)) && fallback.Some?) ==> r == Ok(fallback.value)
  {
    assert ["techContact", "email"][1..] == ["email"] && ["email"][1..] == [] && ["techContact"][1..] == [];
    var contact :- Index(accountInfo, "techContact");
    var own :- GetOr(contact, "email", Null);
    if Truthy(own) then Ok(own)
    else
      var companyContact :- Index(company, "techContact");
      Index(companyContact, "email")
  }

  /** `{'accountinfo': {'techContact': {'email': email}}}` */
  function ContactInfo(email: Json): Json {
    Obj(map["accountinfo" := Obj(map["techContact" := Obj(map["email" := email])])])
  }

  /** The client to create and the info body used if more data is needed. */
  datatype PreparedClient = PreparedClient(client: NewClient, info: Json)

  /** The part of `provision_fallball_client` before `client.create()`:
      company name, admin email, subscription id, client name, limits. */
  function PrepareClient(reseller: string, args: TenantArgs, company: Result<Json>, subscription: Result<Json>): (r: Result<PreparedClient>)
    ensures r.Ok? ==> r.value.client.isIntegrated == (Truthy(args.usersLimit) || Truthy(args.goldUsersLimit))
    ensures r.Ok? ==> r.value.client.storageLimit == (if Truthy(args.storageLimit) then args.storageLimit else Int(0))
    ensures r.Ok? ==> (company.Ok? && subscription.Ok? &&
      (var name := Index(company.value, "companyName");
       var sub := Index(subscription.value, "subscriptionId");
       name.Ok? && sub.Ok? && Naming.CompanyPart(name.value).Ok? &&
       Naming.ClientName(Naming.CompanyPart(name.value).value, sub.value).Ok? &&
       r.value.client.name == Str(Naming.ClientName(Naming.CompanyPart(name.value).value, sub.value).value)))
    ensures r.Ok? ==> (r.value.client.reseller == reseller && r.value.client.email.Some? &&
      r.value.info == ContactInfo(r.value.client.email.value))
    ensures r.Ok? ==> (AdminEmailFor(args.accountInfo, company.value).Ok? &&
      r.value.client.email == Some(AdminEmailFor(args.accountInfo, company.value).value))
  {
    var companyInfo :- company;
    var companyName :- Index(companyInfo, "companyName");
    var part :- Naming.CompanyPart(companyName);
    var email :- AdminEmailFor(args.accountInfo, companyInfo);
    var sub :- subscription;
    var subId :- Index(sub, "subscriptionId");
    var name :- Naming.ClientName(part, subId);
    var storage := if Truthy(args.storageLimit) then args.storageLimit else Int(0);
    var integration := Truthy(args.usersLimit) || Truthy(args.goldUsersLimit);
    Ok(PreparedClient(NewClient(reseller, Str(name), integration, storage, Some(email)), ContactInfo(email)))
  }

  /** `make_default_fallball_admin(client)`; escaping needs a str name. */
  function DefaultAdmin(clientName: Json, reseller: string): (r: Result<NewUser>)
    ensures r.Ok? <==> clientName.Str?
    ensures r.Ok? ==> (r.value.clientName == clientName && r.value.admin == Bool(true) &&
      r.value.storageLimit == Int(0) && r.value.profileType.None? &&
      r.value.email == Str(Naming.AdminEmail(clientName.s, reseller)))
  {
    if clientName.Str? then Ok(NewUser(clientName, Str(Naming.AdminEmail(clientName.s, reseller)), Bool(true), Int(0), None))
    else Raise(TypeError)
  }

  const LinkedEvent: string := "http://aps-standard.org/core/events/linked"
  const UnlinkedEvent: string := "http://aps-standard.org/core/events/unlinked"

  /** The subscription on the tenant's 'users' relation for one event. */
  function UsersSubscription(event: string, apsType: Json): OaV1.Subscription {
    OaV1.Subscription(Str(event), apsType, Str("users"), Str("onUsersChange"))
  }

  /** The body of a successful provisioning. */
  function SuccessBody(name: Json, status: Json): (r: Json)
    ensures r.Obj? && r.fields.Keys == {"tenantId", "status", "statusData"}
    ensures r.fields["tenantId"] == name
    ensures r.fields["status"] == Str(if Truthy(status) then "reprovisioned" else "")
    ensures r.fields["statusData"] == Obj(map["messages" := Arr([]), "perPropertyData" := Arr([])])
  {
    Obj(map[
      "tenantId" := name,
      "status" := Str(if Truthy(status) then "reprovisioned" else ""),
      "statusData" := Obj(map["messages" := Arr([]), "perPropertyData" := Arr([])])])
  }

  /** The subscriptions to the linked and unlinked events, in that order. */
  function SubscribeEffects(path: string, apsType: Json): seq<Effect> {
    [Subscribe(path, OaV1.SubscriptionPayload(UsersSubscription(LinkedEvent, apsType))),
     Subscribe(path, OaV1.SubscriptionPayload(UsersSubscription(UnlinkedEvent, apsType)))]
  }

  /** The two subscriptions that follow a successful create. */
  function SubscribeBoth(done: seq<Effect>, args: TenantArgs, client: NewClient, up: ProvisionUpstream): (o: Outcome<Provisioning>)
    ensures |done| <= |o.effects| <= |done| + 2 && o.effects[..|done|] == done
    ensures o.result.Ok? ==> (
      && OaV1.SubscriptionsPath(args.apsId).Ok?
      && o.effects == done + SubscribeEffects(OaV1.SubscriptionsPath(args.apsId).value, args.apsType)
      && o.result == Ok(Provisioning(SuccessBody(client.name, args.status), 201, map[])))
  {
    match OaV1.SubscriptionsPath(args.apsId)
    case Raise(e) => Outcome(Raise(e), done)
    case Ok(path) =>
      var subs := SubscribeEffects(path, args.apsType);
      if up.linked.Raise? then Outcome(Raise(up.linked.exc), done + subs[..1])
      else if up.unlinked.Raise? then Outcome(Raise(up.unlinked.exc), done + subs)
      else Outcome(Ok(Provisioning(SuccessBody(client.name, args.status), 201, map[])), done + subs)
  }

  /** What follows a successful `client.create()`: the default admin unless
      user integration is on, then the two subscriptions. */
  function FollowUps(reseller: string, args: TenantArgs, client: NewClient, up: ProvisionUpstream): (o: Outcome<Provisioning>)
    ensures o.result.Ok? ==> o.result.value == Provisioning(SuccessBody(client.name, args.status), 201, map[])
    ensures o.result.Ok? ==> OaV1.SubscriptionsPath(args.apsId).Ok?
    ensures o.result.Ok? && client.isIntegrated ==>
      o.effects == SubscribeEffects(OaV1.SubscriptionsPath(args.apsId).value, args.apsType)
    ensures o.result.Ok? && !client.isIntegrated ==> (
      && DefaultAdmin(client.name, reseller).Ok?
      && o.effects == [CreateUser(DefaultAdmin(client.name, reseller).value)] +
                      SubscribeEffects(OaV1.SubscriptionsPath(args.apsId).value, args.apsType))
  {
    if client.isIntegrated then SubscribeBoth([], args, client, up)
    else
      match DefaultAdmin(client.name, reseller)
      case Raise(e) => Outcome(Raise(e), [])
      case Ok(admin) =>
        if up.adminCreate.Raise? then Outcome(Raise(up.adminCreate.exc), [CreateUser(admin)])
        else SubscribeBoth([CreateUser(admin)], args, client, up)
  }

  /** The answer to a create the Storage Service rejected. */
  function Rejection(info: Json, body: Result<Json>, rendered: string): (r: Result<Provisioning>)
    requires info.Obj?
    ensures r.Ok? && r.value.status == 202 ==> (body.Ok? && OnlyEmail(body.value) &&
      r.value == Provisioning(Obj(info.fields + ActivationRequired.fields), 202, ApsInfo))
    ensures r.Ok? ==> r.value.status in {202, 500}
    ensures body.Ok? && OnlyEmail(body.value) ==> r.Ok? && r.value.status == 202
    ensures body.Ok? && (body.value.Obj? || body.value.Arr? || body.value.Str?) && !OnlyEmail(body.value) ==>
      r == Ok(Provisioning(ReportError(ReportText(body.value, rendered)), 500, map[]))
  {
    var data :- body;
    var analysis :- AnalyzeServiceError(data);
    if analysis.recoverable then Ok(Provisioning(Obj(info.fields + analysis.data.fields), 202, ApsInfo))
    else Ok(Provisioning(ReportError(ReportText(data, rendered)), 500, map[]))
  }

  /** `provision_fallball_client(args)` */
  function ProvisionClient(reseller: string, args: TenantArgs, up: ProvisionUpstream): (o: Outcome<Provisioning>)
    ensures PrepareClient(reseller, args, up.company, up.subscription).Raise? ==>
      o == Outcome(Raise(PrepareClient(reseller, args, up.company, up.subscription).exc), [])
    ensures PrepareClient(reseller, args, up.company, up.subscription).Ok? ==>
      |o.effects| >= 1 && o.effects[0] == CreateClient(PrepareClient(reseller, args, up.company, up.subscription).value.client)
    ensures !up.create.Created? ==> |o.effects| <= 1
    ensures o.result.Ok? ==> o.result.value.status in {201, 202, 500}
    ensures o.result.Ok? && o.result.value.status == 201 ==>
      up.create.Created? && o.result.value.headers == map[] &&
      o.result.value.body == SuccessBody(PrepareClient(reseller, args, up.company, up.subscription).value.client.name, args.status)
    ensures o.result.Ok? && o.result.value.status != 201 ==> |o.effects| == 1
    ensures o.result.Ok? && o.result.value.status == 202 ==>
      up.create.Rejected? && up.create.body.Ok? && OnlyEmail(up.create.body.value) && o.result.value.headers == ApsInfo
  {
    match PrepareClient(reseller, args, up.company, up.subscription)
    case Raise(e) => Outcome(Raise(e), [])
    case Ok(p) =>
      var created := CreateClient(p.client);
      match up.create
      case Rejected(body, rendered) => Outcome(Rejection(p.info, body, rendered), [created])
      case Crashed(rendered) => Outcome(Ok(Provisioning(ReportError(rendered), 500, map[])), [created])
      case Created =>
        var f := FollowUps(reseller, args, p.client, up);
        Outcome(f.result, [created] + f.effects)
  }

  /** A successful provisioning created the client, then the default
      admin exactly when user integration is off, then subscribed to the
      linked and unlinked events on 'users' with handler 'onUsersChange'. */
  lemma ProvisionFollowUps(reseller: string, args: TenantArgs, up: ProvisionUpstream)
    ensures var o := ProvisionClient(reseller, args, up);
      o.result.Ok? && o.result.value.status == 201 ==>
      (var c := PrepareClient(reseller, args, up.company, up.subscription).value.client;
       var integrated := Truthy(args.usersLimit) || Truthy(args.goldUsersLimit);
       && OaV1.SubscriptionsPath(args.apsId).Ok?
       && (!integrated ==> DefaultAdmin(c.name, reseller).Ok?)
       && o.effects ==
            [CreateClient(c)] +
            (if integrated then [] else [CreateUser(DefaultAdmin(c.name, reseller).value)]) +
            SubscribeEffects(OaV1.SubscriptionsPath(args.apsId).value, args.apsType))
  {
    var o := ProvisionClient(reseller, args, up);
    if o.result.Ok? && o.result.value.status == 201 {
      ProvisionedThroughFollowUps(reseller, args, up);
      var c := PrepareClient(reseller, args, up.company, up.subscription).value.client;
      FollowUpsAfterCreate(reseller, args, c, up, o.effects);
    }
  }

  /** The requests of a created client's successful follow-ups, after the
      create. */
  lemma FollowUpsAfterCreate(reseller: string, args: TenantArgs, c: NewClient, up: ProvisionUpstream, effects: seq<Effect>)
    ensures var f := FollowUps(reseller, args, c, up);
      f.result.Ok? && effects == [CreateClient(c)] + f.effects ==>
      (&& OaV1.SubscriptionsPath(args.apsId).Ok?
       && (!c.isIntegrated ==> DefaultAdmin(c.name, reseller).Ok?)
       && effects ==
            [CreateClient(c)] +
            (if c.isIntegrated then [] else [CreateUser(DefaultAdmin(c.name, reseller).value)]) +
            SubscribeEffects(OaV1.SubscriptionsPath(args.apsId).value, args.apsType))
  {
    var f := FollowUps(reseller, args, c, up);
    if f.result.Ok? && effects == [CreateClient(c)] + f.effects && !c.isIntegrated {
      var a := [CreateClient(c)];
      var b := [CreateUser(DefaultAdmin(c.name, reseller).value)];
      assert effects == a + (b + SubscribeEffects(OaV1.SubscriptionsPath(args.apsId).value, args.apsType));
      assert a + (b + SubscribeEffects(OaV1.SubscriptionsPath(args.apsId).value, args.apsType)) ==
        a + b + SubscribeEffects(OaV1.SubscriptionsPath(args.apsId).value, args.apsType);
    }
  }

  /** A provisioning answered 201 went through the follow-ups of a created
      client. */
  lemma ProvisionedThroughFollowUps(reseller: string, args: TenantArgs, up: ProvisionUpstream)
    ensures var o := ProvisionClient(reseller, args, up);
      o.result.Ok? && o.result.value.status == 201 ==>
      (var pc := PrepareClient(reseller, args, up.company, up.subscription);
       && pc.Ok? && up.create.Created?
       && (var f := FollowUps(reseller, args, pc.value.client, up);
           f.result.Ok? && o.effects == [CreateClient(pc.value.client)] + f.effects))
  {
  }

  /** A rejected or failed create answers 202 or 500 without creating an
      admin or subscribing to anything. */
  lemma ProvisionStopsAfterFailedCreate(reseller: string, args: TenantArgs, up: ProvisionUpstream)
    requires !up.create.Created?
    ensures var o := ProvisionClient(reseller, args, up);
      && (forall i :: 0 <= i < |o.effects| ==> o.effects[i].CreateClient?)
      && (o.result.Ok? ==> o.result.value.status in {202, 500})
  {
  }

  /** The three outcomes of `client.create()` for a well-formed request. */
  lemma ProvisionByCreateOutcome(reseller: string, args: TenantArgs, up: ProvisionUpstream)
    requires PrepareClient(reseller, args, up.company, up.subscription).Ok?
    ensures var p := PrepareClient(reseller, args, up.company, up.subscription).value;
      var o := ProvisionClient(reseller, args, up);
      && (up.create.Crashed? ==>
            o == Outcome(Ok(Provisioning(ReportError(up.create.rendered), 500, map[])), [CreateClient(p.client)]))
      && (up.create.Rejected? && up.create.body.Ok? && OnlyEmail(up.create.body.value) ==>
            o == Outcome(Ok(Provisioning(Obj(p.info.fields + ActivationRequired.fields), 202, ApsInfo)), [CreateClient(p.client)]))
      && (up.create.Rejected? && up.create.body.Ok? && !OnlyEmail(up.create.body.value) &&
          (up.create.body.value.Obj? || up.create.body.value.Arr? || up.create.body.value.Str?) ==>
            o == Outcome(Ok(Provisioning(ReportError(ReportText(up.create.body.value, up.create.rendered)), 500, map[])),
                         [CreateClient(p.client)]))
  {
  }

  /** A provisioning result as the handler's response. */
  function Respond(o: Outcome<Provisioning>): (r: Outcome<Response>)
    ensures r.effects == o.effects
    ensures o.result.Ok? ==> r.result == Ok(Response(o.result.value.body, o.result.value.status, o.result.value.headers))
    ensures o.result.Raise? ==> r.result == Raise(o.result.exc)
  {
    match o.result
    case Ok(p) => Outcome(Ok(Response(p.body, p.status, p.headers)), o.effects)
    case Raise(e) => Outcome(Raise(e), o.effects)
  }

  /** `request.headers.get('Aps-Request-Phase', 'sync')` */
  function Phase(header: Option<string>): string {
    if header.Some? then header.value else "sync"
  }

  /** `TenantList.post` */
  function TenantListPost(reseller: string, args: TenantArgs, phaseHeader: Option<string>, up: ProvisionUpstream): (o: Outcome<Response>)
    ensures args.status == Str("reprovisioned") ==> o == Outcome(Ok(Response(EmptyObj, 201, map[])), [])
    ensures args.status != Str("reprovisioned") && Phase(phaseHeader) == "async" && args.status != Str("error") ==>
      o == Outcome(Ok(Response(EmptyObj, 202, ApsInfo)), [])
    ensures args.status != Str("reprovisioned") && !(Phase(phaseHeader) == "async" && args.status != Str("error")) ==>
      o == Respond(ProvisionClient(reseller, args, up))
  {
    if args.status == Str("reprovisioned") then Outcome(Ok(Response(EmptyObj, 201, map[])), [])
    else if Phase(phaseHeader) == "async" && args.status != Str("error") then
      Outcome(Ok(Response(EmptyObj, 202, ApsInfo)), [])
    else Respond(ProvisionClient(reseller, args, up))
  }

  /** Only a synchronous request, or an asynchronous one retrying after an
      error, reaches the Storage Service. */
  lemma TenantListPostProvisionsOnlyWhenDue(reseller: string, args: TenantArgs, phaseHeader: Option<string>, up: ProvisionUpstream)
    ensures TenantListPost(reseller, args, phaseHeader, up).effects != [] ==>
      args.status != Str("reprovisioned") && (Phase(phaseHeader) != "async" || args.status == Str("error"))
  {
  }

  // ------------------------------------------------- tenant endpoints

  /** The counters for a refreshed client: users of the 'default' type,
      disk usage, and no devices. */
  function UsageCounters(config: Config, state: ClientState): (r: Result<Json>)
    ensures r.Ok? <==> Index(state.usersByType, "default").Ok? && Index(state.storage, "usage").Ok?
    ensures r.Ok? ==> r.value == Usage.Counters(config, state.usersByType.fields["default"], state.storage.fields["usage"])
  {
    var users :- Index(state.usersByType, "default");
    var disk :- Index(state.storage, "usage");
    Ok(Usage.Counters(config, users, disk))
  }

  /** `Tenant.get`: `name` is the outcome of the client-name lookup and
      `state` that of `client.refresh()`. */
  function TenantGet(config: Config, name: Result<Json>, state: Result<ClientState>): (o: Outcome<Response>)
    ensures o.effects == []
    ensures o.result.Ok? ==> (name.Ok? && state.Ok? && UsageCounters(config, state.value).Ok? &&
      o.result.value == Ok200(UsageCounters(config, state.value).value))
  {
    var r := (var _ :- name; var s :- state; var c :- UsageCounters(config, s); Ok(Ok200(c)));
    Outcome(r, [])
  }

  /** 'aps/2/application/tenant/{}'.format(tenant_id) */
  function TenantPath(tenantId: string): string {
    "aps/2/application/tenant/" + tenantId
  }

  /** `sync_tenant_usage_with_client(tenant_id, client)`: `state` is the
      outcome of `client.refresh()` and `put` that of writing the counters
      to the tenant. */
  function SyncTenantUsage(config: Config, tenantId: Json, state: Result<ClientState>, put: Result<Json>): (o: Outcome<Json>)
    ensures o.effects != [] <==> state.Ok? && UsageCounters(config, state.value).Ok? && Render(tenantId).Ok?
    ensures o.effects != [] ==>
      o.effects == [PutTenant(TenantPath(Render(tenantId).value), UsageCounters(config, state.value).value)]
    ensures o.result.Ok? <==> o.effects != [] && put.Ok?
  {
    match (var s :- state; UsageCounters(config, s))
    case Raise(e) => Outcome(Raise(e), [])
    case Ok(counters) =>
      match Render(tenantId)
      case Raise(e) => Outcome(Raise(e), [])
      case Ok(id) =>
        var effect := PutTenant(TenantPath(id), counters);
        Outcome(if put.Raise? then Raise(put.exc) else Ok(Null), [effect])
  }

  /** `TenantOnUsersChange.post`: refresh the client and push its counters
      to the platform. */
  function OnUsersChange(config: Config, tenantId: string, name: Result<Json>, state: Result<ClientState>, put: Result<Json>): (o: Outcome<Response>)
    ensures |o.effects| <= 1
    ensures o.result.Ok? ==> o.result.value == Ok200(EmptyObj)
    ensures o.effects != [] ==> (name.Ok? && state.Ok? && UsageCounters(config, state.value).Ok? &&
      o.effects == [PutTenant(TenantPath(tenantId), UsageCounters(config, state.value).value)])
    ensures o.result.Ok? <==> name.Ok? && state.Ok? && UsageCounters(config, state.value).Ok? && put.Ok?
  {
    match name
    case Raise(e) => Outcome(Raise(e), [])
    case Ok(_) =>
      var sync := SyncTenantUsage(config, Str(tenantId), state, put);
      Outcome(if sync.result.Ok? then Ok(Ok200(EmptyObj)) else Raise(sync.result.exc), sync.effects)
  }

  /** The counters pushed on `onUsersChange` are the ones GET reports for
      the same client state. */
  lemma OnUsersChangeMatchesGet(config: Config, tenantId: string, name: Result<Json>, state: Result<ClientState>, put: Result<Json>)
    requires OnUsersChange(config, tenantId, name, state, put).effects != []
    ensures TenantGet(config, name, state).result.Ok?
    ensures OnUsersChange(config, tenantId, name, state, put).effects ==
      [PutTenant(TenantPath(tenantId), TenantGet(config, name, state).result.value.body)]
  {
  }

  /** `Tenant.put`: the client's storage limit is updated only when the
      request carries a truthy one; `update` is that request's outcome. */
  function TenantPut(name: Result<Json>, storageLimit: Json, update: Result<Json>): (o: Outcome<Response>)
    ensures o.effects != [] <==> name.Ok? && Truthy(storageLimit)
    ensures o.effects != [] ==> o.effects == [UpdateClientLimit(name.value, storageLimit)]
    ensures o.result.Ok? ==> o.result.value == Ok200(EmptyObj)
  {
    match name
    case Raise(e) => Outcome(Raise(e), [])
    case Ok(n) =>
      if !Truthy(storageLimit) then Outcome(Ok(Ok200(EmptyObj)), [])
      else if update.Raise? then Outcome(Raise(update.exc), [UpdateClientLimit(n, storageLimit)])
      else Outcome(Ok(Ok200(EmptyObj)), [UpdateClientLimit(n, storageLimit)])
  }

  /** `Tenant.delete`: `(None, 204)` once the client is deleted. */
  function TenantDelete(name: Result<Json>, deleted: Result<Json>): (o: Outcome<Response>)
    ensures o.effects != [] <==> name.Ok?
    ensures o.effects != [] ==> o.effects == [DeleteClient(name.value)]
    ensures o.result.Ok? ==> o.result.value == Response(Null, 204, map[])
  {
    match name
    case Raise(e) => Outcome(Raise(e), [])
    case Ok(n) =>
      if deleted.Raise? then Outcome(Raise(deleted.exc), [DeleteClient(n)])
      else Outcome(Ok(Response(Null, 204, map[])), [DeleteClient(n)])
  }

  /** The address whose login link points at the service's login form. */
  const FakeClient: string := "fake_client"
  const FakeEmail: string := "does-not-exist@non-existing.local"

  /** `make_response(login_link)` with a text/plain content type. */
  function LinkResponse(link: Json): Response {
    Response(link, 200, map["Content-Type" := "text/plain"])
  }

  /** The fallback of `TenantAdminLogin.get`. */
  function FakeLogin(done: seq<Effect>, fakeLink: Result<Json>): (o: Outcome<Response>)
    ensures o.effects == done + [RequestLoginLink(Str(FakeClient), Str(FakeEmail))]
  {
    var e := RequestLoginLink(Str(FakeClient), Str(FakeEmail));
    match fakeLink
    case Raise(x) => Outcome(Raise(x), done + [e])
    case Ok(link) => Outcome(Ok(LinkResponse(link)), done + [e])
  }

  /** `TenantAdminLogin.get`: the default admin's login link; when the
      platform cannot be reached (OACommunicationException), the link of a
      user that does not exist, which leads to the login form. */
  function AdminLogin(reseller: string, name: Result<Json>, adminLink: Result<Json>, fakeLink: Result<Json>): (o: Outcome<Response>)
    ensures name.Raise? && name.exc.OaCommunication? ==> o == FakeLogin([], fakeLink)
    ensures name.Ok? && DefaultAdmin(name.value, reseller).Ok? ==> (|o.effects| >= 1 &&
      o.effects[0] == RequestLoginLink(name.value, DefaultAdmin(name.value, reseller).value.email))
    ensures name.Ok? && DefaultAdmin(name.value, reseller).Ok? && adminLink.Ok? ==>
      o == Outcome(Ok(LinkResponse(adminLink.value)), [RequestLoginLink(name.value, DefaultAdmin(name.value, reseller).value.email)])
  {
    match name
    case Raise(e) => if e.OaCommunication? then FakeLogin([], fakeLink) else Outcome(Raise(e), [])
    case Ok(n) =>
      match DefaultAdmin(n, reseller)
      case Raise(e) => Outcome(Raise(e), [])
      case Ok(admin) =>
        var e := RequestLoginLink(n, admin.email);
        match adminLink
        case Ok(link) => Outcome(Ok(LinkResponse(link)), [e])
        case Raise(x) => if x.OaCommunication? then FakeLogin([e], fakeLink) else Outcome(Raise(x), [e])
  }

  // ------------------------------------------------------ reprovision

  /** The precondition of `TenantReprovision.post`:
      `tenant['aps']['status'] != 'aps:provisioning' or
      tenant['status'] == 'reprovisioned'` refuses. */
  function MayReprovision(tenant: Json): (r: Result<bool>)
    ensures r == Ok(true) <==>
      At(tenant, ["aps", "status"]) == Some(Str("aps:provisioning")) &&
      At(tenant, ["status"]).Some? && At(tenant, ["status"]).value != Str("reprovisioned")
    ensures At(tenant, ["aps", "status"]).Some? && At(tenant, ["aps", "status"]).value != Str("aps:provisioning") ==>
      r == Ok(false)
    ensures At(tenant, ["aps", "status"]) == Some(Str("aps:provisioning")) && At(tenant, ["status"]) == Some(Str("reprovisioned")) ==>
      r == Ok(false)
    ensures r.Raise? <==>
      || At(tenant, ["aps", "status"]).None?
      || (At(tenant, ["aps", "status"]) == Some(Str("aps:provisioning")) && At(tenant, ["status"]).None?)
  {
    assert ["aps", "status"][1..] == ["status"] && ["status"][1..] == [];
    var aps :- Index(tenant, "aps");
    var apsStatus :- Index(aps, "status");
    if apsStatus != Str("aps:provisioning") then Ok(false)
    else
      var status :- Index(tenant, "status");
      Ok(status != Str("reprovisioned"))
  }

  /** `or` stops at its first operand: a tenant that is no longer being
      provisioned is refused even when it has no status of its own. */
  lemma ActiveTenantRefused(reseller: string, tenantId: string, args: TenantArgs, up: ProvisionUpstream, put: Result<Json>)
    ensures var tenant := Obj(map["aps" := Obj(map["status" := Str("active")])]);
      Reprovision(reseller, tenantId, args, Ok(tenant), up, put) == Outcome(Ok(Response(AlreadyProvisioned, 400, map[])), [])
  {
    var tenant := Obj(map["aps" := Obj(map["status" := Str("active")])]);
    assert ["aps", "status"][1..] == ["status"] && ["status"][1..] == [];
    assert At(tenant, ["aps", "status"]) == Some(Str("active"));
  }

  const AlreadyProvisioned: Json := Obj(map["error" := Str("Cannot provision already provisioned client")])

  /** The tenant body written back after a reprovisioning attempt: on 201
      the account info with status 'reprovisioned' and empty status data,
      overridden by the result body; otherwise the result body. */
  function ReprovisionBody(args: TenantArgs, result: Provisioning): (r: Json)
    requires result.status == 201 ==> result.body.Obj?
    ensures result.status != 201 ==> r == result.body
    ensures result.status == 201 ==> (r.Obj? &&
      r.fields.Keys == {"accountinfo", "status", "statusData"} + result.body.fields.Keys &&
      (forall k :: k in result.body.fields ==> r.fields[k] == result.body.fields[k]) &&
      ("accountinfo" !in result.body.fields ==> r.fields["accountinfo"] == args.accountInfo) &&
      ("status" !in result.body.fields ==> r.fields["status"] == Str("reprovisioned")) &&
      ("statusData" !in result.body.fields ==> r.fields["statusData"] == EmptyObj))
  {
    if result.status == 201 then
      Obj(map["accountinfo" := args.accountInfo, "status" := Str("reprovisioned"), "statusData" := EmptyObj] + result.body.fields)
    else result.body
  }

  /** The part of `TenantReprovision.post` after the check: provision,
      then write the result back to the tenant. */
  function ReprovisionAndReport(reseller: string, tenantId: string, args: TenantArgs, up: ProvisionUpstream, put: Result<Json>): (o: Outcome<Response>)
    ensures var p := ProvisionClient(reseller, args, up);
      p.result.Raise? ==> o == Outcome(Raise(p.result.exc), p.effects)
    ensures var p := ProvisionClient(reseller, args, up);
      p.result.Ok? ==> o.effects == p.effects + [PutTenant("/aps/2/application/tenant/" + tenantId, ReprovisionBody(args, p.result.value))]
    ensures o.result.Ok? ==> o.result.value == Response(EmptyObj, 200, map[])
  {
    var p := ProvisionClient(reseller, args, up);
    match p.result
    case Raise(e) => Outcome(Raise(e), p.effects)
    case Ok(result) =>
      var effect := PutTenant("/aps/2/application/tenant/" + tenantId, ReprovisionBody(args, result));
      if put.Raise? then Outcome(Raise(put.exc), p.effects + [effect])
      else Outcome(Ok(Response(EmptyObj, 200, map[])), p.effects + [effect])
  }

  /** `TenantReprovision.post`: `tenant` is the fetched tenant resource,
      `up` the answers during provisioning, `put` the outcome of writing
      the tenant back. Only a tenant still being provisioned whose status
      is not 'reprovisioned' is provisioned again; any other is refused
      with 400 before anything is sent. */
  function Reprovision(reseller: string, tenantId: string, args: TenantArgs, tenant: Result<Json>, up: ProvisionUpstream, put: Result<Json>): (o: Outcome<Response>)
    ensures tenant.Ok? && MayReprovision(tenant.value) == Ok(false) ==>
      o == Outcome(Ok(Response(AlreadyProvisioned, 400, map[])), [])
    ensures tenant.Ok? && MayReprovision(tenant.value) == Ok(true) ==>
      o == ReprovisionAndReport(reseller, tenantId, args, up, put)
    ensures !(tenant.Ok? && MayReprovision(tenant.value).Ok?) ==> o.result.Raise? && o.effects == []
  {
    match tenant
    case Raise(e) => Outcome(Raise(e), [])
    case Ok(t) =>
      match MayReprovision(t)
      case Raise(e) => Outcome(Raise(e), [])
      case Ok(may) =>
        if !may then Outcome(Ok(Response(AlreadyProvisioned, 400, map[])), [])
        else ReprovisionAndReport(reseller, tenantId, args, up, put)
  }
}

=== FILE: usage.dfy ===
/** The usage-counter dictionary both revisions report for a tenant and the
    later revision also pushes to the platform on `onUsersChange`:
    `{users: {usage: ...}, diskspace: {usage: ...}, devices: {usage: 0}}`,
    keyed by the configured resource names.
 */
module Usage {
  import opened PyJson
  import opened Settings

  /** `{'usage': value}` */
  function UsageOf(value: Json): Json {
    Obj(map["usage" := value])
  }

  /** The three configured counters are different resources. */
  predicate DistinctResources(config: Config) {
    && config.usersResource != config.diskspaceResource
    && config.usersResource != config.devicesResource
    && config.diskspaceResource != config.devicesResource
  }

  /** The counter dictionary for a user count and a disk usage. A Python
      dict display keeps the last value of a repeated key, and so does a
      Dafny map display. */
  function Counters(config: Config, users: Json, disk: Json): (r: Json)
    ensures r.Obj?
    ensures r.fields.Keys == {config.usersResource, config.diskspaceResource, config.devicesResource}
    ensures r.fields[config.devicesResource] == UsageOf(Int(0))
    ensures config.devicesResource != config.diskspaceResource ==>
      r.fields[config.diskspaceResource] == UsageOf(disk)
    ensures DistinctResources(config) ==> r.fields[config.usersResource] == UsageOf(users)
  {
    Obj(map[
      config.usersResource := UsageOf(users),
      config.diskspaceResource := UsageOf(disk),
      config.devicesResource := UsageOf(Int(0))])
  }

  /** The user count and disk usage reported in a counter dictionary. */
  function ReadCounters(config: Config, counters: Json): Option<(Json, Json)> {
    var users := At(counters, [config.usersResource, "usage"]);
    var disk := At(counters, [config.diskspaceResource, "usage"]);
    if users.Some? && disk.Some? then Some((users.value, disk.value)) else None
  }

  /** With distinct resource names the dictionary reports exactly the two
      values it was built from. */
  lemma CountersRoundTrip(config: Config, users: Json, disk: Json)
    requires DistinctResources(config)
    ensures ReadCounters(config, Counters(config, users, disk)) == Some((users, disk))
  {
    var c := Counters(config, users, disk);
    assert ["usage"][1..] == [];
    assert At(UsageOf(users), ["usage"]) == Some(users);
    assert At(UsageOf(disk), ["usage"]) == Some(disk);
    assert [config.usersResource, "usage"][1..] == ["usage"];
    assert [config.diskspaceResource, "usage"][1..] == ["usage"];
    assert At(c, [config.usersResource, "usage"]) == At(UsageOf(users), ["usage"]);
    assert At(c, [config.diskspaceResource, "usage"]) == At(UsageOf(disk), ["usage"]);
  }
}

=== FILE: user0.dfy ===
/** The user endpoints of the earlier revision
    (connector/resources/user.py): the same quota and profile rules as the
    later revision, with no notification and no counter re-sync.
    `make_fallball_user` is the same code in both revisions and is
    modelled by `UserV1.MakeFallballUser`.
 */
module UserV0 {
  import opened PyJson
  import opened Http
  import opened Settings
  import opened Storage
  import opened Effects
  import UserRules
  import UserV1

  /** The answers `UserList.post` sees, in order. */
  datatype PostUpstream = PostUpstream(
    name: Result<Json>,
    client: Result<ClientState>,
    oaUser: Result<Json>,
    created: Result<Json>)

  /** The user `UserList.post` creates. */
  function PrepareUser(config: Config, userType: Option<string>, up: PostUpstream): (r: Result<NewUser>)
    ensures r.Ok? ==> (
      && up.name.Ok? && up.client.Ok? && up.oaUser.Ok?
      && Index(up.client.value.storage, "limit").Ok?
      && Index(up.oaUser.value, "email").Ok? && Index(up.oaUser.value, "isAccountAdmin").Ok?
      && r.value == NewUser(up.name.value, up.oaUser.value.fields["email"], up.oaUser.value.fields["isAccountAdmin"],
                            Int(UserRules.UserLimit(config, up.client.value.storage.fields["limit"], userType)),
                            Some(UserRules.ProfileFor(config, userType))))
  {
    var name :- up.name;
    var client :- up.client;
    var clientLimit :- Index(client.storage, "limit");
    var limit := UserRules.UserLimit(config, clientLimit, userType);
    var oaUser :- up.oaUser;
    var email :- Index(oaUser, "email");
    var admin :- Index(oaUser, "isAccountAdmin");
    Ok(NewUser(name, email, admin, Int(limit), Some(UserRules.ProfileFor(config, userType))))
  }

  /** `UserList.post`: 201 with the new user's email. */
  function UserListPost(config: Config, userType: Option<string>, up: PostUpstream): (o: Outcome<Response>)
    ensures PrepareUser(config, userType, up).Raise? ==> o == Outcome(Raise(PrepareUser(config, userType, up).exc), [])
    ensures PrepareUser(config, userType, up).Ok? ==> o.effects == [CreateUser(PrepareUser(config, userType, up).value)]
    ensures o.result.Ok? <==> PrepareUser(config, userType, up).Ok? && up.created.Ok?
    ensures o.result.Ok? ==>
      o.result.value == Response(Obj(map["userId" := PrepareUser(config, userType, up).value.email]), 201, map[])
  {
    match PrepareUser(config, userType, up)
    case Raise(e) => Outcome(Raise(e), [])
    case Ok(user) =>
      if up.created.Raise? then Outcome(Raise(up.created.exc), [CreateUser(user)])
      else Outcome(Ok(Response(Obj(map["userId" := user.email]), 201, map[])), [CreateUser(user)])
  }

  /** Both revisions create the same user from the same answers. */
  lemma SameNewUser(config: Config, userType: Option<string>, up: PostUpstream, manager: Result<Json>, posted: Result<Json>)
    ensures var up1 := UserV1.PostUpstream(up.name, up.client, up.oaUser, up.created, manager, posted);
      && (PrepareUser(config, userType, up).Ok? <==> UserV1.PrepareUser(config, userType, up1).Ok?)
      && (PrepareUser(config, userType, up).Ok? ==>
            PrepareUser(config, userType, up).value == UserV1.PrepareUser(config, userType, up1).value.0)
  {
  }

  /** `User.delete`: `service` and `lookup` identify the user, `deleted` is
      the outcome of `user.delete()`. */
  function UserDelete(service: Result<Json>, lookup: Json -> Result<Json>, deleted: Result<Json>): (o: Outcome<Response>)
    ensures o.effects != [] <==> UserV1.MakeFallballUser(service, lookup).Ok?
    ensures o.effects != [] ==> o.effects == [DeleteUser(UserV1.MakeFallballUser(service, lookup).value.clientName,
                                                         UserV1.MakeFallballUser(service, lookup).value.email)]
    ensures o.result.Ok? <==> o.effects != [] && deleted.Ok?
    ensures o.result.Ok? ==> o.result.value == Response(EmptyObj, 204, map[])
  {
    match UserV1.MakeFallballUser(service, lookup)
    case Raise(e) => Outcome(Raise(e), [])
    case Ok(u) =>
      var delete := DeleteUser(u.clientName, u.email);
      if deleted.Raise? then Outcome(Raise(deleted.exc), [delete])
      else Outcome(Ok(Response(EmptyObj, 204, map[])), [delete])
  }

  /** The answers `User.put` sees, in order. */
  datatype PutUpstream = PutUpstream(
    service: Result<Json>,
    lookup: Json -> Result<Json>,
    user: Result<UserState>,
    client: Result<ClientState>,
    updated: Result<Json>)

  /** The user's state as `User.put` sends it. */
  function UpdatedState(config: Config, userType: Option<string>, up: PutUpstream): (r: Result<(Json, UserState)>)
    ensures r.Ok? ==> (
      && UserV1.MakeFallballUser(up.service, up.lookup).Ok? && up.user.Ok? && up.client.Ok?
      && Index(up.client.value.storage, "limit").Ok?
      && r.value.0 == UserV1.MakeFallballUser(up.service, up.lookup).value.clientName
      && r.value.1.email == up.user.value.email && r.value.1.admin == up.user.value.admin
      && UserV1.SetLimit(up.user.value.storage, UserRules.UserLimit(config, up.client.value.storage.fields["limit"], userType)) == Ok(r.value.1.storage)
      && r.value.1.profileType == UserRules.ProfileAfterPut(config, userType, up.user.value.profileType))
    ensures r.Ok? && UserRules.IsZero(up.client.value.storage.fields["limit"]) ==> r.value.1.storage.fields["limit"] == Int(0)
  {
    var u :- UserV1.MakeFallballUser(up.service, up.lookup);
    var state :- up.user;
    var client :- up.client;
    var clientLimit :- Index(client.storage, "limit");
    var storage :- UserV1.SetLimit(state.storage, UserRules.UserLimit(config, clientLimit, userType));
    Ok((u.clientName, UserState(state.email, state.admin, storage, UserRules.ProfileAfterPut(config, userType, state.profileType))))
  }

  /** `User.put`: one update, answered with `{}` and 200. */
  function UserPut(config: Config, userType: Option<string>, up: PutUpstream): (o: Outcome<Response>)
    ensures UpdatedState(config, userType, up).Raise? ==> o == Outcome(Raise(UpdatedState(config, userType, up).exc), [])
    ensures UpdatedState(config, userType, up).Ok? ==>
      o.effects == [UpdateUser(UpdatedState(config, userType, up).value.0, UpdatedState(config, userType, up).value.1)]
    ensures o.result.Ok? <==> UpdatedState(config, userType, up).Ok? && up.updated.Ok?
    ensures o.result.Ok? ==> o.result.value == Response(EmptyObj, 200, map[])
  {
    match UpdatedState(config, userType, up)
    case Raise(e) => Outcome(Raise(e), [])
    case Ok(planned) =>
      var update := UpdateUser(planned.0, planned.1);
      if up.updated.Raise? then Outcome(Raise(up.updated.exc), [update])
      else Outcome(Ok(Response(EmptyObj, 200, map[])), [update])
  }
}

=== FILE: user1.dfy ===
/** The user endpoints of the later revision
    (connector/v1/resources/user.py): create, update and delete a Storage
    Service user for a platform user service, re-sync the tenant's counters
    after a type change, and notify the platform.

    The code as written formats the update and delete notification texts
    twice (`PreformattedNotice`); the update and delete handlers take a
    `Formatting` that selects between that and a single formatting, as for
    a created user.
 */
module UserV1 {
  import opened PyJson
  import opened Http
  import opened Settings
  import opened Storage
  import opened Effects
  import PyFormat
  import OaV1
  import UserRules
  import TenantV1

  // ------------------------------------------------------ notifications

  const PostMessage: string := "Fallball assigned to user"
  const PutMessage: string := "Fallball was modified for user"
  const DeleteMessage: string := "Fallball unassigned from user"

  const PostPrefix: string := "Fallball was assigned to "
  const PutPrefix: string := "Fallball service was modified for "
  const DeletePrefix: string := "Fallball service was unassigned from "

  /** The link to the user's page in the control panel. */
  const UserLinkPrefix: string := "/v/pa/ccp-users/viewUser/r/"

  /** The arguments `send_notification(status, oa_user, message, details)`
      passes on: the details template formatted with the display name, the
      user's page and id. */
  function UserNotice(status: string, oaUser: Json, message: string, details: string, initiator: Option<string>): (r: Result<OaV1.Notice>)
    ensures r.Ok? ==> (
      && At(oaUser, ["displayName"]).Some?
      && PyFormat.Format(details, At(oaUser, ["displayName"]).value).Ok?
      && At(oaUser, ["aps", "id"]).Some?
      && Render(At(oaUser, ["aps", "id"]).value).Ok?
      && r.value.details == Some(Str(PyFormat.Format(details, At(oaUser, ["displayName"]).value).value))
      && r.value.userId == Some(At(oaUser, ["aps", "id"]).value)
      && r.value.link == Some(Str(UserLinkPrefix + Render(At(oaUser, ["aps", "id"]).value).value)))
    ensures r.Ok? ==> (r.value.message == Str(message) && r.value.status == Str(status) &&
      r.value.initiatorId == initiator && r.value.messageKeys.None? && r.value.accountId.None?)
  {
    assert ["displayName"][1..] == [] && ["aps", "id"][1..] == ["id"] && ["id"][1..] == [];
    var name :- Index(oaUser, "displayName");
    var text :- PyFormat.Format(details, name);
    var aps :- Index(oaUser, "aps");
    var id :- Index(aps, "id");
    var page :- Render(id);
    Ok(OaV1.Notice(Str(message), Some(Str(text)), None, None, Str(status), Some(id), Some(Str(UserLinkPrefix + page)), initiator))
  }

  /** A platform user whose display name is a string and whose id renders. */
  predicate WellFormedUser(oaUser: Json) {
    && At(oaUser, ["displayName"]).Some? && At(oaUser, ["displayName"]).value.Str?
    && At(oaUser, ["aps", "id"]).Some? && Render(At(oaUser, ["aps", "id"]).value).Ok?
  }

  /** Formatted once, the details end in the user's display name exactly as
      the platform has it, whatever characters it holds. */
  lemma NoticeNamesUser(status: string, oaUser: Json, message: string, prefix: string, initiator: Option<string>)
    requires PyFormat.NoBraces(prefix)
    requires WellFormedUser(oaUser)
    ensures UserNotice(status, oaUser, message, prefix + "{}", initiator).Ok?
    ensures UserNotice(status, oaUser, message, prefix + "{}", initiator).value.details ==
      Some(Str(prefix + At(oaUser, ["displayName"]).value.s))
  {
    var name := At(oaUser, ["displayName"]).value;
    PyFormat.FormatTrailingField(prefix, name);
    assert ["displayName"][1..] == [] && ["aps", "id"][1..] == ["id"] && ["id"][1..] == [];
  }

  /** The notification of the code as written for an update or a delete:
      the details are formatted with the display name before being passed
      on, and formatted again there. */
  function PreformattedNotice(status: string, oaUser: Json, message: string, template: string, initiator: Option<string>): (r: Result<OaV1.Notice>)
    ensures At(oaUser, ["displayName"]).Some? && PyFormat.Format(template, At(oaUser, ["displayName"]).value).Ok? ==>
      r == UserNotice(status, oaUser, message, PyFormat.Format(template, At(oaUser, ["displayName"]).value).value, initiator)
  {
    assert ["displayName"][1..] == [];
    var name :- Index(oaUser, "displayName");
    var details :- PyFormat.Format(template, name);
    UserNotice(status, oaUser, message, details, initiator)
  }

  /** A platform user whose display name is the replacement field `{x}`. */
  const BracedUser: Json := Obj(map["displayName" := Str("{x}"), "aps" := Obj(map["id" := Str("u1")])])

  /** A display name with a replacement field in it: formatted twice, the
      second formatting raises KeyError('x'); formatted once, the details
      read "... for {x}". */
  lemma PreformattedDetailsRaise(initiator: Option<string>)
    ensures PreformattedNotice("ready", BracedUser, PutMessage, PutPrefix + "{}", initiator) == Raise(KeyError("x"))
    ensures UserNotice("ready", BracedUser, PutMessage, PutPrefix + "{}", initiator).Ok?
    ensures UserNotice("ready", BracedUser, PutMessage, PutPrefix + "{}", initiator).value.details == Some(Str(PutPrefix + "{x}"))
  {
    assert PyFormat.NoBraces(PutPrefix);
    assert ["displayName"][1..] == [] && ["aps", "id"][1..] == ["id"] && ["id"][1..] == [];
    assert At(BracedUser, ["displayName"]) == Some(Str("{x}"));
    PyFormat.FormatTrailingField(PutPrefix, Str("{x}"));
    assert PyFormat.Format(PutPrefix + "{}", Str("{x}")) == Ok(PutPrefix + "{x}");
    assert "x"[0] == 'x';
    assert PyFormat.NoBraces("x") && !PyFormat.HasSpecial("x") && !AllDigits("x");
    PyFormat.FormatNamedField(PutPrefix, "x", Str("{x}"));
    assert PutPrefix + "{x}" == PutPrefix + "{" + "x" + "}";
    NoticeNamesUser("ready", BracedUser, PutMessage, PutPrefix, initiator);
  }

  /** How an update or a delete formats its notification details: `Twice`
      is the code as written (the text is formatted with the display name,
      and `send_notification` formats the result again), `Once` the
      evidently intended single formatting. */
  datatype Formatting = Twice | Once

  /** The notice after an update or a delete, `prefix` being the text in
      front of the display name. */
  function ChangeNotice(formatting: Formatting, oaUser: Json, message: string, prefix: string, initiator: Option<string>): Result<OaV1.Notice> {
    match formatting
    case Twice => PreformattedNotice("ready", oaUser, message, prefix + "{}", initiator)
    case Once => UserNotice("ready", oaUser, message, prefix + "{}", initiator)
  }

  /** A display name without braces gives the same notice either way. */
  lemma FormattingsAgreeWithoutBraces(oaUser: Json, message: string, prefix: string, initiator: Option<string>)
    requires PyFormat.NoBraces(prefix) && WellFormedUser(oaUser)
    requires PyFormat.NoBraces(At(oaUser, ["displayName"]).value.s)
    ensures ChangeNotice(Twice, oaUser, message, prefix, initiator) == ChangeNotice(Once, oaUser, message, prefix, initiator)
    ensures ChangeNotice(Once, oaUser, message, prefix, initiator).Ok?
  {
    var name := At(oaUser, ["displayName"]).value;
    var text := prefix + name.s;
    NoticeNamesUser("ready", oaUser, message, prefix, initiator);
    PyFormat.FormatTrailingField(prefix, name);
    assert PyFormat.Format(prefix + "{}", name) == Ok(text);
    assert PyFormat.NoBraces(text) by {
      forall i | 0 <= i < |text| ensures text[i] != '{' && text[i] != '}' {
        if i < |prefix| { assert text[i] == prefix[i]; } else { assert text[i] == name.s[i - |prefix|]; }
      }
    }
    PyFormat.FormatNoBraces(text, name);
  }

  /** `OA.send_notification` for a notice that could be built; `manager` is
      the notification manager lookup's outcome and `posted` that of the
      post. A notice that could not be built posts nothing. */
  function Notify(notice: Result<OaV1.Notice>, manager: Result<Json>, posted: Result<Json>): (o: Outcome<Json>)
    ensures notice.Raise? ==> o == Outcome(Raise(notice.exc), [])
    ensures notice.Ok? ==> o == OaV1.SendNotification(notice.value, manager, posted)
  {
    match notice
    case Raise(e) => Outcome(Raise(e), [])
    case Ok(n) => OaV1.SendNotification(n, manager, posted)
  }

  // -------------------------------------------------------------- users

  /** The user `make_fallball_user` refers to: its client and email. */
  datatype UserRef = UserRef(clientName: Json, email: Json)

  /** `make_fallball_user(oa_user_service_id)`: `service` is the fetched
      user service and `lookup` the client-name lookup by tenant id. */
  function MakeFallballUser(service: Result<Json>, lookup: Json -> Result<Json>): (r: Result<UserRef>)
    ensures r.Ok? ==> (
      && service.Ok?
      && At(service.value, ["tenant", "aps", "id"]).Some?
      && lookup(At(service.value, ["tenant", "aps", "id"]).value).Ok?
      && r.value.clientName == lookup(At(service.value, ["tenant", "aps", "id"]).value).value
      && At(service.value, ["userId"]) == Some(r.value.email))
    ensures service.Raise? ==> r == Raise(service.exc)
  {
    assert ["tenant", "aps", "id"][1..] == ["aps", "id"] && ["aps", "id"][1..] == ["id"];
    assert ["id"][1..] == [] && ["userId"][1..] == [];
    var s :- service;
    var tenant :- Index(s, "tenant");
    var aps :- Index(tenant, "aps");
    var tenantId :- Index(aps, "id");
    var name :- lookup(tenantId);
    var email :- Index(s, "userId");
    Ok(UserRef(name, email))
  }

  /** `OA.get_resources(...)[0]` */
  function FirstResource(answer: Result<Json>): (r: Result<Json>)
    ensures r.Ok? <==> answer.Ok? && First(answer.value).Ok?
    ensures answer.Ok? && answer.value.Arr? && |answer.value.items| > 0 ==> r == Ok(answer.value.items[0])
  {
    var list :- answer;
    First(list)
  }

  /** The answers `UserList.post` sees, in order. */
  datatype PostUpstream = PostUpstream(
    name: Result<Json>,
    client: Result<ClientState>,
    oaUser: Result<Json>,
    created: Result<Json>,
    manager: Result<Json>,
    posted: Result<Json>)

  /** The user `UserList.post` creates, and the platform user it is for. */
  function PrepareUser(config: Config, userType: Option<string>, up: PostUpstream): (r: Result<(NewUser, Json)>)
    ensures r.Ok? ==> (
      && up.name.Ok? && up.client.Ok? && up.oaUser.Ok?
      && Index(up.client.value.storage, "limit").Ok?
      && r.value.1 == up.oaUser.value
      && Index(up.oaUser.value, "email").Ok? && Index(up.oaUser.value, "isAccountAdmin").Ok?
      && r.value.0 == NewUser(up.name.value, up.oaUser.value.fields["email"], up.oaUser.value.fields["isAccountAdmin"],
                               Int(UserRules.UserLimit(config, up.client.value.storage.fields["limit"], userType)),
                               Some(UserRules.ProfileFor(config, userType))))
    ensures r.Ok? && UserRules.IsZero(up.client.value.storage.fields["limit"]) ==> r.value.0.storageLimit == Int(0)
  {
    var name :- up.name;
    var client :- up.client;
    var clientLimit :- Index(client.storage, "limit");
    var limit := UserRules.UserLimit(config, clientLimit, userType);
    var oaUser :- up.oaUser;
    var email :- Index(oaUser, "email");
    var admin :- Index(oaUser, "isAccountAdmin");
    Ok((NewUser(name, email, admin, Int(limit), Some(UserRules.ProfileFor(config, userType))), oaUser))
  }

  /** `UserList.post` */
  function UserListPost(config: Config, userType: Option<string>, initiator: Option<string>, up: PostUpstream): (o: Outcome<Response>)
    ensures PrepareUser(config, userType, up).Raise? ==> o == Outcome(Raise(PrepareUser(config, userType, up).exc), [])
    ensures PrepareUser(config, userType, up).Ok? ==> (
      var user := PrepareUser(config, userType, up).value.0;
      |o.effects| >= 1 && o.effects[0] == CreateUser(user) &&
      (o.result.Ok? ==> o.result.value == Response(Obj(map["userId" := user.email]), 201, map[])))
    ensures o.result.Ok? ==> (
      var oaUser := PrepareUser(config, userType, up).value.1;
      var n := Notify(UserNotice("ready", oaUser, PostMessage, PostPrefix + "{}", initiator), up.manager, up.posted);
      up.created.Ok? && n.result.Ok? && o.effects == [o.effects[0]] + n.effects)
  {
    match PrepareUser(config, userType, up)
    case Raise(e) => Outcome(Raise(e), [])
    case Ok(prepared) =>
      var create := CreateUser(prepared.0);
      if up.created.Raise? then Outcome(Raise(up.created.exc), [create])
      else
        var n := Notify(UserNotice("ready", prepared.1, PostMessage, PostPrefix + "{}", initiator), up.manager, up.posted);
        if n.result.Raise? then Outcome(Raise(n.result.exc), [create] + n.effects)
        else Outcome(Ok(Response(Obj(map["userId" := prepared.0.email]), 201, map[])), [create] + n.effects)
  }

  /** The answers `User.delete` sees, in order. */
  datatype DeleteUpstream = DeleteUpstream(
    service: Result<Json>,
    lookup: Json -> Result<Json>,
    users: Result<Json>,
    deleted: Result<Json>,
    manager: Result<Json>,
    posted: Result<Json>)

  /** `User.delete`: remove the Storage Service user, then notify. */
  function UserDelete(formatting: Formatting, initiator: Option<string>, up: DeleteUpstream): (o: Outcome<Response>)
    ensures o.effects != [] <==> MakeFallballUser(up.service, up.lookup).Ok? && FirstResource(up.users).Ok?
    ensures o.effects != [] ==> (
      var u := MakeFallballUser(up.service, up.lookup).value;
      o.effects[0] == DeleteUser(u.clientName, u.email))
    ensures o.result.Ok? ==> (
      && o.result.value == Response(EmptyObj, 204, map[])
      && |o.effects| >= 1
      && o.effects == [o.effects[0]] + Notify(ChangeNotice(formatting, FirstResource(up.users).value, DeleteMessage, DeletePrefix, initiator), up.manager, up.posted).effects)
  {
    match MakeFallballUser(up.service, up.lookup)
    case Raise(e) => Outcome(Raise(e), [])
    case Ok(u) =>
      match FirstResource(up.users)
      case Raise(e) => Outcome(Raise(e), [])
      case Ok(oaUser) =>
        var delete := DeleteUser(u.clientName, u.email);
        if up.deleted.Raise? then Outcome(Raise(up.deleted.exc), [delete])
        else
          var n := Notify(ChangeNotice(formatting, oaUser, DeleteMessage, DeletePrefix, initiator), up.manager, up.posted);
          if n.result.Raise? then Outcome(Raise(n.result.exc), [delete] + n.effects)
          else Outcome(Ok(Response(EmptyObj, 204, map[])), [delete] + n.effects)
  }

  /** The answers `User.put` sees, in order: the user service, the client
      name lookup, the user's and the client's refresh, the platform user
      and tenant lists, the update, and (on a type change) the second
      client refresh and the counter push, then the notification. */
  datatype PutUpstream = PutUpstream(
    service: Result<Json>,
    lookup: Json -> Result<Json>,
    user: Result<UserState>,
    client: Result<ClientState>,
    users: Result<Json>,
    tenants: Result<Json>,
    updated: Result<Json>,
    resync: Result<ClientState>,
    tenantPut: Result<Json>,
    manager: Result<Json>,
    posted: Result<Json>)

  /** `user.storage['limit'] = limit`: item assignment needs a dict. */
  function SetLimit(storage: Json, limit: int): (r: Result<Json>)
    ensures r.Ok? <==> storage.Obj?
    ensures r.Ok? ==> (r.value.Obj? && r.value.fields.Keys == storage.fields.Keys + {"limit"} &&
      r.value.fields["limit"] == Int(limit) &&
      (forall k :: k in storage.fields && k != "limit" ==> r.value.fields[k] == storage.fields[k]))
  {
    if storage.Obj? then Ok(Obj(storage.fields["limit" := Int(limit)])) else Raise(TypeError)
  }

  /** What `User.put` decided before `user.update()`. */
  datatype PutPlan = PutPlan(owner: Json, state: UserState, oaUser: Json, tenantId: Json)

  function PreparePut(config: Config, userType: Option<string>, up: PutUpstream): (r: Result<PutPlan>)
    ensures r.Ok? ==> (
      && MakeFallballUser(up.service, up.lookup).Ok? && up.user.Ok? && up.client.Ok?
      && Index(up.client.value.storage, "limit").Ok?
      && r.value.owner == MakeFallballUser(up.service, up.lookup).value.clientName
      && r.value.state.email == up.user.value.email && r.value.state.admin == up.user.value.admin
      && SetLimit(up.user.value.storage, UserRules.UserLimit(config, up.client.value.storage.fields["limit"], userType)) == Ok(r.value.state.storage)
      && r.value.state.profileType == UserRules.ProfileAfterPut(config, userType, up.user.value.profileType)
      && FirstResource(up.users) == Ok(r.value.oaUser))
    ensures r.Ok? && UserRules.IsZero(up.client.value.storage.fields["limit"]) ==>
      r.value.state.storage.fields["limit"] == Int(0)
  {
    var u :- MakeFallballUser(up.service, up.lookup);
    var state :- up.user;
    var client :- up.client;
    var clientLimit :- Index(client.storage, "limit");
    var storage :- SetLimit(state.storage, UserRules.UserLimit(config, clientLimit, userType));
    var profile := UserRules.ProfileAfterPut(config, userType, state.profileType);
    var oaUser :- FirstResource(up.users);
    var tenant :- FirstResource(up.tenants);
    var aps :- Index(tenant, "aps");
    var tenantId :- Index(aps, "id");
    Ok(PutPlan(u.clientName, UserState(state.email, state.admin, storage, profile), oaUser, tenantId))
  }

  /** After the update: the counter re-sync when the type is known, then
      the notification. */
  function AfterUpdate(formatting: Formatting, config: Config, known: bool, plan: PutPlan, initiator: Option<string>, up: PutUpstream): (o: Outcome<Response>)
    ensures o.result.Ok? ==> o.result.value == Response(EmptyObj, 200, map[])
    ensures o.result.Ok? ==> (|o.effects| == (if known then 2 else 1) && o.effects[|o.effects| - 1].Notify? &&
      (known ==> o.effects[0].PutTenant?))
    ensures o.result.Ok? && known ==> (
      var sync := TenantV1.SyncTenantUsage(config, plan.tenantId, up.resync, up.tenantPut);
      sync.result.Ok? && o.effects == sync.effects + Notify(ChangeNotice(formatting, plan.oaUser, PutMessage, PutPrefix, initiator), up.manager, up.posted).effects)
    ensures o.result.Ok? && !known ==>
      o.effects == Notify(ChangeNotice(formatting, plan.oaUser, PutMessage, PutPrefix, initiator), up.manager, up.posted).effects
  {
    var sync := if known then TenantV1.SyncTenantUsage(config, plan.tenantId, up.resync, up.tenantPut) else Outcome(Ok(Null), []);
    if sync.result.Raise? then Outcome(Raise(sync.result.exc), sync.effects)
    else
      var n := Notify(ChangeNotice(formatting, plan.oaUser, PutMessage, PutPrefix, initiator), up.manager, up.posted);
      if n.result.Raise? then Outcome(Raise(n.result.exc), sync.effects + n.effects)
      else Outcome(Ok(Response(EmptyObj, 200, map[])), sync.effects + n.effects)
  }

  /** `User.put` */
  function UserPut(formatting: Formatting, config: Config, userType: Option<string>, initiator: Option<string>, up: PutUpstream): (o: Outcome<Response>)
    ensures PreparePut(config, userType, up).Raise? ==> o == Outcome(Raise(PreparePut(config, userType, up).exc), [])
    ensures PreparePut(config, userType, up).Ok? ==> (
      var plan := PreparePut(config, userType, up).value;
      |o.effects| >= 1 && o.effects[0] == UpdateUser(plan.owner, plan.state) &&
      (up.updated.Ok? ==> o == (var a := AfterUpdate(formatting, config, UserRules.KnownType(config, userType), plan, initiator, up);
                                Outcome(a.result, [o.effects[0]] + a.effects))))
    ensures up.updated.Raise? ==> o.result.Raise?
  {
    match PreparePut(config, userType, up)
    case Raise(e) => Outcome(Raise(e), [])
    case Ok(plan) =>
      var update := UpdateUser(plan.owner, plan.state);
      if up.updated.Raise? then Outcome(Raise(up.updated.exc), [update])
      else
        var a := AfterUpdate(formatting, config, UserRules.KnownType(config, userType), plan, initiator, up);
        Outcome(a.result, [update] + a.effects)
  }

  /** A successful update sends the update, then the counter push exactly
      when the request names a known user type, then the notification. */
  lemma PutResyncsOnlyForKnownType(formatting: Formatting, config: Config, userType: Option<string>, initiator: Option<string>, up: PutUpstream)
    requires UserPut(formatting, config, userType, initiator, up).result.Ok?
    ensures var o := UserPut(formatting, config, userType, initiator, up);
      && |o.effects| == (if UserRules.KnownType(config, userType) then 3 else 2)
      && o.effects[0].UpdateUser?
      && (o.effects[1].PutTenant? <==> UserRules.KnownType(config, userType))
      && o.effects[|o.effects| - 1].Notify?
  {
    var plan := PreparePut(config, userType, up).value;
    var a := AfterUpdate(formatting, config, UserRules.KnownType(config, userType), plan, initiator, up);
    assert UserPut(formatting, config, userType, initiator, up).effects == [UpdateUser(plan.owner, plan.state)] + a.effects;
  }

  /** As written, a delete for a user whose display name is `{x}` deletes
      the Storage Service user and then raises KeyError('x'): nothing is
      posted and the handler answers with an error. */
  lemma DeleteAsWrittenFailsAfterDelete(initiator: Option<string>, up: DeleteUpstream)
    requires MakeFallballUser(up.service, up.lookup).Ok?
    requires FirstResource(up.users) == Ok(BracedUser)
    requires up.deleted.Ok?
    ensures var u := MakeFallballUser(up.service, up.lookup).value;
      UserDelete(Twice, initiator, up) == Outcome(Raise(KeyError("x")), [DeleteUser(u.clientName, u.email)])
  {
    PreformattedDetailsRaise(initiator);
    assert ChangeNotice(Twice, BracedUser, DeleteMessage, DeletePrefix, initiator) == Raise(KeyError("x")) by {
      assert PyFormat.NoBraces(DeletePrefix);
      assert ["displayName"][1..] == [];
      assert At(BracedUser, ["displayName"]) == Some(Str("{x}"));
      PyFormat.FormatTrailingField(DeletePrefix, Str("{x}"));
      assert "x"[0] == 'x';
      assert PyFormat.NoBraces("x") && !PyFormat.HasSpecial("x") && !AllDigits("x");
      PyFormat.FormatNamedField(DeletePrefix, "x", Str("{x}"));
      assert DeletePrefix + "{x}" == DeletePrefix + "{" + "x" + "}";
    }
  }

  /** As written, an update for a user whose display name is `{x}` makes the
      update (and the counter push of a known type) and then raises
      KeyError('x'): nothing is posted. */
  lemma PutAsWrittenFailsAfterUpdate(config: Config, userType: Option<string>, initiator: Option<string>, up: PutUpstream)
    requires PreparePut(config, userType, up).Ok?
    requires PreparePut(config, userType, up).value.oaUser == BracedUser
    requires up.updated.Ok?
    ensures var plan := PreparePut(config, userType, up).value;
      var sync := TenantV1.SyncTenantUsage(config, plan.tenantId, up.resync, up.tenantPut);
      && (!UserRules.KnownType(config, userType) ==>
            UserPut(Twice, config, userType, initiator, up) == Outcome(Raise(KeyError("x")), [UpdateUser(plan.owner, plan.state)]))
      && (UserRules.KnownType(config, userType) && sync.result.Ok? ==>
            UserPut(Twice, config, userType, initiator, up) == Outcome(Raise(KeyError("x")), [UpdateUser(plan.owner, plan.state)] + sync.effects))
  {
    PreformattedDetailsRaise(initiator);
    assert ChangeNotice(Twice, BracedUser, PutMessage, PutPrefix, initiator) == Raise(KeyError("x"));
  }
}

=== FILE: user_rules.dfy ===
/** The user quota and profile rules both revisions share
    (`get_limit`, `user_types`, and the zero-quota rule of POST and PUT).
 */
module UserRules {
  import opened PyJson
  import opened Settings

  /** `get_limit(user_type)`; a request without a type (`None`) never equals
      a configured resource name. */
  function GetLimit(config: Config, userType: Option<string>): (r: int)
    ensures userType == Some(config.goldUsersResource) ==> r == config.goldUserLimit
    ensures userType != Some(config.goldUsersResource) ==> r == config.defaultUserLimit
  {
    if userType == Some(config.goldUsersResource) then config.goldUserLimit else config.defaultUserLimit
  }

  /** `user_types`: a dict display, so when both resource names coincide
      the later entry, 'gold', is kept. */
  function UserTypes(config: Config): (r: map<string, string>)
    ensures r.Keys == {config.usersResource, config.goldUsersResource}
    ensures r[config.goldUsersResource] == "gold"
    ensures config.usersResource != config.goldUsersResource ==> r[config.usersResource] == "default"
  {
    map[config.usersResource := "default", config.goldUsersResource := "gold"]
  }

  /** `user_type in user_types` */
  predicate KnownType(config: Config, userType: Option<string>) {
    userType.Some? && userType.value in UserTypes(config)
  }

  /** `user_types.get(user_type, 'default')` */
  function ProfileFor(config: Config, userType: Option<string>): (r: string)
    ensures r == "gold" <==> userType == Some(config.goldUsersResource)
    ensures r != "gold" ==> r == "default"
  {
    if KnownType(config, userType) then UserTypes(config)[userType.value] else "default"
  }

  /** The profile after a PUT: the mapped type when the type is known,
      otherwise the user's current profile. */
  function ProfileAfterPut(config: Config, userType: Option<string>, current: Option<string>): (r: Option<string>)
    ensures !KnownType(config, userType) ==> r == current
    ensures KnownType(config, userType) ==> r == Some(ProfileFor(config, userType))
  {
    if KnownType(config, userType) then Some(UserTypes(config)[userType.value]) else current
  }

  /** Python's `x == 0`: true for the integer 0 and for False. */
  predicate IsZero(j: Json) {
    j == Int(0) || j == Bool(false)
  }

  /** `0 if client.storage['limit'] == 0 else get_limit(user_type)`: a
      client without disk quota gives its users none either. */
  function UserLimit(config: Config, clientLimit: Json, userType: Option<string>): (r: int)
    ensures IsZero(clientLimit) ==> r == 0
    ensures !IsZero(clientLimit) ==> r == GetLimit(config, userType)
  {
    if IsZero(clientLimit) then 0 else GetLimit(config, userType)
  }

  /** The quota and the profile agree: when the two limits differ, a user
      gets the gold limit exactly when the profile is 'gold'. */
  lemma LimitMatchesProfile(config: Config, userType: Option<string>)
    requires config.goldUserLimit != config.defaultUserLimit
    ensures GetLimit(config, userType) == config.goldUserLimit <==> ProfileFor(config, userType) == "gold"
  {
  }

  /** The rule gives zero or one of the two configured limits. */
  lemma UserLimitCases(config: Config, clientLimit: Json, userType: Option<string>)
    ensures UserLimit(config, clientLimit, userType) in {0, config.defaultUserLimit, config.goldUserLimit}
  {
  }
}
